=== FILE: README.md ===
# thudbot core, modelled in Dafny

thudbot is a hint assistant for the adventure game *The Space Bar*. It
answers in character as "Zelda", the player's PDA. One turn passes through a
graph of nodes that share a state record:

- the **router** decides whether the turn repeats the previous question and
  escalates the hint level, answers small talk directly, or starts a new
  question at level 1;
- the **hint finder** asks the retrieval chain for a hint and its context;
- the **verifier** asks a model whether that hint is supported by the context;
- the **character rewriter** turns the hint into Zelda's voice, with a
  guardrail against franchise terms;
- the **output formatter** renders the hint with its level and keeps the
  chat history bounded;
- the **error composer** writes a clarification request when verification
  fails, under the same guardrail.

Around the service sit:

- the HTTP layer's message validation;
- an older keyword router;
- the regression runner, which reads the router's printed log back into
  levels, escalation kinds and search queries;
- the test-report analyzer and the dataset validator;
- the trace scanner that searches logged traces for secrets;
- the retrieval evaluation framework (configuration, benchmark checks,
  hit@k and recall@k);
- the chunk export tool;
- the line chunker used to build the collection.

Every node is a pure function from the state, plus its collaborators, to the
new state. Collaborators are parameters:

- the language model, as a function from a structured prompt to an outcome
  (`Replied`, `ApiFailure`, `OtherFailure`);
- the retrieval chain and the vector-store probe;
- the router's phrase tests, classifier and keyword extractor;
- the system's reply in the dataset validator;
- the regular-expression engine of the trace scanner.

A key read with `state[key]` that is absent is the error `MissingKey`. A key
read with `state.get` falls back to the default the code gives.

Modules, one per file:

- `Results`, `Text`: the option/result types, and the string builtins the code
  relies on (strip, lower/upper, split/join, `in`, words);
- `GraphState`, `Llm`: the state and the prompt/outcome types;
- `Router`, `LegacyRouter`, `HintFinder`, `Verifier`, `Guardrail`,
  `PersonaRewriter`, `ErrorComposer`, `FormatOutput`, `Api`: the service;
- `Regression`, `ReportAnalyzer`, `DatasetValidation`, `TraceScanner`: the
  test tooling;
- `TefConfig`, `TefMetrics`, `TefEvaluator`, `ViewChunks`, `Chunking`: the
  retrieval tools.

### Where the code and its stated design part ways

The character node is described as never letting a franchise term reach the
player. The code does not quite do that. When the model's rewrite is
rejected, the fallback embeds the original hint's first sentence without
scanning it. After an API error, the fallback embeds the whole hint.
`PersonaRewriter.DirtyFirstSentenceSurvivesGuardrail` and
`PersonaRewriter.DirtyHintSurvivesApiFailure` prove that a forbidden term in
the hint reaches the output on those paths. `PersonaRewriter.CleanHintStaysClean`
proves the guarantee that does hold: a hint whose lower-cased text names
none of the franchise's core words never yields an output the guardrail
would catch. A hint that is merely not caught, but names a core word,
gets no such promise. The error composer has no such gap: its fallbacks are fixed texts,
and `ErrorComposer.ErrorReplyIsAlwaysClean` holds for every model answer. The
model follows the code.

## Model

| member | source | states |
|---|---|---|
| GraphState.NewTurn | apps/backend/thudbot_core/state.py:4-31 | a state holding only the player's input: every other key declared for the state is absent, so every `get` default applies (the code that builds the first state of a conversation is not part of this model) |
| Router.ExitOf | apps/backend/thudbot_core/router_node.py:55-118 | the five exits are exclusive and tested in the code's order: vague follow-up with history, then small talk, then two or more shared keywords, then an exact repeat, else a new question |
| Router.Route | apps/backend/thudbot_core/router_node.py:43-121 | per exit: a vague follow-up raises the level by one and swaps in the previous question when there is one; small talk sets only the fixed answer; an escalation raises the level by one; a new question stores its id and keywords at level 1; only the escalating and new-question exits record the classification |
| Router.RouteSetsLevel | apps/backend/thudbot_core/router_node.py:70-117 | every exit that continues to the hint flow leaves a level set: one more than the stored one (default 1) on escalation, 1 on a new question |
| Router.VagueBeatsSmalltalk | apps/backend/thudbot_core/router_node.py:55-82 | an input that is both vague and small talk escalates when there is history, and the classifier is not consulted |
| Router.ClassificationIsAdvisory | apps/backend/thudbot_core/router_node.py:84-91 | the classifier's answer changes nothing in the state but the recorded classification |
| Router.EmptyInputEscalates | apps/backend/thudbot_core/router_node.py:99-108 | with no stored question the id reads as "", so an empty input counts as an exact repeat and escalates |
| Router.RepeatedQuestionClimbs | apps/backend/thudbot_core/router_node.py:107-117 | asking the same plain question k times, starting where it is new, ends at level k with the input stored as the question and the history untouched |
| Router.HintFlowLine | apps/backend/thudbot_core/router_node.py:120 | the hint-flow line ends with the marker, the level's digits and `)` |
| Router.DecisionLines | apps/backend/thudbot_core/router_node.py:58-120 | the decision lines of each exit; every exit but small talk ends with the hint-flow line of its tag and level |
| Router.SmalltalkPreviewIsPrinted | apps/backend/thudbot_core/router_node.py:78-81 | the small-talk line shows the first fifty characters of the fixed answer |
| LegacyRouter.Route | src/router_node.py:5-22 | input without "hint" (any case) is answered directly with the state unchanged; a repeat of the stored question raises the level, or fails when no level is stored; any other hint request stores itself at level 1 |
| LegacyRouter.HintRequestRemembersInput | src/router_node.py:13-22 | after any successful hint request the stored question is that request and a level is stored |
| LegacyRouter.RepeatedHintClimbs | src/router_node.py:16-21 | the same hint request made k times from a fresh start ends at level k |
| LegacyRouter.RepeatsClimb | src/router_node.py:16-18 | each repeat of the stored question adds exactly one level |
| LegacyRouter.RepeatIsCaseSensitive | src/router_node.py:7-11 | the hint test ignores case but the repeat test does not: a differently cased request starts again at level 1 |
| LegacyRouter.RepeatWithoutLevelFails | src/router_node.py:16-17 | a repeat with no stored level fails with the missing-key error |
| HintFinder.LevelFilterIsCumulative | apps/backend/thudbot_core/agent.py:165 | the `$lte` filter is cumulative: a hint admitted at a level is admitted at every higher level |
| HintFinder.RouteOf | apps/backend/thudbot_core/agent.py:157-191 | the four branches (filtered hit, filtered miss, no vector store, probe raised) correspond one-to-one to the probe's outcomes |
| HintFinder.DocLines | apps/backend/thudbot_core/agent.py:200-202 | one numbered line per retrieved document, in retrieval order |
| HintFinder.ContextText | apps/backend/thudbot_core/agent.py:198-204 | a non-list context is kept as its text; no documents give ""; otherwise the text starts with document 1's line |
| HintFinder.ContextTextAppend | apps/backend/thudbot_core/agent.py:200-202 | one more document appends a blank line and its numbered line |
| HintFinder.GetDirectHintWithContext | apps/backend/thudbot_core/agent.py:139-226 | when the probe works and the first chain invocation answers, the result is that answer's response and formatted context; when that invocation raises, the handler's second invocation decides; after a failed probe the handler's invocation decides; retrieval fails exactly when the last invocation raised |
| HintFinder.RetrievalIgnoresLevel | apps/backend/thudbot_core/agent.py:157-191 | for a chain that answers the same way when invoked again, neither the requested level nor the probe's outcome changes the result |
| HintFinder.RetryRescuesTransientFailure | apps/backend/thudbot_core/agent.py:188-191 | when the probe works but the first invocation raises, the handler's second answer is returned |
| HintFinder.FindHint | apps/backend/thudbot_core/find_hint_node.py:6-26 | the node succeeds exactly when retrieval does, then stores the retrieved response and context as hint and context for the input at the stored level (default 1) and changes nothing else; a retrieval failure propagates |
| HintFinder.FindHintIgnoresLevel | apps/backend/thudbot_core/find_hint_node.py:9-21 | for a chain that answers the same way when invoked again, two turns on the same input both succeed or both fail, and store the same hint and context, whatever their levels |
| Verifier.Verdict | apps/backend/thudbot_core/verify_correctness_node.py:62 | the verdict is stripped and upper-cased: no longer than the reply, and empty exactly when the reply is blank |
| Verifier.PaddedReplyVerdict | apps/backend/thudbot_core/verify_correctness_node.py:62 | the verdict of any reply is its text between the surrounding whitespace, upper-cased |
| Verifier.VerdictIdempotent | apps/backend/thudbot_core/verify_correctness_node.py:62 | normalising a verdict twice changes nothing |
| Verifier.PaddedVerifiedPasses | apps/backend/thudbot_core/verify_correctness_node.py:62-69 | "verified" in any case, padded with whitespace, passes |
| Verifier.VerifyCorrectness | apps/backend/thudbot_core/verify_correctness_node.py:8-95 | a missing hint or context fails the turn; otherwise passed is true exactly when the reply's verdict is VERIFIED; a failure records the verdict, API_ERROR or VERIFICATION_ERROR; nothing else changes |
| Guardrail.QuotingIsDirty | apps/backend/thudbot_core/maintain_character_node.py:36-39 | a reply quoting a forbidden term in any letter case is caught |
| Guardrail.DirtyInside | apps/backend/thudbot_core/maintain_character_node.py:36-39 | a text that embeds a caught text is caught |
| Guardrail.FreeOfCoreWordsIsClean | apps/backend/thudbot_core/maintain_character_node.py:36-39 | a text whose lower-cased form holds none of the franchise's core words holds none of the forbidden terms |
| Guardrail.CertifiedIsFree | apps/backend/thudbot_core/generate_error_message_node.py:46-49 | a fixed text certified piece by piece holds none of the franchise's core words |
| PersonaRewriter.FirstSentence | apps/backend/thudbot_core/maintain_character_node.py:42 | `hint.split('.')[0]`: a prefix of the hint without '.', ending at the first '.' or at the end |
| PersonaRewriter.RewrittenHint | apps/backend/thudbot_core/maintain_character_node.py:33-59 | a clean reply is kept; a caught reply gives the guardrail fallback; an API error gives the API fallback; any other failure keeps the hint |
| PersonaRewriter.MaintainCharacter | apps/backend/thudbot_core/maintain_character_node.py:8-64 | a missing hint fails the turn; otherwise only the hint changes, to the rewrite for the model's outcome |
| PersonaRewriter.GuardrailFallbackKeepsDirt | apps/backend/thudbot_core/maintain_character_node.py:42 | a forbidden term in the hint's first sentence is caught again in the guardrail fallback |
| PersonaRewriter.ApiFallbackKeepsDirt | apps/backend/thudbot_core/maintain_character_node.py:52 | a forbidden term anywhere in the hint is caught again in the API fallback |
| PersonaRewriter.DirtyFirstSentenceSurvivesGuardrail | apps/backend/thudbot_core/maintain_character_node.py:39-43 | the node can output a forbidden term even though it rejected the model's reply for one |
| PersonaRewriter.DirtyHintSurvivesApiFailure | apps/backend/thudbot_core/maintain_character_node.py:49-53 | after an API error the node outputs any forbidden term the hint had |
| PersonaRewriter.GuardrailFallbackIsFree | apps/backend/thudbot_core/maintain_character_node.py:42 | the guardrail fallback's own text adds none of the franchise's core words: for a hint free of them, so is the fallback |
| PersonaRewriter.ApiFallbackIsFree | apps/backend/thudbot_core/maintain_character_node.py:52 | the API fallback's own text adds none of the franchise's core words: for a hint free of them, so is the fallback |
| PersonaRewriter.CleanHintStaysClean | apps/backend/thudbot_core/maintain_character_node.py:33-59 | for a hint free of the franchise's core words, no outcome of the model call gives a hint the guardrail would catch |
| ErrorComposer.NeedDetailsReplyIsClean | apps/backend/thudbot_core/generate_error_message_node.py:52 | the need-details fallback passes the guardrail |
| ErrorComposer.TechnicalDifficultiesReplyIsClean | apps/backend/thudbot_core/generate_error_message_node.py:62 | the API-error fallback passes the guardrail |
| ErrorComposer.UltimateReplyIsClean | apps/backend/thudbot_core/generate_error_message_node.py:69 | the last-resort fallback passes the guardrail |
| ErrorComposer.ReplyFor | apps/backend/thudbot_core/generate_error_message_node.py:43-70 | with clean fallbacks, the reply is clean and is either one of them or the model's own clean answer |
| ErrorComposer.ClarificationReply | apps/backend/thudbot_core/generate_error_message_node.py:43-70 | the reply is clean; a clean answer is kept; a caught answer, an API error and any other failure each give their own fallback |
| ErrorComposer.GenerateErrorMessage | apps/backend/thudbot_core/generate_error_message_node.py:8-75 | the node sets only the formatted output, to the reply for the model's answer to the player's question |
| ErrorComposer.ErrorReplyIsAlwaysClean | apps/backend/thudbot_core/generate_error_message_node.py:43-70 | whatever the model does, the output is set and holds no forbidden term |
| ErrorComposer.ErrorReplyIgnoresRejectedHint | apps/backend/thudbot_core/generate_error_message_node.py:10-11 | the rejected hint and the failure reason never change the output |
| FormatOutput.RenderHint | apps/backend/thudbot_core/format_output_node.py:11 | the rendered text starts with the hint label, ends with the hint, and has the level in between |
| FormatOutput.RenderHintInjective | apps/backend/thudbot_core/format_output_node.py:11 | two renderings are equal only for the same level and hint |
| FormatOutput.AppendExchange | apps/backend/thudbot_core/format_output_node.py:15-23 | the new history is the last at most twenty messages of the old one plus the player's message and the reply, which come last |
| FormatOutput.AppendExchangeKeepsAlternating | apps/backend/thudbot_core/format_output_node.py:18-23 | a history of whole exchanges stays one after appending and trimming |
| FormatOutput.FormatOutputNode | apps/backend/thudbot_core/format_output_node.py:4-30 | a missing hint fails the turn; otherwise the output is the rendered hint at the stored level or 1, the history gains the exchange, and nothing else changes |
| FormatOutput.FormattedHistoryIsBounded | apps/backend/thudbot_core/format_output_node.py:22-25 | however long the stored history, at most twenty messages are kept and the last one is the reply |
| Api.ValidateUserMessage | apps/backend/thudbot_core/api.py:52-59 | a blank message is rejected as empty, then one longer than 5000 characters as too long; an accepted message is returned stripped, non-empty and within the limit |
| Api.BlankLongMessageIsEmpty | apps/backend/thudbot_core/api.py:53-57 | emptiness is tested before length: a blank message of any length is reported as empty |
| Api.ValidationIsIdempotent | apps/backend/thudbot_core/api.py:59 | an accepted message passes validation again unchanged |
| Api.NewChatRequest | apps/backend/thudbot_core/api.py:46-59 | a request is built exactly when its message validates, with the stripped message and the session "default" when none is given |
| Api.ClearSessionMessage | apps/backend/thudbot_core/api.py:94-98 | the reply names the session |
| Api.ClearSessionReportsOutcome | apps/backend/thudbot_core/api.py:95-98 | the reply reports success exactly when the session was removed |
| Regression.RunLength | apps/backend/tests/regression/run_regression.py:183 | the run of class characters at the start of a text is within it |
| Regression.GroupAt | apps/backend/tests/regression/run_regression.py:183 | a group match is a non-empty run of the class followed by the closing character |
| Regression.Search | apps/backend/tests/regression/run_regression.py:183 | `re.search` finds the group of a match starting at some position |
| Regression.ExtractHintLevel | apps/backend/tests/regression/run_regression.py:179-192 | the level of the first hint-flow line in the log when there is one; 1 when neither the log nor the rendered output shows a level |
| Regression.RenderedLevelRoundTrip | apps/backend/tests/regression/run_regression.py:187-190 | with nothing in the log, the level of a rendered hint is read back from the output |
| Regression.HintFlowLineRoundTrip | apps/backend/tests/regression/run_regression.py:183-185 | the router's hint-flow line is read back as the level it announced |
| Regression.EscalationType | apps/backend/tests/regression/run_regression.py:194-202 | keyword, then exact, then vague escalation, tested in that order; "" when the log shows none |
| Regression.KeywordLogLevel | apps/backend/tests/regression/run_regression.py:183-185 | the log of a keyword escalation gives back the level it stored |
| Regression.ExactLogLevel | apps/backend/tests/regression/run_regression.py:183-185 | the log of an exact-repeat escalation gives back the level it stored |
| Regression.NewQuestionLogLevel | apps/backend/tests/regression/run_regression.py:183-185 | the log of a new question gives back level 1 |
| Regression.VagueLogLevel | apps/backend/tests/regression/run_regression.py:183-185 | the log of a vague escalation gives back the level it stored |
| Regression.KeywordLogKind | apps/backend/tests/regression/run_regression.py:196-197 | a keyword escalation's log is classed as keyword escalation |
| Regression.ExactLogKind | apps/backend/tests/regression/run_regression.py:198-199 | an exact-repeat escalation's log is classed as exact escalation |
| Regression.VagueLogKind | apps/backend/tests/regression/run_regression.py:200-201 | a vague escalation's log is classed as vague escalation |
| Regression.NewQuestionLogKind | apps/backend/tests/regression/run_regression.py:194-202 | a new question's log shows no escalation |
| Regression.SmalltalkLogKind | apps/backend/tests/regression/run_regression.py:194-202 | a small-talk log shows no escalation |
| Regression.DecisionLogRoundTrip | apps/backend/tests/regression/run_regression.py:194-202 | for every exit, the escalation kind read from the router's lines is the exit the router took |
| Regression.ExtractSearchQuery | apps/backend/tests/regression/run_regression.py:204-212 | "N/A" when no hint-finder input line matches; otherwise its first fifty characters are a prefix of the quoted text, which holds no apostrophe |
| Regression.SearchQueryRoundTrip | apps/backend/tests/regression/run_regression.py:208-211 | after lines that do not mention the hint finder, its input line gives back the input up to its first apostrophe, shortened |
| Regression.EmptyInputHasNoQuery | apps/backend/tests/regression/run_regression.py:208-212 | an empty input gives an empty quotation, which the pattern rejects, so the query reads "N/A" |
| Regression.RouterLabel | apps/backend/tests/regression/run_regression.py:130-139 | OFF_TOPIC exactly for the canned off-topic replies; otherwise GAME_RELATED with the escalation kind, when there is one, and the level |
| Regression.RouterLabelOfDecision | apps/backend/tests/regression/run_regression.py:125-139 | the label of a game-related turn shows the router's exit and the level it stored |
| Regression.VerifyLabelOf | apps/backend/tests/regression/run_regression.py:130-151 | each of the six labels holds exactly when its test passes and every earlier one fails: off topic, a request for detail, the hint marker, "too specific", hallucination or "not enough information", else unknown |
| Regression.DetailRequestBeatsHint | apps/backend/tests/regression/run_regression.py:142-145 | a rendered hint that asks for more detail is labelled insufficient context although it carries the hint marker |
| Regression.RenderedHintIsVerified | apps/backend/tests/regression/run_regression.py:144-145 | any other rendered hint is labelled verified |
| Regression.FindFrom | apps/backend/tests/regression/run_regression.py:155-156 | `str.find`: the first occurrence at or after the start |
| Regression.ExcerptEnd | apps/backend/tests/regression/run_regression.py:156 | the excerpt ends at the first blank line after its start, or at the end of the output when there is none or the blank line sits right at the start |
| Regression.HintExcerpt | apps/backend/tests/regression/run_regression.py:153-162 | with a marker, the excerpt is the text from the first marker to the end found for it, cut to 150 characters plus "..."; without one, the first hundred characters plus "..." when longer; never longer than 153 |
| Regression.RenderedHintExcerpt | apps/backend/tests/regression/run_regression.py:154-159 | a one-line rendered hint, alone or before a blank line, is its own excerpt, shortened |
| ReportAnalyzer.FirstMatch | src/test_report_analyzer.py:106-135 | the index of the first pattern the name contains, and none exactly when it contains none |
| ReportAnalyzer.Classify | src/test_report_analyzer.py:106-135 | the label of the first contained pattern, or the fallback |
| ReportAnalyzer.Categorize | src/test_report_analyzer.py:106-135 | the category of the first of the thirteen patterns the name contains, else "other" |
| ReportAnalyzer.TestType | src/test_report_analyzer.py:492-515 | the type of the first of the ten patterns the name contains, else "Other" |
| ReportAnalyzer.FirstMatchIsUnique | src/test_report_analyzer.py:106-135 | an index whose pattern occurs and whose predecessors do not is the first match |
| ReportAnalyzer.CategoryAndTypeDisagree | src/test_report_analyzer.py:108-118 | the two tables order their tests differently: a core test that is also a verification edge case is "core functionality" but "Verification Edge" |
| ReportAnalyzer.TestConclusion | src/test_report_analyzer.py:577-608 | guardrail, then insufficient-context edge case, then hallucination, then core, each as an if-and-only-if on the details with their defaults; anything else needs review |
| ReportAnalyzer.OnlyEdgeCasesPass | src/test_report_analyzer.py:589-594 | only a verification edge case that is not a guardrail test can pass |
| ReportAnalyzer.UnjudgedNeedsReview | src/test_report_analyzer.py:603-608 | a test of none of the four judged kinds needs review, whatever its details |
| ReportAnalyzer.ExpectedDescription | src/test_report_analyzer.py:517-532 | a known behaviour is described, an unknown one is shown as it is, else the expected keyword is quoted, else every check must pass |
| ReportAnalyzer.BehaviourBeatsKeyword | src/test_report_analyzer.py:519-530 | with an expected behaviour, the expected keyword is ignored |
| ReportAnalyzer.KnownDescriptionsAreDistinct | src/test_report_analyzer.py:521-526 | no two known behaviours share a description |
| DatasetValidation.Missing | src/test_dataset_validation.py:51 | exactly the required columns the header lacks |
| DatasetValidation.AllRows | src/test_dataset_validation.py:57-59 | a column check holds exactly when every row passes it |
| DatasetValidation.HasDuplicate | src/test_dataset_validation.py:62 | true exactly when two rows share a question id |
| DatasetValidation.QuestionIds | src/test_dataset_validation.py:62 | the question-id column, row by row |
| DatasetValidation.StructureChecks | src/test_dataset_validation.py:50-66 | each of the six checks holds exactly when every row, or every required column, satisfies it |
| DatasetValidation.ValidateStructure | src/test_dataset_validation.py:35-69 | the validator raises exactly when a column it reads is missing, naming one; otherwise every check passes exactly when the table is complete, leveled, categorised and free of duplicate ids |
| DatasetValidation.ReadColumnsAreRequired | src/test_dataset_validation.py:41-66 | the columns read are all required, so a table with every required column never raises |
| DatasetValidation.Terms | src/test_dataset_validation.py:96 | one stripped, lower-cased term per comma-separated piece |
| DatasetValidation.TermsAreNormal | src/test_dataset_validation.py:96 | every term is stripped, lower-case and free of commas |
| DatasetValidation.Reported | src/test_dataset_validation.py:97-106 | the non-empty terms whose presence in the reply is the one being reported |
| DatasetValidation.Tag | src/test_dataset_validation.py:99-106 | a missing-term or forbidden-term violation for each reported term |
| DatasetValidation.Violations | src/test_dataset_validation.py:94-106 | a required term is reported exactly when it is absent from the lower-cased reply, a forbidden term exactly when present |
| DatasetValidation.RowRecord | src/test_dataset_validation.py:78-122 | a row without constraints is skipped; a constrained row whose request raised is reported with the error as its one violation and no reply; a constrained reply is reported exactly when it breaks a constraint, with one line per violation, in order, and the reply shortened to 100 characters plus "..." |
| DatasetValidation.ConstraintViolations | src/test_dataset_validation.py:71-124 | at most one record per row, each with at least one violation |
| DatasetValidation.RecordsAppend | src/test_dataset_validation.py:78-122 | one more row appends its record, if it has one, after the others', so the records are the rows' records in row order |
| DatasetValidation.RecordsAreRowRecords | src/test_dataset_validation.py:78-122 | a record is reported if and only if some row has it as its record |
| DatasetValidation.FailedRequestIsReported | src/test_dataset_validation.py:115-122 | a constrained row whose request raised is always among the records |
| DatasetValidation.CompliantReplyIsNotReported | src/test_dataset_validation.py:94-114 | a reply that mentions every required term and no forbidden one draws no record |
| DatasetValidation.UnconstrainedTableHasNoRecords | src/test_dataset_validation.py:83-85 | a table without constraints draws no record |
| DatasetValidation.Insert | src/test_dataset_validation.py:139 | inserting into a sorted list keeps it sorted and adds exactly the element |
| DatasetValidation.SortLevels | src/test_dataset_validation.py:139 | the levels in ascending order, a permutation of the input |
| DatasetValidation.SortedUnique | src/test_dataset_validation.py:139-145 | two sorted permutations of the same levels are equal, so the sort order is determined |
| DatasetValidation.Range | src/test_dataset_validation.py:142 | the list 1, 2, ..., n |
| DatasetValidation.Present | src/test_dataset_validation.py:143 | the levels, present exactly when no cell is empty |
| DatasetValidation.ProgressionIssueIff | src/test_dataset_validation.py:135-145 | a group of several rows has an issue exactly when a level is empty or its levels are not 1..n each once, in any row order |
| DatasetValidation.LevelsOf | src/test_dataset_validation.py:134 | one puzzle's levels, never more than the table's rows |
| DatasetValidation.ProgressionIssues | src/test_dataset_validation.py:126-153 | the puzzles reported are ones that occur and have more than one row |
| DatasetValidation.ShuffledLevelsAreFine | src/test_dataset_validation.py:139-145 | levels 3, 1, 2 are a correct progression |
| DatasetValidation.RepeatedLevelIsAnIssue | src/test_dataset_validation.py:142-145 | levels 1, 1, 2 are not |
| DatasetValidation.CriticalIsMonotone | src/test_dataset_validation.py:269-273 | finding more violations or issues never makes a critical result acceptable, and a clean structure within the thresholds is not critical |
| TraceScanner.Matching | apps/backend/tests/security/check_langsmith_traces.py:69-105 | one finding per matching pattern, in pattern order, with the given kind, path and shortened text, and nothing for a pattern that does not match |
| TraceScanner.Search | apps/backend/tests/security/check_langsmith_traces.py:60-107 | every finding names a pattern, lies at or below the path, and has a bounded preview; nothing is found when no pattern matches anything |
| TraceScanner.EntriesFrom | apps/backend/tests/security/check_langsmith_traces.py:64-90 | the entries from a given one on report findings that name a pattern and lie at or below the dictionary's path |
| TraceScanner.EntryFindings | apps/backend/tests/security/check_langsmith_traces.py:65-90 | one entry's findings include everything the search inside its value finds at `path.key`, name a pattern, lie at or below the dictionary's path, and vanish when nothing matches |
| TraceScanner.NestedValueIsSearched | apps/backend/tests/security/check_langsmith_traces.py:89-90 | whatever the search inside any entry's value finds at `path.key`, nested dictionaries and lists included, is reported for the dictionary |
| TraceScanner.EntryAppended | apps/backend/tests/security/check_langsmith_traces.py:64-90 | one more entry at the end of a dictionary appends exactly that entry's findings after the others' |
| TraceScanner.EntriesFromAppended | apps/backend/tests/security/check_langsmith_traces.py:64-90 | the same, for the entries from any position on |
| TraceScanner.EveryEntryIsSearched | apps/backend/tests/security/check_langsmith_traces.py:64-90 | a finding is reported for a dictionary if and only if one of its entries reports it |
| TraceScanner.EntriesFromHolds | apps/backend/tests/security/check_langsmith_traces.py:64-90 | the same, for the entries from any position on |
| TraceScanner.ItemsFrom | apps/backend/tests/security/check_langsmith_traces.py:92-95 | the items from a given one on report findings that name a pattern and lie at or below the list's path |
| TraceScanner.ItemAppended | apps/backend/tests/security/check_langsmith_traces.py:92-95 | one more item at the end of a list appends exactly its findings at the next index `path[n]` |
| TraceScanner.ItemsFromAppended | apps/backend/tests/security/check_langsmith_traces.py:92-95 | the same, for the items from any position on |
| TraceScanner.ListSearchesItems | apps/backend/tests/security/check_langsmith_traces.py:92-95 | a finding is reported for a list if and only if some item `j` reports it when searched at `path[j]` |
| TraceScanner.ItemsFromHolds | apps/backend/tests/security/check_langsmith_traces.py:92-95 | the same, for the items from any position on |
| TraceScanner.StringEntryIsReportedTwice | apps/backend/tests/security/check_langsmith_traces.py:79-105 | a matching string held in any entry of a dictionary is reported twice at the same path, as a value and as a string value |
| TraceScanner.MatchingKeyIsReported | apps/backend/tests/security/check_langsmith_traces.py:68-76 | a matching key in any entry of a dictionary is reported at `path.key`, shortened to fifty characters |
| TraceScanner.ScalarsAreNeverReported | apps/backend/tests/security/check_langsmith_traces.py:64-107 | numbers, booleans and null give no finding |
| TefConfig.Validate | tools/tef/config.py:47-59 | the provider is checked, then that there are k values, then that all are positive; each error holds exactly in its case, and an accepted configuration is kept |
| TefConfig.DefaultConfigIsValid | tools/tef/config.py:32-59 | the defaults pass validation |
| TefConfig.MaxK | tools/tef/evaluator.py:56 | `max(k_values)`: one of the k values, and none is larger |
| TefConfig.AcceptedMaxKIsPositive | tools/tef/evaluator.py:56 | an accepted configuration asks the retriever for at least one document |
| TefMetrics.Top | tools/tef/metrics.py:50 | Python's `[:k]`, used for both the retrieved ids and the retrieved documents (evaluator.py:258): always a prefix, and for k >= 0 of length the smaller of k and the length |
| TefMetrics.IsHitAtK | tools/tef/metrics.py:40-60 | a hit exactly when there is no error and a non-empty expected id, primary or secondary, is among the first k |
| TefMetrics.HitIsMonotone | tools/tef/metrics.py:40-60 | a hit at k is a hit at every larger k |
| TefMetrics.NoHitAtZero | tools/tef/metrics.py:50 | nothing hits at k = 0 |
| TefMetrics.ToRow | tools/tef/metrics.py:62-96 | the exported row has hit@k exactly for the given k values, 1 exactly on a hit, ten retrieved columns padded with "", and empty strings for absent fields |
| TefMetrics.RowDeterminesHits | tools/tef/metrics.py:83-91 | for k up to ten, the exported retrieved columns decide the hit |
| TefMetrics.Hits | tools/tef/metrics.py:117 | the number of hitting questions is at most the number of questions |
| TefMetrics.RecallAtK | tools/tef/metrics.py:99-118 | recall is between 0 and 1, and 0 with no questions |
| TefMetrics.HitsAreMonotone | tools/tef/metrics.py:117 | looking deeper never loses a hit |
| TefMetrics.RecallIsMonotone | tools/tef/metrics.py:99-118 | recall@k does not decrease with k |
| TefMetrics.ErrorsAreMisses | tools/tef/metrics.py:105-117 | hits are at most the questions that ran without error |
| TefMetrics.Failed | tools/tef/metrics.py:47 | the number of results with an error |
| TefEvaluator.DefaultModel | tools/tef/evaluator.py:99-116 | the provider's default model, or an unknown-provider error for any other provider |
| TefEvaluator.CollectionModel | tools/tef/evaluator.py:81-84 | the configured model when one is set, else the provider's default |
| TefEvaluator.ValidConfigHasModel | tools/tef/evaluator.py:81-84 | every accepted configuration has a model to record |
| TefEvaluator.LoadBenchmark | tools/tef/evaluator.py:164-189 | no rows is an error; then missing required columns, named; otherwise the rows unchanged |
| TefEvaluator.LoadedRowsHaveColumns | tools/tef/evaluator.py:180-189 | rows that pass, sharing the header, all hold the required columns |
| TefEvaluator.SourceLength | tools/tef/evaluator.py:192 | the length of the leading run of source characters |
| TefEvaluator.ParseChunkId | tools/tef/evaluator.py:192 | a parsed chunk id is well formed and prints back as the text |
| TefEvaluator.ParseChunkIdText | tools/tef/evaluator.py:192 | every well-formed chunk id parses back to itself |
| TefEvaluator.StrippedIdMatchesIffWellFormed | tools/tef/evaluator.py:192-203 | a stripped value matches the chunk-id pattern exactly when it parses |
| TefEvaluator.CheckId | tools/tef/evaluator.py:199-203 | one warning exactly when the id is non-empty and does not match |
| TefEvaluator.RowWarnings | tools/tef/evaluator.py:195-203 | at most two warnings per row, each naming the row and a non-empty id that does not match |
| TefEvaluator.Warnings | tools/tef/evaluator.py:194-213 | never more than two warnings per row |
| TefEvaluator.WellFormedRowHasNoWarnings | tools/tef/evaluator.py:195-203 | a row with a well-formed primary id and no secondary draws no warning |
| TefEvaluator.RetrievedIds | tools/tef/evaluator.py:257-261 | at most max-k ids, none of them empty |
| TefEvaluator.RetrievedIdsMembers | tools/tef/evaluator.py:257-261 | an id is kept if and only if it is non-empty and one of the first max-k documents carries it |
| TefEvaluator.IdsOf | tools/tef/evaluator.py:258-261 | only non-empty ids are kept, at most one per document |
| TefEvaluator.IdsOfAppend | tools/tef/evaluator.py:258-261 | the ids of two runs of documents are the first run's ids followed by the second's, so the order of retrieval is kept |
| TefEvaluator.IdsOfMembers | tools/tef/evaluator.py:258-261 | an id is kept if and only if it is non-empty and some document carries it as `chunk_id` |
| TefEvaluator.IdsOfLabelledDocs | tools/tef/evaluator.py:258-261 | when every document carries an id, the ids kept are exactly theirs, in order |
| TefEvaluator.EvaluateQuestion | tools/tef/evaluator.py:240-292 | the result carries the row's id and question and its stripped expected ids (an empty secondary is none); a retrieval keeps its ids; an exception gives no ids and an error |
| TefEvaluator.FailedRetrievalMisses | tools/tef/evaluator.py:277-290 | a question whose retrieval raised misses at every k |
| TefEvaluator.RetrievedExpectedIsHit | tools/tef/evaluator.py:243-273 | a question whose expected primary id is carried by one of the first k documents (k at most max-k) hits at k, whatever ids the other documents carry |
| TefEvaluator.Evaluate | tools/tef/evaluator.py:215-295 | one result per benchmark row, in order, each from its own retrieval |
| ViewChunks.TruncateText | tools/view_chunks.py:28-38 | whitespace collapsed to single spaces, then cut to the length with "..." appended when longer |
| ViewChunks.TruncateIsIdempotent | tools/view_chunks.py:28-38 | truncating a preview again gives the same preview |
| ViewChunks.RowOf | tools/view_chunks.py:100-114 | the row's metadata fields default to "MISSING", the preview is the truncated text, and the full text is present exactly when asked for |
| ViewChunks.EmptyPointIsMissing | tools/view_chunks.py:101-111 | a point without payload shows "MISSING" everywhere and an empty preview |
| ViewChunks.Rows | tools/view_chunks.py:100-116 | one row per point, in order |
| ViewChunks.TypeBag | tools/view_chunks.py:146-148 | the document types of the rows, one per row |
| ViewChunks.TallyTypes | tools/view_chunks.py:145-148 | the tally has an entry for exactly the types that occur, each counting its rows, and the counts sum to the number of rows |
| ViewChunks.TotalIsBagSize | tools/view_chunks.py:145-151 | a tally of a bag's multiplicities sums to the bag's size |
| Chunking.FileName | apps/backend/tests/test_text_chunking.py:147-160 | the last path component: it holds no '/', and a path without '/' is its own file name |
| Chunking.SourceId | apps/backend/tests/test_text_chunking.py:147-160 | as long as the file name without its last extension, since upper-casing keeps the length |
| Chunking.ChunkCount | apps/backend/tests/test_text_chunking.py:28-34 | the number of chunk starts below the line count |
| Chunking.ChunkTextByLines | apps/backend/tests/test_text_chunking.py:19-189 | an overlap not below the size is refused; otherwise one chunk per start, at least one, each with its source, type, source id and index |
| Chunking.WindowRoundTrip | apps/backend/tests/test_text_chunking.py:64-79 | a window's lines joined and split again are the window |
| Chunking.ChunkHoldsLines | apps/backend/tests/test_text_chunking.py:64-103 | each chunk's text splits back into exactly its window of the original lines, unmodified |
| Chunking.NeighboursOverlap | apps/backend/tests/test_text_chunking.py:106-125 | a full chunk's last `overlap` lines are the next chunk's first |
| Chunking.EveryLineIsChunked | apps/backend/tests/test_text_chunking.py:19-44 | every line of the text is in the chunk of its step, at its place |
| Chunking.CountCovers | apps/backend/tests/test_text_chunking.py:28-34 | every start below the line count is a chunk |
| Chunking.EmptyTextIsOneChunk | apps/backend/tests/test_text_chunking.py:128-135 | empty text gives one empty chunk |
| Chunking.SingleLineIsOneChunk | apps/backend/tests/test_text_chunking.py:138-144 | a single line gives one chunk holding it, at index 0 |
| Chunking.DefaultChunkCounts | apps/backend/tests/test_text_chunking.py:28-34 | with the defaults, 25 lines give five chunks and 15 lines give three |
| Chunking.SourceIdOfFileName | apps/backend/tests/test_text_chunking.py:149-153 | a name with an extension gives its upper-cased base |
| Chunking.SourceIdWithoutExtension | apps/backend/tests/test_text_chunking.py:154 | a name without a dot is upper-cased whole |
| Chunking.SourceIdExample | apps/backend/tests/test_text_chunking.py:151 | "VILWIN.txt" gives "VILWIN" |

## Left out

- Printing and logging: what the nodes print is modelled only where the regression runner reads it back (the router's decision lines and the hint finder's input line). The runner searches the whole debug output, which also holds the router's echo lines carrying the player's text (apps/backend/thudbot_core/router_node.py:48, 63, 95 and 103 print them before the decision); `Router.DecisionLines` and the round trips built on it describe a log without those lines, so a player's text that itself looks like a decision line is not covered. The constant notice that no previous question was found and the "ROUTER NEXT: find_hint" line (router_node.py:66 and 91) are not modelled either.
- The language model, the retrieval chain, the vector-store probe, the router's phrase tests, classifier and keyword extractor, and the system answering dataset questions: these are parameters, because their behaviour is outside the repository.
- The prompt templates' wording: prompts are structured values holding the texts the code inserts.
- Letter case and whitespace are ASCII: `lower`, `upper`, `strip` and `split` are modelled for ASCII characters. Unicode case mapping is out of scope.
- Floating point: latencies, averages and `round` are left out, and recall is an exact rational.
- The line chunker's own source is not part of this model. `Chunking` follows what its test suite pins down, for chunk sizes of at least one.
- TraceScanner.Search: the regular expressions are a parameter, so the contracts say which patterns are tried and where, not what each pattern matches. `check_trace`, fetching traces and the report are left out.
- ReportAnalyzer: `_get_actual_description`, the markdown and console tables and the recommendations are presentation only and are left out.
- DatasetValidation: loading the CSV, the content-quality metrics and the summary printing are left out. An empty cell (pandas' NaN) is an absent value.
- The HTTP endpoints, rate limiting, CORS and the session store are left out; only message validation and the clear-session reply are modelled.
- The evaluation framework's project-root discovery, file access and CSV export are left out. Paths are parameters.
- File and directory checks, including `sys.exit` in the chunk export tool, are left out.
- Chunking.ChunkTextByLines: requires a chunk size of at least one; the chunker's behaviour for a smaller size is not pinned down by its tests.
- Chunking.SourceId: its own contract states only the length; the value is stated by Chunking.SourceIdOfFileName and Chunking.SourceIdWithoutExtension.
- Regression.ExtractHintLevel: the contract does not state the fallback to the rendered output's label on its own; the round trips Regression.RenderedLevelRoundTrip and Regression.HintFlowLineRoundTrip state what is read back.
- Regression.ExtractSearchQuery: states that the shortened query is a prefix of the quoted text, not its exact value; Regression.SearchQueryRoundTrip gives the exact value for the router's line.
- DatasetValidation.ProgressionIssues: states which puzzles may be reported, not that every faulty puzzle is; the per-puzzle test is stated by DatasetValidation.ProgressionIssueIff.
- TefMetrics.RecallAtK: recall is an exact fraction; the source's floating-point division and rounding are left out.
- ReportAnalyzer.TestConclusion: a `details` entry that is present but null would make the analyzer raise; the model reads it as empty details, the same as an absent entry.
- Regression.Search: `\d` matches ASCII digits only here, while Python's matches every Unicode decimal digit; the router only prints ASCII digits.
- ReportAnalyzer.ExpectedDescription: an `expected_behavior` that is not a string is returned raw by the analyzer, and its callers then raise (`.replace` and `len` on a non-string); the model renders it as its `str()` form and does not model that failure.
- HintFinder.GetDirectHintWithContext: the chain is modelled by what each of its invocations in one call returns, answer or exception; the chain's lazy initialisation and the failure of that initialisation, which happens before the guarded block, are left out.

=== FILE: api.dfy ===
/** The HTTP layer's pure parts: validation of a chat request's message
    and the reply to a clear-session request. */
module Api {
  import opened Results
  import opened Text

  /** The longest message accepted, counted before stripping. */
  const MaxMessageLength := 5000

  /** The session used when a request names none. */
  const DefaultSessionId: string := "default"

  datatype ValidationError = EmptyMessage | MessageTooLong

  /** A validated chat request. */
  datatype ChatRequest = ChatRequest(userMessage: string, sessionId: string)

  /** The message validator: an empty or blank message is rejected first,
      then one longer than the limit; an accepted message is stored
      stripped. */
  function ValidateUserMessage(v: string): (r: Result<string, ValidationError>)
    ensures r.Ok? <==> Strip(v) != "" && |v| <= MaxMessageLength
    ensures r.Err? && r.error == EmptyMessage <==> Strip(v) == ""
    ensures r.Ok? ==> r.value == Strip(v)
    ensures r.Ok? ==> IsStripped(r.value) && 0 < |r.value| <= MaxMessageLength && Contains(v, r.value)
  {
    if v == "" || Strip(v) == "" then Err(EmptyMessage)
    else if |v| > MaxMessageLength then Err(MessageTooLong)
    else Ok(Strip(v))
  }

  /** Emptiness is checked before length: a blank message over the limit is
      reported as empty. */
  lemma BlankLongMessageIsEmpty(v: string)
    requires forall i :: 0 <= i < |v| ==> IsSpace(v[i])
    ensures ValidateUserMessage(v) == Err(EmptyMessage)
  {
  }

  /** An accepted message passes validation again unchanged. */
  lemma ValidationIsIdempotent(v: string)
    requires ValidateUserMessage(v).Ok?
    ensures ValidateUserMessage(ValidateUserMessage(v).value) == ValidateUserMessage(v)
  {
    StripIdempotent(v);
  }

  /** Building a request: the message is validated, and a missing session
      id becomes the default one. */
  function NewChatRequest(userMessage: string, sessionId: Option<string>): (r: Result<ChatRequest, ValidationError>)
    ensures r.Ok? <==> ValidateUserMessage(userMessage).Ok?
    ensures r.Ok? ==> r.value.userMessage == ValidateUserMessage(userMessage).value == Strip(userMessage)
    ensures r.Ok? && sessionId.None? ==> r.value.sessionId == DefaultSessionId
    ensures r.Ok? && sessionId.Some? ==> r.value.sessionId == sessionId.value
  {
    match ValidateUserMessage(userMessage)
    case Err(e) => Err(e)
    case Ok(message) => Ok(ChatRequest(message, sessionId.GetOr(DefaultSessionId)))
  }

  const ClearedTail: string := " cleared successfully"
  const NotFoundTail: string := " not found (may already be empty)"

  /** The clear-session reply, given whether the session store removed the
      session. */
  function ClearSessionMessage(sessionId: string, cleared: bool): (m: string)
    ensures IsPrefix("Session " + sessionId, m)
  {
    "Session " + sessionId + (if cleared then ClearedTail else NotFoundTail)
  }

  /** The reply reports success exactly when the session was removed,
      whatever the session id. */
  lemma ClearSessionReportsOutcome(sessionId: string, cleared: bool)
    ensures IsSuffix(ClearedTail, ClearSessionMessage(sessionId, cleared)) <==> cleared
  {
    var m := ClearSessionMessage(sessionId, cleared);
    assert m[|m| - 1] == if cleared then 'y' else ')';
  }
}

=== FILE: chunking.dfy ===
/** The line chunker used when building the hint collection from plain text
    files: the text is cut into windows of whole lines that overlap by a
    fixed number of lines, and each window becomes a document whose text
    is the original lines, unmodified. The behaviour is the one its test
    suite pins down; the chunker's own source is not part of this model. */
module Chunking {
  import opened Results
  import opened Text

  /** Lines per chunk, and lines shared by neighbouring chunks, when not
      given. */
  const DefaultChunkSize := 10
  const DefaultChunkOverlap := 4

  /** An overlap that is not below the chunk size would never advance. */
  datatype ChunkError = OverlapNotBelowSize(overlap: int, size: int)

  datatype ChunkMeta = ChunkMeta(source: string, documentType: string, sourceId: string, chunkIndex: nat)

  datatype Document = Document(pageContent: string, metadata: ChunkMeta)

  /** The last path component. */
  function FileName(path: string): (name: string)
    ensures '/' !in name
    ensures '/' !in path ==> name == path
  {
    var parts := Split(path, '/');
    parts[|parts| - 1]
  }

  /** The index of the last `c` in `s`, or -1. */
  function LastIndexOf(s: string, c: char): (i: int)
    ensures -1 <= i < |s|
    ensures i == -1 ==> c !in s
    ensures 0 <= i ==> s[i] == c
    ensures forall k :: 0 <= k < |s| && s[k] == c ==> k <= i
  {
    if |s| == 0 then -1
    else if s[|s| - 1] == c then |s| - 1
    else
      var i := LastIndexOf(s[..|s| - 1], c);
      assert forall k :: 0 <= k < |s| - 1 ==> s[..|s| - 1][k] == s[k];
      i
  }

  /** A file name without its last suffix. A suffix is a dot followed by at
      least one character; a leading dot does not start one. */
  function Stem(name: string): string
  {
    var i := LastIndexOf(name, '.');
    if 0 < i < |name| - 1 then name[..i] else name
  }

  /** The dot before the extension and the extension are dropped. */
  lemma StemDropsSuffix(base: string, ext: string)
    requires |base| > 0 && |ext| > 0 && '.' !in ext
    ensures Stem(base + "." + ext) == base
  {
    var name := base + "." + ext;
    assert name[|base|] == '.';
    assert forall k :: |base| < k < |name| ==> name[k] == ext[k - |base| - 1];
    var i := LastIndexOf(name, '.');
    assert i == |base|;
    assert name[..|base|] == base;
  }

  /** A name without a dot is its own stem. */
  lemma StemWithoutDot(name: string)
    requires '.' !in name
    ensures Stem(name) == name
  {
  }

  /** The source id is the upper-cased stem of the file name. */
  function SourceId(source: string): (id: string)
    ensures |id| == |Stem(FileName(source))|
  {
    Upper(Stem(FileName(source)))
  }

  /** The line chunk `i` starts at: `i` steps from the first line. */
  function ChunkStart(i: nat, step: nat): nat
  {
    if i == 0 then 0 else ChunkStart(i - 1, step) + step
  }

  lemma {:induction false} ChunkStartIsProduct(i: nat, step: nat)
    ensures ChunkStart(i, step) == i * step
  {
    if i > 0 {
      ChunkStartIsProduct(i - 1, step);
    }
  }

  /** Later chunks start no earlier. */
  lemma {:induction false} StartMonotone(a: nat, b: nat, step: nat)
    requires a <= b
    ensures ChunkStart(a, step) <= ChunkStart(b, step)
    decreases b
  {
    if a < b {
      StartMonotone(a, b - 1, step);
    }
  }

  /** The number of chunk starts 0, step, 2 step, ... that lie below `n`. */
  function ChunkCount(n: int, step: nat): (count: nat)
    requires step > 0
    ensures ChunkStart(count, step) >= n
    ensures count > 0 ==> ChunkStart(count - 1, step) < n
    decreases n
  {
    if n <= 0 then 0 else 1 + ChunkCount(n - step, step)
  }

  lemma NextStart(i: nat, step: nat)
    ensures ChunkStart(i + 1, step) == ChunkStart(i, step) + step
  {
  }

  /** Every start below the count lies below `n`. */
  lemma StartBelow(i: nat, n: int, step: nat)
    requires step > 0 && i < ChunkCount(n, step)
    ensures ChunkStart(i, step) < n
  {
    StartMonotone(i, ChunkCount(n, step) - 1, step);
  }

  /** The lines of the chunk starting at `start`: `size` lines, or fewer at
      the end. */
  function Window(lines: seq<string>, start: nat, size: nat): (w: seq<string>)
    requires start <= |lines|
  {
    lines[start..if start + size < |lines| then start + size else |lines|]
  }

  /** `chunk_text_by_lines`: the text's lines (split on "\n") are cut into
      windows of `chunkSize` lines starting every `chunkSize - chunkOverlap`
      lines, for every start inside the text, and each window's lines are
      joined back with "\n". An overlap that is not below the size is
      refused. */
  function ChunkTextByLines(rawText: string, source: string, documentType: string,
                            chunkSize: int, chunkOverlap: int): (r: Result<seq<Document>, ChunkError>)
    requires chunkSize >= 1
    ensures r.Err? <==> chunkOverlap >= chunkSize
    ensures r.Err? ==> r.error == OverlapNotBelowSize(chunkOverlap, chunkSize)
    ensures r.Ok? ==> |r.value| == ChunkCount(|Split(rawText, '\n')|, chunkSize - chunkOverlap)
    ensures r.Ok? ==> |r.value| >= 1
    ensures r.Ok? ==> forall i :: 0 <= i < |r.value| ==>
      r.value[i].metadata == ChunkMeta(source, documentType, SourceId(source), i)
  {
    if chunkOverlap >= chunkSize then Err(OverlapNotBelowSize(chunkOverlap, chunkSize))
    else
      var lines := Split(rawText, '\n');
      var step := chunkSize - chunkOverlap;
      var count := ChunkCount(|lines|, step);
      Ok(seq(count, i requires 0 <= i < count =>
        StartBelow(i, |lines|, step);
        Document(Join("\n", Window(lines, ChunkStart(i, step), chunkSize)),
                 ChunkMeta(source, documentType, SourceId(source), i))))
  }

  /** A window of lines without line breaks, joined with "\n" and split
      again, is the same window. */
  lemma WindowRoundTrip(lines: seq<string>, start: nat, size: nat)
    requires start < |lines| && size >= 1
    requires forall j :: 0 <= j < |lines| ==> '\n' !in lines[j]
    ensures Split(Join("\n", Window(lines, start, size)), '\n') == Window(lines, start, size)
  {
    var w := Window(lines, start, size);
    assert forall j :: 0 <= j < |w| ==> w[j] == lines[start + j];
    SplitJoin(w, '\n');
  }

  /** The lines chunk `i` holds: split back on "\n", its text gives exactly
      the original lines from its start, `chunkSize` of them or up to the
      end of the text, and at least one. */
  lemma ChunkHoldsLines(rawText: string, source: string, documentType: string,
                        chunkSize: int, chunkOverlap: int, i: nat)
    requires 1 <= chunkSize && chunkOverlap < chunkSize
    requires i < |ChunkTextByLines(rawText, source, documentType, chunkSize, chunkOverlap).value|
    ensures var lines := Split(rawText, '\n');
      var start := ChunkStart(i, chunkSize - chunkOverlap);
      start < |lines| &&
      Split(ChunkTextByLines(rawText, source, documentType, chunkSize, chunkOverlap).value[i].pageContent, '\n')
        == Window(lines, start, chunkSize)
  {
    var lines := Split(rawText, '\n');
    var step := chunkSize - chunkOverlap;
    StartBelow(i, |lines|, step);
    WindowRoundTrip(lines, ChunkStart(i, step), chunkSize);
  }

  /** The lines of chunk `i`, read back from its text. */
  function ChunkLines(docs: seq<Document>, i: nat): seq<string>
    requires i < |docs|
  {
    Split(docs[i].pageContent, '\n')
  }

  /** Neighbouring chunks overlap by exactly `chunkOverlap` lines: when
      chunk `i` is followed by another and is full (its window of
      `chunkSize` lines fits in the text), its last `chunkOverlap` lines
      are the first `chunkOverlap` lines of chunk `i + 1`. */
  lemma NeighboursOverlap(rawText: string, source: string, documentType: string,
                          chunkSize: int, chunkOverlap: int, i: nat)
    requires 1 <= chunkSize && 0 <= chunkOverlap < chunkSize
    requires i + 1 < ChunkCount(|Split(rawText, '\n')|, chunkSize - chunkOverlap)
    requires ChunkStart(i, chunkSize - chunkOverlap) + chunkSize <= |Split(rawText, '\n')|
    ensures var docs := ChunkTextByLines(rawText, source, documentType, chunkSize, chunkOverlap).value;
      i + 1 < |docs| && |ChunkLines(docs, i)| == chunkSize &&
      chunkOverlap <= |ChunkLines(docs, i + 1)| &&
      ChunkLines(docs, i)[chunkSize - chunkOverlap..] == ChunkLines(docs, i + 1)[..chunkOverlap]
  {
    var lines := Split(rawText, '\n');
    var step := chunkSize - chunkOverlap;
    var docs := ChunkTextByLines(rawText, source, documentType, chunkSize, chunkOverlap).value;
    assert |docs| == ChunkCount(|lines|, step);
    ChunkHoldsLines(rawText, source, documentType, chunkSize, chunkOverlap, i);
    ChunkHoldsLines(rawText, source, documentType, chunkSize, chunkOverlap, i + 1);
    assert |Window(lines, ChunkStart(i, step), chunkSize)| == chunkSize;
    NextStart(i, step);
    StartBelow(i + 1, |lines|, step);
    NeighbourWindows(docs, lines, step, chunkSize, i);
  }

  /** Two neighbouring chunks that hold their windows, the first one full,
      share the lines from the second one's start to the first one's end. */
  lemma NeighbourWindows(docs: seq<Document>, lines: seq<string>, step: nat, size: nat, i: nat)
    requires 0 < step <= size && i + 1 < |docs|
    requires ChunkStart(i + 1, step) == ChunkStart(i, step) + step < |lines|
    requires ChunkLines(docs, i) == Window(lines, ChunkStart(i, step), size)
    requires ChunkLines(docs, i + 1) == Window(lines, ChunkStart(i + 1, step), size)
    requires |ChunkLines(docs, i)| == size
    ensures size - step <= |ChunkLines(docs, i + 1)|
    ensures ChunkLines(docs, i)[step..] == ChunkLines(docs, i + 1)[..size - step]
  {
    WindowsOverlap(lines, ChunkStart(i, step), step, size);
  }

  /** A full window and the one `step` lines later share `size - step`
      lines. */
  lemma WindowsOverlap(lines: seq<string>, start: nat, step: nat, size: nat)
    requires 0 < step <= size && start + step < |lines| && |Window(lines, start, size)| == size
    ensures size - step <= |Window(lines, start + step, size)|
    ensures Window(lines, start, size)[step..] == Window(lines, start + step, size)[..size - step]
  {
    assert start + size <= |lines|;
    assert Window(lines, start, size)[step..] == lines[start + step..start + size];
  }

  /** The chunk whose step holds line `j`: the number of whole steps
      before it. */
  function ChunkOfLine(j: nat, step: nat): nat
    requires step > 0
    decreases j
  {
    if j < step then 0 else 1 + ChunkOfLine(j - step, step)
  }

  /** Line `j` lies in the step that starts at its chunk. */
  lemma {:induction false} StepOfLine(j: nat, step: nat)
    requires step > 0
    ensures ChunkStart(ChunkOfLine(j, step), step) <= j < ChunkStart(ChunkOfLine(j, step), step) + step
    decreases j
  {
    if j >= step {
      StepOfLine(j - step, step);
    }
  }

  /** No line is lost: with a non-negative overlap, line `j` of the text is
      held by the chunk of its step, at its place relative to that chunk's start. */
  lemma EveryLineIsChunked(rawText: string, source: string, documentType: string,
                           chunkSize: int, chunkOverlap: int, j: nat)
    requires 1 <= chunkSize && 0 <= chunkOverlap < chunkSize
    requires j < |Split(rawText, '\n')|
    ensures var step := chunkSize - chunkOverlap;
      var docs := ChunkTextByLines(rawText, source, documentType, chunkSize, chunkOverlap).value;
      var i := ChunkOfLine(j, step);
      var start := ChunkStart(i, step);
      i < |docs| && start <= j < start + |ChunkLines(docs, i)| &&
      ChunkLines(docs, i)[j - start] == Split(rawText, '\n')[j]
  {
    var lines := Split(rawText, '\n');
    var step := chunkSize - chunkOverlap;
    var i := ChunkOfLine(j, step);
    var start := ChunkStart(i, step);
    var docs := ChunkTextByLines(rawText, source, documentType, chunkSize, chunkOverlap).value;
    StepOfLine(j, step);
    assert start <= j < start + step;
    CountCovers(|lines|, step, i);
    assert i < |docs|;
    ChunkHoldsLines(rawText, source, documentType, chunkSize, chunkOverlap, i);
    assert ChunkLines(docs, i) == Window(lines, start, chunkSize);
    LineInChunk(docs, lines, start, chunkSize, i, j);
  }

  /** A chunk holding its window holds line `j` of the window's span at its
      place. */
  lemma LineInChunk(docs: seq<Document>, lines: seq<string>, start: nat, size: nat, i: nat, j: nat)
    requires i < |docs| && start <= j < start + size && j < |lines|
    requires ChunkLines(docs, i) == Window(lines, start, size)
    ensures j - start < |ChunkLines(docs, i)| && ChunkLines(docs, i)[j - start] == lines[j]
  {
    WindowHolds(lines, start, size, j);
  }

  /** Line `j` of a window's span is at its place in the window. */
  lemma WindowHolds(lines: seq<string>, start: nat, size: nat, j: nat)
    requires start <= j < start + size && j < |lines|
    ensures j - start < |Window(lines, start, size)| && Window(lines, start, size)[j - start] == lines[j]
  {
  }

  /** Every start below `n` is counted. */
  lemma CountCovers(n: int, step: nat, i: nat)
    requires step > 0 && ChunkStart(i, step) < n
    ensures i < ChunkCount(n, step)
  {
    var count := ChunkCount(n, step);
    if i >= count {
      StartMonotone(count, i, step);
    }
  }

  /** An empty text gives a single empty chunk. */
  lemma EmptyTextIsOneChunk(source: string, documentType: string, chunkSize: int, chunkOverlap: int)
    requires 1 <= chunkSize && chunkOverlap < chunkSize
    ensures ChunkTextByLines("", source, documentType, chunkSize, chunkOverlap)
      == Ok([Document("", ChunkMeta(source, documentType, SourceId(source), 0))])
  {
    SingleLineIsOneChunk("", source, documentType, chunkSize, chunkOverlap);
  }

  /** A text without a line break is a single chunk holding it unchanged. */
  lemma SingleLineIsOneChunk(rawText: string, source: string, documentType: string,
                             chunkSize: int, chunkOverlap: int)
    requires 1 <= chunkSize && chunkOverlap < chunkSize && '\n' !in rawText
    ensures ChunkTextByLines(rawText, source, documentType, chunkSize, chunkOverlap)
      == Ok([Document(rawText, ChunkMeta(source, documentType, SourceId(source), 0))])
  {
    var docs := ChunkTextByLines(rawText, source, documentType, chunkSize, chunkOverlap).value;
    assert Split(rawText, '\n') == [rawText];
    assert ChunkCount(1, chunkSize - chunkOverlap) == 1;
    assert |docs| == 1;
    assert Window([rawText], 0, chunkSize) == [rawText];
    assert docs[0].pageContent == Join("\n", [rawText]) == rawText;
    assert docs == [Document(rawText, ChunkMeta(source, documentType, SourceId(source), 0))];
  }

  /** With the defaults, 25 lines give chunks starting at lines 0, 6, 12, 18
      and 24; 15 lines with the same sizes give three. */
  lemma DefaultChunkCounts(rawText: string, source: string, documentType: string)
    ensures |Split(rawText, '\n')| == 25 ==>
      |ChunkTextByLines(rawText, source, documentType, DefaultChunkSize, DefaultChunkOverlap).value| == 5
    ensures |Split(rawText, '\n')| == 15 ==>
      |ChunkTextByLines(rawText, source, documentType, DefaultChunkSize, DefaultChunkOverlap).value| == 3
  {
    assert ChunkCount(25, 6) == 5 by {
      assert ChunkCount(1, 6) == 1;
    }
    assert ChunkCount(15, 6) == 3 by {
      assert ChunkCount(3, 6) == 1;
    }
  }

  /** The source id of a plain file name with an extension is its base,
      upper-cased. */
  lemma SourceIdOfFileName(base: string, ext: string)
    requires |base| > 0 && |ext| > 0 && '.' !in ext && '/' !in base && '/' !in ext
    ensures SourceId(base + "." + ext) == Upper(base)
  {
    assert '/' !in base + "." + ext;
    StemDropsSuffix(base, ext);
  }

  /** A plain file name without a dot is upper-cased whole. */
  lemma SourceIdWithoutExtension(name: string)
    requires '.' !in name && '/' !in name
    ensures SourceId(name) == Upper(name)
  {
  }

  /** One of the file names in the test suite. */
  lemma SourceIdExample()
    ensures SourceId("VILWIN.txt") == "VILWIN"
  {
    var base := "VILWIN";
    SourceIdOfFileName(base, "txt");
    assert "VILWIN.txt" == base + "." + "txt";
    forall i | 0 <= i < |base| ensures UpperChar(base[i]) == base[i] {
    }
    assert Upper(base) == base;
  }
}

=== FILE: dataset_validation.dfy ===
/** The hint dataset validator: the structure checks on the table, the
    must-mention / must-not-mention constraints checked against the
    system's replies, the hint-level progression of each puzzle, and the
    rule that decides whether the issues found are critical. Reading the
    CSV file is left out: the table arrives as its header and rows, an
    empty cell as an absent value. */
module DatasetValidation {
  import opened Results
  import opened Text

  // ---------------------------------------------------------------------------
  // The table
  // ---------------------------------------------------------------------------

  /** The cells of one row the validator reads; an empty cell is `None`. */
  datatype DatasetRow = DatasetRow(
    questionId: Option<string>,
    puzzleId: Option<string>,
    category: Option<string>,
    question: Option<string>,
    hintLevel: Option<int>,
    hintText: Option<string>,
    mustMention: Option<string>,
    mustNotMention: Option<string>)

  datatype Dataset = Dataset(columns: set<string>, rows: seq<DatasetRow>)

  const RequiredColumns: seq<string> := [
    "question_id", "puzzle_id", "category", "question", "hint_level",
    "hint_text", "narrative_context", "planet", "location", "puzzle_name",
    "character", "response_must_mention", "response_must_not_mention",
    "speaker", "tags", "tone", "answer_keywords"]

  const ValidCategories: set<string> := {"Meta", "Navigation", "Mechanics", "Inventory", "Character", "Puzzle"}

  /** The columns the completeness checks read, in the order they read
      them; reading a missing one raises. */
  const ReadColumns: seq<string> := ["question", "hint_text", "hint_level", "question_id", "category"]

  // ---------------------------------------------------------------------------
  // Structure checks
  // ---------------------------------------------------------------------------

  /** The named columns that the header lacks, in order. */
  function Missing(names: seq<string>, columns: set<string>): (missing: seq<string>)
    ensures forall c :: c in missing <==> c in names && c !in columns
    ensures |missing| <= |names|
  {
    if |names| == 0 then []
    else if names[0] in columns then Missing(names[1..], columns)
    else [names[0]] + Missing(names[1..], columns)
  }

  /** Every row passes `ok`. */
  function AllRows(rows: seq<DatasetRow>, ok: DatasetRow -> bool): (all: bool)
    ensures all <==> forall i :: 0 <= i < |rows| ==> ok(rows[i])
  {
    if |rows| == 0 then true else ok(rows[0]) && AllRows(rows[1..], ok)
  }

  predicate LevelOk(r: DatasetRow)
  {
    r.hintLevel.Some? && 1 <= r.hintLevel.value <= 5
  }

  predicate CategoryOk(r: DatasetRow)
  {
    r.category.Some? && (r.category.value in ValidCategories || r.category.value == "")
  }

  /** Whether some value occurs twice; two empty cells count as equal, as
      they do for the table library's duplicate test. */
  method HasDuplicate(ids: seq<Option<string>>) returns (dup: bool)
    ensures dup <==> exists i, j :: 0 <= i < j < |ids| && ids[i] == ids[j]
  {
    var seen: set<Option<string>> := {};
    dup := false;
    var k := 0;
    while k < |ids|
      invariant 0 <= k <= |ids|
      invariant seen == set i | 0 <= i < k :: ids[i]
      invariant dup <==> exists i, j :: 0 <= i < j < k && ids[i] == ids[j]
    {
      if ids[k] in seen {
        var i :| 0 <= i < k && ids[i] == ids[k];
        assert 0 <= i < k < k + 1 && ids[i] == ids[k];
        dup := true;
      }
      seen := seen + {ids[k]};
      k := k + 1;
    }
  }

  datatype StructureReport = StructureReport(
    allRequiredColumns: bool,
    noEmptyQuestions: bool,
    noEmptyHints: bool,
    validHintLevels: bool,
    noDuplicateQuestionIds: bool,
    validCategories: bool)

  predicate AllPassed(s: StructureReport)
  {
    s.allRequiredColumns && s.noEmptyQuestions && s.noEmptyHints && s.validHintLevels
    && s.noDuplicateQuestionIds && s.validCategories
  }

  function QuestionIds(rows: seq<DatasetRow>): (ids: seq<Option<string>>)
    ensures |ids| == |rows| && forall i :: 0 <= i < |rows| ==> ids[i] == rows[i].questionId
  {
    seq(|rows|, i requires 0 <= i < |rows| => rows[i].questionId)
  }

  /** The checks of a table whose read columns are all there: each check
      and what it asks of every row. */
  method StructureChecks(d: Dataset) returns (s: StructureReport)
    ensures s.allRequiredColumns <==> forall c :: c in RequiredColumns ==> c in d.columns
    ensures s.noEmptyQuestions <==> forall i :: 0 <= i < |d.rows| ==> d.rows[i].question.Some?
    ensures s.noEmptyHints <==> forall i :: 0 <= i < |d.rows| ==> d.rows[i].hintText.Some?
    ensures s.validHintLevels <==> forall i :: 0 <= i < |d.rows| ==>
      (d.rows[i].hintLevel.Some? && 1 <= d.rows[i].hintLevel.value <= 5)
    ensures s.noDuplicateQuestionIds <==>
      forall i, j :: 0 <= i < j < |d.rows| ==> d.rows[i].questionId != d.rows[j].questionId
    ensures s.validCategories <==> forall i :: 0 <= i < |d.rows| ==>
      (d.rows[i].category.Some? && (d.rows[i].category.value in ValidCategories || d.rows[i].category.value == ""))
  {
    var missing := Missing(RequiredColumns, d.columns);
    assert |missing| > 0 ==> missing[0] in missing;
    var dup := HasDuplicate(QuestionIds(d.rows));
    s := StructureReport(
      |missing| == 0,
      AllRows(d.rows, (row: DatasetRow) => row.question.Some?),
      AllRows(d.rows, (row: DatasetRow) => row.hintText.Some?),
      AllRows(d.rows, LevelOk),
      !dup,
      AllRows(d.rows, CategoryOk));
  }

  /** `validate_structure`: reading a missing column raises, naming the
      first missing one of the columns read; otherwise the checks run. */
  method ValidateStructure(d: Dataset) returns (r: Result<StructureReport, string>)
    ensures r.Err? <==> exists c :: c in ReadColumns && c !in d.columns
    ensures r.Err? ==> r.error in ReadColumns && r.error !in d.columns
    ensures r.Ok? ==> (r.value.allRequiredColumns <==> forall c :: c in RequiredColumns ==> c in d.columns)
    ensures r.Ok? ==> (AllPassed(r.value) <==>
      (forall c :: c in RequiredColumns ==> c in d.columns)
      && (forall i :: 0 <= i < |d.rows| ==> d.rows[i].question.Some? && d.rows[i].hintText.Some?
                                            && LevelOk(d.rows[i]) && CategoryOk(d.rows[i]))
      && (forall i, j :: 0 <= i < j < |d.rows| ==> d.rows[i].questionId != d.rows[j].questionId))
  {
    var unread := Missing(ReadColumns, d.columns);
    if |unread| > 0 {
      assert unread[0] in unread;
      return Err(unread[0]);
    }
    var s := StructureChecks(d);
    r := Ok(s);
  }

  /** The columns read are among the required ones, so a table with every
      required column never raises. */
  lemma ReadColumnsAreRequired(c: string)
    requires c in ReadColumns
    ensures c in RequiredColumns
  {
    assert ReadColumns[0] == RequiredColumns[3] && ReadColumns[1] == RequiredColumns[5];
    assert ReadColumns[2] == RequiredColumns[4] && ReadColumns[3] == RequiredColumns[0];
    assert ReadColumns[4] == RequiredColumns[2];
  }

  // ---------------------------------------------------------------------------
  // Mention constraints
  // ---------------------------------------------------------------------------

  /** The terms of a constraint cell: comma-separated, each stripped and
      lower-cased. */
  function Terms(cell: string): (terms: seq<string>)
    ensures |terms| == |Split(cell, ',')|
    ensures forall i :: 0 <= i < |terms| ==> terms[i] == Lower(Strip(Split(cell, ',')[i]))
  {
    var pieces := Split(cell, ',');
    seq(|pieces|, i requires 0 <= i < |pieces| => Lower(Strip(pieces[i])))
  }

  lemma LowerCharKeepsSpace(c: char)
    ensures IsSpace(LowerChar(c)) <==> IsSpace(c)
    ensures LowerChar(LowerChar(c)) == LowerChar(c)
  {
  }

  /** Lower-casing twice changes nothing more, keeps a stripped text
      stripped and adds no comma. */
  lemma LowerOfNormal(s: string)
    requires IsStripped(s) && ',' !in s
    ensures Lower(Lower(s)) == Lower(s) && IsStripped(Lower(s)) && ',' !in Lower(s)
  {
    forall k | 0 <= k < |s| ensures Lower(Lower(s))[k] == Lower(s)[k] && Lower(s)[k] != ',' {
      LowerCharKeepsSpace(s[k]);
    }
    if |s| > 0 {
      LowerCharKeepsSpace(s[0]);
      LowerCharKeepsSpace(s[|s| - 1]);
    }
  }

  /** A stripped piece of a comma split has no comma. */
  lemma StrippedPieceLacksComma(piece: string)
    requires ',' !in piece
    ensures ',' !in Strip(piece) && IsStripped(Strip(piece))
  {
    var stripped := Strip(piece);
    if ',' in stripped {
      ContainsTransitive(piece, stripped, [',']);
      assert false by {
        LacksChar(piece, ',', [',']);
      }
    }
  }

  /** Every term is already normal: lower-case, stripped and without a
      comma, so it would split into itself again. */
  lemma TermsAreNormal(cell: string, i: nat)
    requires i < |Terms(cell)|
    ensures var t := Terms(cell)[i];
      Lower(t) == t && IsStripped(t) && ',' !in t && Terms(t) == [t]
  {
    var piece := Split(cell, ',')[i];
    StrippedPieceLacksComma(piece);
    LowerOfNormal(Strip(piece));
    var t := Terms(cell)[i];
    StripOfStripped(t);
    assert Split(t, ',') == [t];
    assert Terms(t)[0] == Lower(Strip(t));
  }

  /** A broken constraint, by term. */
  datatype Violation = MissingTerm(term: string) | ForbiddenTerm(term: string)

  function ViolationText(v: Violation): string
  {
    match v
    case MissingTerm(t) => "Missing required term: '" + t + "'"
    case ForbiddenTerm(t) => "Contains forbidden term: '" + t + "'"
  }

  /** The non-empty terms that `mentioned` decides to report, in order: the
      absent ones when `mentioned` is false, the present ones when true. */
  function Reported(terms: seq<string>, text: string, present: bool): (reported: seq<string>)
    ensures forall t :: t in reported <==> t in terms && t != "" && Contains(text, t) == present
    ensures |reported| <= |terms|
  {
    if |terms| == 0 then []
    else
      var rest := Reported(terms[1..], text, present);
      if terms[0] != "" && Contains(text, terms[0]) == present then [terms[0]] + rest else rest
  }

  /** The violations for reported terms, all of one kind. */
  function Tag(terms: seq<string>, forbidden: bool): (vs: seq<Violation>)
    ensures |vs| == |terms|
    ensures forall t :: MissingTerm(t) in vs <==> !forbidden && t in terms
    ensures forall t :: ForbiddenTerm(t) in vs <==> forbidden && t in terms
  {
    if |terms| == 0 then []
    else [if forbidden then ForbiddenTerm(terms[0]) else MissingTerm(terms[0])] + Tag(terms[1..], forbidden)
  }

  /** The violations of one reply: each required term missing from the
      lower-cased reply, then each forbidden term it contains. */
  function Violations(mustMention: string, mustNotMention: string, response: string): (vs: seq<Violation>)
    ensures forall t :: MissingTerm(t) in vs <==>
      t in Terms(mustMention) && t != "" && !Contains(Lower(response), t)
    ensures forall t :: ForbiddenTerm(t) in vs <==>
      t in Terms(mustNotMention) && t != "" && Contains(Lower(response), t)
  {
    var lowered := Lower(response);
    assert Split("", ',') == [""];
    assert Terms("") == [""];
    var missing := if mustMention != "" then Reported(Terms(mustMention), lowered, false) else [];
    var forbidden := if mustNotMention != "" then Reported(Terms(mustNotMention), lowered, true) else [];
    Tag(missing, false) + Tag(forbidden, true)
  }

  /** What the system does with a question: a reply, or an exception with
      its message. The hint pipeline itself is not part of this model. */
  datatype Reply = Responded(text: string) | Raised(message: string)

  /** One reported row: its id and question, the violation lines, and the
      reply shortened to 100 characters (absent after an exception). */
  datatype ViolationRecord = ViolationRecord(
    questionId: Option<string>,
    question: Option<string>,
    violations: seq<string>,
    response: Option<string>)

  /** The record of one row, if it has one: rows without constraints are
      not asked about, an exception is always reported, and a reply only
      when it breaks a constraint. */
  function RowRecord(row: DatasetRow, respond: Option<string> -> Reply): (rec: Option<ViolationRecord>)
    ensures row.mustMention.GetOr("") == "" && row.mustNotMention.GetOr("") == "" ==> rec.None?
    ensures rec.Some? ==> rec.value.questionId == row.questionId && rec.value.question == row.question
                          && |rec.value.violations| > 0
    ensures rec.Some? && rec.value.response.Some? ==> |rec.value.response.value| <= 103
    ensures (row.mustMention.GetOr("") != "" || row.mustNotMention.GetOr("") != "") && respond(row.question).Raised? ==>
      rec == Some(ViolationRecord(row.questionId, row.question,
                                  ["Error testing constraints: " + respond(row.question).message], None))
    ensures (row.mustMention.GetOr("") != "" || row.mustNotMention.GetOr("") != "") && respond(row.question).Responded? ==>
      var vs := Violations(row.mustMention.GetOr(""), row.mustNotMention.GetOr(""), respond(row.question).text);
      (rec.Some? <==> |vs| > 0) &&
      (rec.Some? ==> rec.value.response == Some(Ellipsize(respond(row.question).text, 100))
                     && |rec.value.violations| == |vs|
                     && forall i :: 0 <= i < |vs| ==> rec.value.violations[i] == ViolationText(vs[i]))
  {
    var mustMention := row.mustMention.GetOr("");
    var mustNotMention := row.mustNotMention.GetOr("");
    if mustMention == "" && mustNotMention == "" then None
    else
      match respond(row.question)
      case Raised(message) =>
        Some(ViolationRecord(row.questionId, row.question, ["Error testing constraints: " + message], None))
      case Responded(text) =>
        var vs := Violations(mustMention, mustNotMention, text);
        if |vs| == 0 then None
        else
          Some(ViolationRecord(row.questionId, row.question,
                               seq(|vs|, i requires 0 <= i < |vs| => ViolationText(vs[i])),
                               Some(Ellipsize(text, 100))))
  }

  /** `validate_metadata_constraints`: the records of the rows, in order. */
  function ConstraintViolations(rows: seq<DatasetRow>, respond: Option<string> -> Reply): (records: seq<ViolationRecord>)
    ensures |records| <= |rows|
    ensures forall k :: 0 <= k < |records| ==> |records[k].violations| > 0
  {
    if |rows| == 0 then []
    else
      var rest := ConstraintViolations(rows[1..], respond);
      match RowRecord(rows[0], respond)
      case None => rest
      case Some(rec) => [rec] + rest
  }

  /** One more row at the end of the table appends its record, if it has
      one, after the others: the records are the rows' records in row order. */
  lemma {:induction false} RecordsAppend(rows: seq<DatasetRow>, row: DatasetRow, respond: Option<string> -> Reply)
    ensures ConstraintViolations(rows + [row], respond)
         == ConstraintViolations(rows, respond)
            + (if RowRecord(row, respond).Some? then [RowRecord(row, respond).value] else [])
    decreases |rows|
  {
    if |rows| == 0 {
      assert rows + [row] == [row];
      assert [row][1..] == [];
    } else {
      assert (rows + [row])[0] == rows[0];
      assert (rows + [row])[1..] == rows[1..] + [row];
      RecordsAppend(rows[1..], row, respond);
    }
  }

  /** A record is kept if and only if some row has it as its record. */
  lemma {:induction false} RecordsAreRowRecords(rows: seq<DatasetRow>, respond: Option<string> -> Reply,
                                                rec: ViolationRecord)
    ensures rec in ConstraintViolations(rows, respond)
       <==> exists i :: 0 <= i < |rows| && RowRecord(rows[i], respond) == Some(rec)
    decreases |rows|
  {
    if |rows| > 0 {
      RecordsAreRowRecords(rows[1..], respond, rec);
      if exists i :: 0 <= i < |rows[1..]| && RowRecord(rows[1..][i], respond) == Some(rec) {
        var i :| 0 <= i < |rows[1..]| && RowRecord(rows[1..][i], respond) == Some(rec);
        assert RowRecord(rows[i + 1], respond) == Some(rec);
      }
      if exists i :: 0 <= i < |rows| && RowRecord(rows[i], respond) == Some(rec) {
        var i :| 0 <= i < |rows| && RowRecord(rows[i], respond) == Some(rec);
        if i > 0 {
          assert RowRecord(rows[1..][i - 1], respond) == Some(rec);
        }
      }
    }
  }

  /** A constrained row whose request raised is always reported, with the
      error as its one violation and no reply. */
  lemma FailedRequestIsReported(rows: seq<DatasetRow>, i: nat, respond: Option<string> -> Reply)
    requires i < |rows| && respond(rows[i].question).Raised?
    requires rows[i].mustMention.GetOr("") != "" || rows[i].mustNotMention.GetOr("") != ""
    ensures ViolationRecord(rows[i].questionId, rows[i].question,
                            ["Error testing constraints: " + respond(rows[i].question).message], None)
            in ConstraintViolations(rows, respond)
  {
    var rec := ViolationRecord(rows[i].questionId, rows[i].question,
                               ["Error testing constraints: " + respond(rows[i].question).message], None);
    assert RowRecord(rows[i], respond) == Some(rec);
    RecordsAreRowRecords(rows, respond, rec);
  }

  /** A reply that mentions every required term and none of the forbidden
      ones gets no record. */
  lemma CompliantReplyIsNotReported(row: DatasetRow, respond: Option<string> -> Reply)
    requires respond(row.question).Responded?
    requires var lowered := Lower(respond(row.question).text);
      (forall t :: t in Terms(row.mustMention.GetOr("")) && t != "" ==> Contains(lowered, t))
      && (forall t :: t in Terms(row.mustNotMention.GetOr("")) && t != "" ==> !Contains(lowered, t))
    ensures RowRecord(row, respond).None?
  {
    var vs := Violations(row.mustMention.GetOr(""), row.mustNotMention.GetOr(""), respond(row.question).text);
    if |vs| > 0 {
      assert vs[0] in vs;
      match vs[0]
      case MissingTerm(t) =>
      case ForbiddenTerm(t) =>
    }
  }

  /** A table without constraints is never sent to the system. */
  lemma UnconstrainedTableHasNoRecords(rows: seq<DatasetRow>, respond: Option<string> -> Reply)
    requires forall i :: 0 <= i < |rows| ==> rows[i].mustMention.GetOr("") == "" && rows[i].mustNotMention.GetOr("") == ""
    ensures ConstraintViolations(rows, respond) == []
  {
  }

  // ---------------------------------------------------------------------------
  // Hint-level progression
  // ---------------------------------------------------------------------------

  predicate Sorted(s: seq<int>)
  {
    forall i, j :: 0 <= i < j < |s| ==> s[i] <= s[j]
  }

  function Insert(x: int, s: seq<int>): (r: seq<int>)
    requires Sorted(s)
    ensures Sorted(r) && multiset(r) == multiset(s) + multiset{x}
  {
    if |s| == 0 then [x]
    else if x <= s[0] then [x] + s
    else
      var rest := Insert(x, s[1..]);
      assert s == [s[0]] + s[1..];
      forall k | 0 <= k < |rest| ensures s[0] <= rest[k] {
        assert rest[k] in multiset(rest);
        assert rest[k] == x || rest[k] in multiset(s[1..]);
      }
      [s[0]] + rest
  }

  /** The levels in ascending order. */
  function SortLevels(s: seq<int>): (r: seq<int>)
    ensures Sorted(r) && multiset(r) == multiset(s)
  {
    if |s| == 0 then []
    else
      assert s == [s[0]] + s[1..];
      Insert(s[0], SortLevels(s[1..]))
  }

  /** Two sorted sequences with the same elements are equal. */
  lemma {:induction false} SortedUnique(a: seq<int>, b: seq<int>)
    requires Sorted(a) && Sorted(b) && multiset(a) == multiset(b)
    ensures a == b
    decreases |a|
  {
    assert |a| == |multiset(a)| == |multiset(b)| == |b|;
    if |a| > 0 {
      SameFirst(a, b);
      assert a == [a[0]] + a[1..] && b == [b[0]] + b[1..];
      assert multiset(a) == multiset{a[0]} + multiset(a[1..]);
      assert multiset(b) == multiset{b[0]} + multiset(b[1..]);
      assert multiset(a[1..]) == multiset(a) - multiset{a[0]};
      assert multiset(b[1..]) == multiset(b) - multiset{b[0]};
      TailIsSorted(a);
      TailIsSorted(b);
      SortedUnique(a[1..], b[1..]);
    }
  }

  lemma TailIsSorted(a: seq<int>)
    requires Sorted(a) && |a| > 0
    ensures Sorted(a[1..])
  {
    forall i, j | 0 <= i < j < |a| - 1 ensures a[1..][i] <= a[1..][j] {
      assert a[1..][i] == a[i + 1] && a[1..][j] == a[j + 1];
    }
  }

  /** Two non-empty sorted sequences with the same elements start alike. */
  lemma SameFirst(a: seq<int>, b: seq<int>)
    requires Sorted(a) && Sorted(b) && multiset(a) == multiset(b) && |a| > 0 && |b| > 0
    ensures a[0] == b[0]
  {
    assert a[0] in multiset(b);
    assert b[0] in multiset(a);
    var i :| 0 <= i < |b| && b[i] == a[0];
    var j :| 0 <= j < |a| && a[j] == b[0];
    assert b[0] <= b[i] && a[0] <= a[j];
  }

  /** 1, 2, ..., n. */
  function Range(n: nat): (r: seq<int>)
    ensures |r| == n && forall i :: 0 <= i < n ==> r[i] == i + 1
  {
    seq(n, i requires 0 <= i < n => i + 1)
  }

  /** The levels of a group, or `None` when a cell is empty. An empty cell
      sorts after the numbers and never equals one, so it is always an
      issue. */
  function Present(levels: seq<Option<int>>): (values: Option<seq<int>>)
    ensures values.Some? <==> forall i :: 0 <= i < |levels| ==> levels[i].Some?
    ensures values.Some? ==>
      (|values.value| == |levels| && forall i :: 0 <= i < |levels| ==> values.value[i] == levels[i].value)
  {
    if forall i :: 0 <= i < |levels| ==> levels[i].Some? then
      Some(seq(|levels|, i requires 0 <= i < |levels| => levels[i].value))
    else None
  }

  /** A puzzle with more than one hint has a progression issue when its
      sorted levels are not 1, 2, ..., n. */
  predicate HasProgressionIssue(levels: seq<Option<int>>)
  {
    |levels| > 1 && (Present(levels).None? || SortLevels(Present(levels).value) != Range(|levels|))
  }

  /** The order of the rows does not matter: a group is fine exactly when
      its levels are 1..n, each once, in any order. */
  lemma ProgressionIssueIff(levels: seq<Option<int>>)
    ensures HasProgressionIssue(levels) <==>
      |levels| > 1 && !(Present(levels).Some? && multiset(Present(levels).value) == multiset(Range(|levels|)))
  {
    if |levels| > 1 && Present(levels).Some? {
      var values := Present(levels).value;
      var sorted := SortLevels(values);
      if multiset(values) == multiset(Range(|levels|)) {
        SortedUnique(sorted, Range(|levels|));
      }
    }
  }

  /** The levels of the rows of puzzle `p`, in row order. */
  function LevelsOf(rows: seq<DatasetRow>, p: string): (levels: seq<Option<int>>)
    ensures |levels| <= |rows|
  {
    if |rows| == 0 then []
    else (if rows[0].puzzleId == Some(p) then [rows[0].hintLevel] else []) + LevelsOf(rows[1..], p)
  }

  /** The puzzle ids that occur; rows without one form no group. */
  function PuzzleIds(rows: seq<DatasetRow>): set<string>
  {
    set i | 0 <= i < |rows| && rows[i].puzzleId.Some? :: rows[i].puzzleId.value
  }

  /** `validate_hint_progression`: the puzzles whose group has an issue. */
  function ProgressionIssues(rows: seq<DatasetRow>): (issues: set<string>)
    ensures issues <= PuzzleIds(rows)
    ensures forall p :: p in issues ==> |LevelsOf(rows, p)| > 1
  {
    set p | p in PuzzleIds(rows) && HasProgressionIssue(LevelsOf(rows, p))
  }

  /** Levels 3, 1, 2 in that row order are a correct progression. */
  lemma ShuffledLevelsAreFine()
    ensures !HasProgressionIssue([Some(3), Some(1), Some(2)])
  {
    var levels := [Some(3), Some(1), Some(2)];
    assert Present(levels).value == [3, 1, 2];
    assert Range(3) == [1, 2, 3];
    assert multiset([3, 1, 2]) == multiset([1, 2, 3]);
    ProgressionIssueIff(levels);
  }

  /** A level repeated or skipped is an issue: 1, 1, 2 is not a progression. */
  lemma RepeatedLevelIsAnIssue()
    ensures HasProgressionIssue([Some(1), Some(1), Some(2)])
  {
    var levels := [Some(1), Some(1), Some(2)];
    assert Present(levels).value == [1, 1, 2];
    assert Range(3) == [1, 2, 3];
    assert multiset([1, 1, 2])[1] == 2;
    assert multiset([1, 2, 3])[1] == 1;
    ProgressionIssueIff(levels);
  }

  // ---------------------------------------------------------------------------
  // Overall verdict
  // ---------------------------------------------------------------------------

  /** Critical when any structure check failed, or there are more than ten
      constraint violations, or more than five progression issues. */
  predicate IsCritical(structure: StructureReport, violations: nat, issues: nat)
  {
    !AllPassed(structure) || violations > 10 || issues > 5
  }

  /** Finding more never makes a critical result acceptable, and a clean
      structure with few findings is not critical. */
  lemma CriticalIsMonotone(structure: StructureReport, v: nat, i: nat, v2: nat, i2: nat)
    requires v <= v2 && i <= i2
    ensures IsCritical(structure, v, i) ==> IsCritical(structure, v2, i2)
    ensures AllPassed(structure) && v2 <= 10 && i2 <= 5 ==> !IsCritical(structure, v, i)
  {
  }
}

=== FILE: error_composer.dfy ===
/** The clarification node: when a hint fails verification, asks the
    model for an in-character request for more detail, and falls back to
    fixed replies when the model's answer breaks character or the call
    fails. */
module ErrorComposer {
  import opened Results
  import opened Text
  import opened GraphState
  import opened Llm
  import opened Guardrail

  // ---------------------------------------------------------------------------
  // The reply used when the model's answer mentions a forbidden term.
  // ---------------------------------------------------------------------------

  const NeedDetailsPieces: seq<string> := [
    "Listen up, ", "detective! ", "I need more ", "specific ", "details ", "about what ",
    "you're ", "trying to ", "do in ", "The Space ", "Bar. Which ", "location ",
    "are you in? ", "What puzzle ", "are you ", "stuck on? ", "Give me ", "something ",
    "to work ", "with here!"]
  const NeedDetailsAvoided: seq<set<char>> := [
    {'d', 'r'}, {'a', 'n', 'r'}, {'c', 'l', 't'}, {'d', 'r'}, {'n', 'r', 'z'}, {'e'},
    {'i', 'l'}, {'e'}, {'e'}, {'d', 'r'}, {'e'}, {'e'},
    {'c', 'd', 'h'}, {'d', 'r'}, {'i', 'l'}, {'e'}, {'d', 'r'}, {'d', 'r'},
    {'e'}, {'c', 'd', 'l'}]

  /** The reply used when the model's answer mentions a forbidden term. */
  const NeedDetailsReply: string := Concat(NeedDetailsPieces)

  lemma NeedDetailsCertifiedFrom0()
    ensures forall i :: 0 <= i < 5 ==> PieceCertified(NeedDetailsPieces, NeedDetailsAvoided, i)
  {
  }

  lemma NeedDetailsCertifiedFrom5()
    ensures forall i :: 5 <= i < 10 ==> PieceCertified(NeedDetailsPieces, NeedDetailsAvoided, i)
  {
  }

  lemma NeedDetailsCertifiedFrom10()
    ensures forall i :: 10 <= i < 15 ==> PieceCertified(NeedDetailsPieces, NeedDetailsAvoided, i)
  {
  }

  lemma NeedDetailsCertifiedFrom15()
    ensures forall i :: 15 <= i < 20 ==> PieceCertified(NeedDetailsPieces, NeedDetailsAvoided, i)
  {
  }

  lemma NeedDetailsReplyIsClean()
    ensures !IsDirty(NeedDetailsReply)
  {
    NeedDetailsCertifiedFrom0();
    NeedDetailsCertifiedFrom5();
    NeedDetailsCertifiedFrom10();
    NeedDetailsCertifiedFrom15();
    CertifiedIsFree(NeedDetailsPieces, NeedDetailsAvoided);
    FreeOfCoreWordsIsClean(NeedDetailsReply);
  }

  // ---------------------------------------------------------------------------
  // The reply used when the provider raises an authentication or API error.
  // ---------------------------------------------------------------------------

  const TechnicalDifficultiesPieces: seq<string> := [
    "Listen up, ", "detective! ", "I'm having ", "some ", "technical ", "difficulties ",
    "right now, ", "but I still ", "want to ", "help you ", "with The ", "Space Bar. ",
    "Can you be ", "more ", "specific ", "about what ", "you're ", "trying to ",
    "do? Which ", "location ", "are you in? ", "What puzzle ", "are you ", "stuck on?"]
  const TechnicalDifficultiesAvoided: seq<set<char>> := [
    {'d', 'r'}, {'a', 'n', 'r'}, {'e'}, {'d', 'r'}, {'d', 'r'}, {'a', 'n', 'r'},
    {'e'}, {'e'}, {'e'}, {'d', 'r'}, {'d', 'r'}, {'i', 'l'},
    {'d', 'r'}, {'i', 'l'}, {'d', 'r'}, {'e'}, {'i', 'l'}, {'e'},
    {'e'}, {'e'}, {'c', 'd', 'h'}, {'d', 'r'}, {'i', 'l'}, {'e'}]

  /** The reply used when the provider raises an authentication or API error. */
  const TechnicalDifficultiesReply: string := Concat(TechnicalDifficultiesPieces)

  lemma TechnicalDifficultiesCertifiedFrom0()
    ensures forall i :: 0 <= i < 5 ==> PieceCertified(TechnicalDifficultiesPieces, TechnicalDifficultiesAvoided, i)
  {
  }

  lemma TechnicalDifficultiesCertifiedFrom5()
    ensures forall i :: 5 <= i < 10 ==> PieceCertified(TechnicalDifficultiesPieces, TechnicalDifficultiesAvoided, i)
  {
  }

  lemma TechnicalDifficultiesCertifiedFrom10()
    ensures forall i :: 10 <= i < 15 ==> PieceCertified(TechnicalDifficultiesPieces, TechnicalDifficultiesAvoided, i)
  {
  }

  lemma TechnicalDifficultiesCertifiedFrom15()
    ensures forall i :: 15 <= i < 20 ==> PieceCertified(TechnicalDifficultiesPieces, TechnicalDifficultiesAvoided, i)
  {
  }

  lemma TechnicalDifficultiesCertifiedFrom20()
    ensures forall i :: 20 <= i < 24 ==> PieceCertified(TechnicalDifficultiesPieces, TechnicalDifficultiesAvoided, i)
  {
  }

  lemma TechnicalDifficultiesReplyIsClean()
    ensures !IsDirty(TechnicalDifficultiesReply)
  {
    TechnicalDifficultiesCertifiedFrom0();
    TechnicalDifficultiesCertifiedFrom5();
    TechnicalDifficultiesCertifiedFrom10();
    TechnicalDifficultiesCertifiedFrom15();
    TechnicalDifficultiesCertifiedFrom20();
    CertifiedIsFree(TechnicalDifficultiesPieces, TechnicalDifficultiesAvoided);
    FreeOfCoreWordsIsClean(TechnicalDifficultiesReply);
  }

  // ---------------------------------------------------------------------------
  // The reply used when the call fails in any other way.
  // ---------------------------------------------------------------------------

  const UltimatePieces: seq<string> := [
    "I'm having ", "trouble ", "right now, ", "but I want ", "to help you ", "with The ",
    "Space Bar ", "game. ", "Please try ", "asking ", "about a ", "specific ",
    "puzzle, ", "location, ", "or ", "character ", "and I'll do ", "my best to ",
    "assist!"]
  const UltimateAvoided: seq<set<char>> := [
    {'e'}, {'a', 'h', 'i'}, {'e'}, {'e'}, {'d', 'r'}, {'d', 'r'},
    {'i', 'l'}, {'d', 'r'}, {'c', 'd', 'h'}, {'e'}, {'e'}, {'d', 'r'},
    {'d', 'r'}, {'e'}, {'e'}, {'i', 'l'}, {'e'}, {'d', 'r'},
    {'e'}]

  /** The reply used when the call fails in any other way. */
  const UltimateReply: string := Concat(UltimatePieces)

  lemma UltimateCertifiedFrom0()
    ensures forall i :: 0 <= i < 5 ==> PieceCertified(UltimatePieces, UltimateAvoided, i)
  {
  }

  lemma UltimateCertifiedFrom5()
    ensures forall i :: 5 <= i < 10 ==> PieceCertified(UltimatePieces, UltimateAvoided, i)
  {
  }

  lemma UltimateCertifiedFrom10()
    ensures forall i :: 10 <= i < 15 ==> PieceCertified(UltimatePieces, UltimateAvoided, i)
  {
  }

  lemma UltimateCertifiedFrom15()
    ensures forall i :: 15 <= i < 19 ==> PieceCertified(UltimatePieces, UltimateAvoided, i)
  {
  }

  lemma UltimateReplyIsClean()
    ensures !IsDirty(UltimateReply)
  {
    UltimateCertifiedFrom0();
    UltimateCertifiedFrom5();
    UltimateCertifiedFrom10();
    UltimateCertifiedFrom15();
    CertifiedIsFree(UltimatePieces, UltimateAvoided);
    FreeOfCoreWordsIsClean(UltimateReply);
  }

  // ---------------------------------------------------------------------------
  // The node
  // ---------------------------------------------------------------------------

  /** The reply for one outcome of the model call, given the fixed reply
      for a dirty answer, for an API error and for any other failure: a
      clean answer is kept, and every fixed reply is clean. */
  function ReplyFor(outcome: LlmOutcome, needDetails: string, technical: string, ultimate: string): (out: string)
    requires !IsDirty(needDetails) && !IsDirty(technical) && !IsDirty(ultimate)
    ensures !IsDirty(out)
    ensures out in {needDetails, technical, ultimate} || (outcome.Replied? && out == outcome.content)
  {
    match outcome
    case Replied(content) => if IsDirty(content) then needDetails else content
    case ApiFailure => technical
    case OtherFailure => ultimate
  }

  /** The reply the node stores for one outcome of the model call. */
  function ClarificationReply(outcome: LlmOutcome): (out: string)
    ensures !IsDirty(out)
    ensures outcome.Replied? && !IsDirty(outcome.content) ==> out == outcome.content
    ensures outcome.Replied? && IsDirty(outcome.content) ==> out == NeedDetailsReply
    ensures outcome.ApiFailure? ==> out == TechnicalDifficultiesReply
    ensures outcome.OtherFailure? ==> out == UltimateReply
  {
    NeedDetailsReplyIsClean();
    TechnicalDifficultiesReplyIsClean();
    UltimateReplyIsClean();
    ReplyFor(outcome, NeedDetailsReply, TechnicalDifficultiesReply, UltimateReply)
  }

  /** The node. It reads only `user_input` (the failure reason it also
      reads is used for logging), asks the model for a clarification and
      stores the reply as `formatted_output`; no outcome of the call fails
      the turn. */
  function GenerateErrorMessage(s: LangGraphState, llm: Prompt -> LlmOutcome): (r: LangGraphState)
    ensures r == s.(formattedOutput := r.formattedOutput)
    ensures r.formattedOutput == Some(ClarificationReply(llm(ClarificationPrompt(s.userInput))))
  {
    s.(formattedOutput := Some(ClarificationReply(llm(ClarificationPrompt(s.userInput)))))
  }

  /** Whatever the model answers, and whether or not the call succeeds, the
      player never sees a forbidden term from this node. */
  lemma ErrorReplyIsAlwaysClean(s: LangGraphState, llm: Prompt -> LlmOutcome)
    ensures GenerateErrorMessage(s, llm).formattedOutput.Some?
    ensures !IsDirty(GenerateErrorMessage(s, llm).formattedOutput.value)
  {
  }

  /** The reply depends only on the player's question: the rejected hint
      and the verification reason never reach the model or the output. */
  lemma ErrorReplyIgnoresRejectedHint(s: LangGraphState, llm: Prompt -> LlmOutcome, hint: Option<string>, reason: Option<string>)
    ensures GenerateErrorMessage(s.(currentHint := hint, verificationReason := reason), llm).formattedOutput
         == GenerateErrorMessage(s, llm).formattedOutput
  {
  }
}

=== FILE: format_output.dfy ===
/** The output node: renders the hint with its level for the player and
    records the exchange in the chat history, keeping the last ten
    exchanges. */
module FormatOutput {
  import opened Results
  import opened Text
  import opened GraphState

  /** The history keeps at most this many messages (ten exchanges). */
  const HistoryLimit := 20

  /** Before the level number in a rendered hint. */
  const HintLabel: string := "\U{1F3AF} Hint (Level "

  /** Between the level number and the hint. */
  const LabelClose: string := "): "

  /** The text the player sees for a hint at a level. */
  function RenderHint(level: int, hint: string): (out: string)
    ensures IsPrefix(HintLabel, out)
    ensures IsSuffix(hint, out)
    ensures |out| > |HintLabel| + |LabelClose| + |hint|
  {
    HintLabel + IntToString(level) + LabelClose + hint
  }

  /** Hints at different levels, or different hints, never render alike. */
  lemma RenderHintInjective(l1: int, h1: string, l2: int, h2: string)
    requires RenderHint(l1, h1) == RenderHint(l2, h2)
    ensures l1 == l2 && h1 == h2
  {
    var n1, n2 := IntToString(l1), IntToString(l2);
    AfterSamePrefix(HintLabel, n1, LabelClose, h1, n2, h2);
    NumeralBeforeClose(n1, h1, n2, h2);
    IntToStringInjective(l1, l2);
  }

  lemma AfterSamePrefix(p: string, n1: string, c: string, h1: string, n2: string, h2: string)
    requires p + n1 + c + h1 == p + n2 + c + h2
    ensures n1 + c + h1 == n2 + c + h2
  {
    var a, b := n1 + c + h1, n2 + c + h2;
    assert p + n1 + c + h1 == p + a;
    assert p + n2 + c + h2 == p + b;
    assert a == (p + a)[|p|..];
    assert b == (p + b)[|p|..];
  }

  /** A numeral holds no ')', so the first ')' after the label ends it. */
  lemma NumeralBeforeClose(n1: string, h1: string, n2: string, h2: string)
    requires IsNumeral(n1) && IsNumeral(n2)
    requires n1 + LabelClose + h1 == n2 + LabelClose + h2
    ensures n1 == n2 && h1 == h2
  {
    var s := n1 + LabelClose + h1;
    forall i | 0 <= i < |n1| ensures s[i] != ')' {
      assert s[i] == n1[i];
    }
    forall i | 0 <= i < |n2| ensures s[i] != ')' {
      assert s[i] == (n2 + LabelClose + h2)[i] == n2[i];
    }
    assert s[|n1|] == ')';
    assert s[|n2|] == (n2 + LabelClose + h2)[|n2|] == ')';
    assert n1 == s[..|n1|] == n2;
    assert h1 == s[|n1| + 3..] == h2;
  }

  /** What `IntToString` produces: digits, or a minus sign and digits. */
  predicate IsNumeral(n: string)
  {
    |n| > 0 && (AllDigits(n) || (n[0] == '-' && AllDigits(n[1..])))
  }

  lemma IntToStringInjective(a: int, b: int)
    requires IntToString(a) == IntToString(b)
    ensures a == b
  {
    if a >= 0 && b >= 0 {
      DigitsValueOfNatToString(a);
      DigitsValueOfNatToString(b);
    } else if a < 0 && b < 0 {
      assert IntToString(a)[1..] == NatToString(-a);
      assert IntToString(b)[1..] == NatToString(-b);
      DigitsValueOfNatToString(-a);
      DigitsValueOfNatToString(-b);
    }
  }

  /** The history after appending an exchange: the last `HistoryLimit`
      messages of the extended list. */
  function AppendExchange(history: seq<Message>, userInput: string, reply: string): (r: seq<Message>)
    ensures |r| <= HistoryLimit
    ensures |r| == if |history| + 2 <= HistoryLimit then |history| + 2 else HistoryLimit
    ensures IsSuffixOf(r, history + [HumanMessage(userInput), AIMessage(reply)])
    ensures r[|r| - 2] == HumanMessage(userInput) && r[|r| - 1] == AIMessage(reply)
    ensures |history| + 2 <= HistoryLimit ==> r[..|history|] == history
  {
    var extended := history + [HumanMessage(userInput), AIMessage(reply)];
    if |extended| > HistoryLimit then extended[|extended| - HistoryLimit..] else extended
  }

  /** `s` is the tail end of `t`. */
  predicate IsSuffixOf(s: seq<Message>, t: seq<Message>)
  {
    |s| <= |t| && t[|t| - |s|..] == s
  }

  /** A history of whole exchanges: player and bot messages alternate,
      starting with the player's. */
  predicate Alternating(history: seq<Message>)
  {
    |history| % 2 == 0
    && forall i :: 0 <= i < |history| ==> (history[i].HumanMessage? <==> i % 2 == 0)
  }

  /** Appending an exchange and trimming keeps the history made of whole
      exchanges, because the limit is even. */
  lemma AppendExchangeKeepsAlternating(history: seq<Message>, userInput: string, reply: string)
    requires Alternating(history)
    ensures Alternating(AppendExchange(history, userInput, reply))
  {
    var extended := history + [HumanMessage(userInput), AIMessage(reply)];
    ExchangeKeepsAlternating(history, userInput, reply);
    var r := AppendExchange(history, userInput, reply);
    assert |r| % 2 == 0;
    EvenDifference(|extended|, |r|);
    var d := |extended| - |r|;
    assert r == extended[d..];
    DropEvenKeepsAlternating(extended, d);
  }

  lemma EvenDifference(a: nat, b: nat)
    requires b <= a && a % 2 == 0 && b % 2 == 0
    ensures (a - b) % 2 == 0
  {
  }

  lemma ExchangeKeepsAlternating(history: seq<Message>, userInput: string, reply: string)
    requires Alternating(history)
    ensures Alternating(history + [HumanMessage(userInput), AIMessage(reply)])
  {
    var extended := history + [HumanMessage(userInput), AIMessage(reply)];
    forall i | 0 <= i < |extended| ensures extended[i].HumanMessage? <==> i % 2 == 0 {
      if i < |history| {
        assert extended[i] == history[i];
      } else if i == |history| {
        assert extended[i] == HumanMessage(userInput);
      } else {
        assert extended[i] == AIMessage(reply);
      }
    }
  }

  /** Dropping an even number of messages from the front keeps whole
      exchanges. */
  lemma DropEvenKeepsAlternating(h: seq<Message>, d: nat)
    requires Alternating(h) && d <= |h| && d % 2 == 0
    ensures Alternating(h[d..])
  {
    forall i | 0 <= i < |h| - d ensures h[d..][i].HumanMessage? <==> i % 2 == 0 {
      assert h[d..][i] == h[d + i];
      assert (d + i) % 2 == i % 2;
    }
  }

  /** The node. It reads `current_hint` (a missing one fails the turn) and
      the level (1 when unset), and writes only `formatted_output` and
      `chat_history`. */
  function FormatOutputNode(s: LangGraphState): (r: Result<LangGraphState, NodeError>)
    ensures s.currentHint.None? <==> r.Err?
    ensures r.Err? ==> r.error == MissingKey("current_hint")
    ensures r.Ok? ==>
      var out := RenderHint(HintLevelOr1(s), s.currentHint.value);
      && r.value == s.(formattedOutput := Some(out), chatHistory := r.value.chatHistory)
      && r.value.chatHistory == Some(AppendExchange(HistoryOrEmpty(s), s.userInput, out))
  {
    match s.currentHint
    case None => Err(MissingKey("current_hint"))
    case Some(hint) =>
      var out := RenderHint(HintLevelOr1(s), hint);
      Ok(s.(formattedOutput := Some(out), chatHistory := Some(AppendExchange(HistoryOrEmpty(s), s.userInput, out))))
  }

  /** However long the stored history was, the node leaves at most ten
      exchanges, the newest last. */
  lemma FormattedHistoryIsBounded(s: LangGraphState)
    requires s.currentHint.Some?
    ensures FormatOutputNode(s).Ok?
    ensures |FormatOutputNode(s).value.chatHistory.value| <= HistoryLimit
    ensures FormatOutputNode(s).value.chatHistory.value[|FormatOutputNode(s).value.chatHistory.value| - 1]
         == AIMessage(FormatOutputNode(s).value.formattedOutput.value)
  {
  }
}

=== FILE: guardrail.dfy ===
/** The persona guardrail shared by the character rewriter and the error
    composer: a reply breaks character when, ignoring letter case, it
    mentions one of a fixed list of franchise terms. */
module Guardrail {
  import opened Text

  /** The terms a reply must not mention, in the order the code lists them. */
  const ForbiddenTerms: seq<string> := ["legend of zelda", "hyrule", "princess", "nintendo", "triforce"]

  /** The guardrail test: some forbidden term occurs in the lower-cased reply. */
  predicate IsDirty(text: string)
  {
    exists k :: 0 <= k < |ForbiddenTerms| && Contains(Lower(text), ForbiddenTerms[k])
  }

  /** Every forbidden term is written in lower case, so a reply quoting one
      in any letter case is caught. */
  lemma QuotingIsDirty(a: string, quoted: string, b: string, k: int)
    requires 0 <= k < |ForbiddenTerms|
    requires Lower(quoted) == ForbiddenTerms[k]
    ensures IsDirty(a + quoted + b)
  {
    LowerAppend(a + quoted, b);
    LowerAppend(a, quoted);
    ContainsQuoted(Lower(a), ForbiddenTerms[k], Lower(b));
  }

  /** A text that embeds a dirty text is dirty. */
  lemma DirtyInside(a: string, x: string, b: string)
    requires IsDirty(x)
    ensures IsDirty(a + x + b)
  {
    var k :| 0 <= k < |ForbiddenTerms| && Contains(Lower(x), ForbiddenTerms[k]);
    LowerAppend(a + x, b);
    LowerAppend(a, x);
    ContainsQuoted(Lower(a), Lower(x), Lower(b));
    ContainsTransitive(Lower(a + x + b), Lower(x), ForbiddenTerms[k]);
  }

  // ---------------------------------------------------------------------------
  // Certifying that a fixed text is clean
  // ---------------------------------------------------------------------------

  /** One single word inside each forbidden term ("zelda" inside "legend of
      zelda"); none of them holds a space. */
  const CoreWords: seq<string> := ["zelda", "hyrule", "princess", "nintendo", "triforce"]

  /** No core word occurs in the lower-cased text. */
  predicate FreeOfCoreWords(text: string)
  {
    forall k :: 0 <= k < |CoreWords| ==> !Contains(Lower(text), CoreWords[k])
  }

  lemma FreeOfCoreWordsIsClean(text: string)
    requires FreeOfCoreWords(text)
    ensures !IsDirty(text)
  {
    forall k | 0 <= k < |ForbiddenTerms| ensures !Contains(Lower(text), ForbiddenTerms[k]) {
      if k == 0 {
        assert OccursAt(ForbiddenTerms[0], CoreWords[0], 10);
        if Contains(Lower(text), ForbiddenTerms[0]) {
          ContainsTransitive(Lower(text), ForbiddenTerms[0], CoreWords[0]);
        }
      } else {
        assert ForbiddenTerms[k] == CoreWords[k];
      }
    }
  }

  /** The start of a text free of core words is free of them too. */
  lemma FreeOfPrefix(p: string, s: string)
    requires IsPrefix(p, s) && FreeOfCoreWords(s)
    ensures FreeOfCoreWords(p)
  {
    LowerAppend(p, s[|p|..]);
    assert s == p + s[|p|..];
    forall k, i | 0 <= k < |CoreWords| && 0 <= i <= |Lower(p)| - |CoreWords[k]|
      ensures !OccursAt(Lower(p), CoreWords[k], i)
    {
      assert !OccursAt(Lower(s), CoreWords[k], i);
      assert Lower(p)[i..i + |CoreWords[k]|] == Lower(s)[i..i + |CoreWords[k]|];
    }
  }

  /** A set of lower-case letters that meets every core word. */
  predicate MeetsEveryCoreWord(x: set<char>)
  {
    forall k :: 0 <= k < |CoreWords| ==> exists c :: c in x && c in CoreWords[k]
  }

  /** No letter of `x` occurs in `w`, in either case. */
  predicate Avoids(w: string, x: set<char>)
  {
    forall i :: 0 <= i < |w| ==> LowerChar(w[i]) !in x
  }

  /** A text avoiding a letter of every core word mentions none of them. */
  lemma AvoidingIsFree(w: string, x: set<char>)
    requires MeetsEveryCoreWord(x) && Avoids(w, x)
    ensures FreeOfCoreWords(w)
  {
    forall k | 0 <= k < |CoreWords| ensures !Contains(Lower(w), CoreWords[k]) {
      var c :| c in x && c in CoreWords[k];
      assert c !in Lower(w);
      LacksChar(Lower(w), c, CoreWords[k]);
    }
  }

  /** A character that, lower-cased, occurs in no core word, such as a
      space or a full stop. */
  predicate IsSeparator(c: char)
  {
    forall k :: 0 <= k < |CoreWords| ==> LowerChar(c) !in CoreWords[k]
  }

  /** No core word can straddle a separator, so two clean texts joined by
      one give a clean text. */
  lemma FreeAround(a: string, c: char, b: string)
    requires FreeOfCoreWords(a) && FreeOfCoreWords(b) && IsSeparator(c)
    ensures FreeOfCoreWords(a + [c] + b)
  {
    LowerAround(a, c, b);
    NoneAround(Lower(a), LowerChar(c), Lower(b), CoreWords);
  }

  lemma LowerAround(a: string, c: char, b: string)
    ensures Lower(a + [c] + b) == Lower(a) + [LowerChar(c)] + Lower(b)
  {
    LowerAppend(a + [c], b);
    LowerAppend(a, [c]);
    assert Lower([c]) == [LowerChar(c)];
  }

  /** No word of `words` straddles a character none of them holds. */
  lemma NoneAround(a: string, c: char, b: string, words: seq<string>)
    requires forall k :: 0 <= k < |words| ==> c !in words[k] && !Contains(a, words[k]) && !Contains(b, words[k])
    ensures forall k :: 0 <= k < |words| ==> !Contains(a + [c] + b, words[k])
  {
    forall k | 0 <= k < |words| ensures !Contains(a + [c] + b, words[k]) {
      NotContainsAround(a, c, b, words[k]);
    }
  }

  /** Two separators around a clean middle between two clean ends. */
  lemma FreeBetween(a: string, c: char, x: string, d: char, b: string)
    requires FreeOfCoreWords(a) && FreeOfCoreWords(x) && FreeOfCoreWords(b)
    requires IsSeparator(c) && IsSeparator(d)
    ensures FreeOfCoreWords(a + [c] + x + [d] + b)
  {
    FreeAround(a, c, x);
    FreeAround(a + [c] + x, d, b);
  }

  /** `pieces` joined end to end. */
  function Concat(pieces: seq<string>): string
  {
    ConcatFrom(pieces, 0)
  }

  /** The pieces from piece `i` on, joined end to end. */
  function ConcatFrom(pieces: seq<string>, i: nat): string
    decreases |pieces| - i
  {
    if i >= |pieces| then "" else pieces[i] + ConcatFrom(pieces, i + 1)
  }

  /** Piece `i` avoids a letter of every core word and, unless it is the
      last piece, ends in a space. */
  predicate PieceCertified(pieces: seq<string>, avoided: seq<set<char>>, i: int)
    requires 0 <= i < |pieces| && |avoided| == |pieces|
  {
    MeetsEveryCoreWord(avoided[i]) && Avoids(pieces[i], avoided[i])
    && (i < |pieces| - 1 ==> |pieces[i]| > 0 && pieces[i][|pieces[i]| - 1] == ' ')
  }

  /** A certificate that a fixed text is clean: for each piece, a set of
      letters it avoids. */
  predicate Certified(pieces: seq<string>, avoided: seq<set<char>>)
  {
    |avoided| == |pieces| && forall i :: 0 <= i < |pieces| ==> PieceCertified(pieces, avoided, i)
  }

  /** A certified text mentions no core word. */
  lemma CertifiedIsFree(pieces: seq<string>, avoided: seq<set<char>>)
    requires Certified(pieces, avoided)
    ensures FreeOfCoreWords(Concat(pieces))
  {
    CertifiedIsFreeFrom(pieces, avoided, 0);
  }

  lemma {:induction false} CertifiedIsFreeFrom(pieces: seq<string>, avoided: seq<set<char>>, i: nat)
    requires Certified(pieces, avoided)
    ensures FreeOfCoreWords(ConcatFrom(pieces, i))
    decreases |pieces| - i
  {
    if i >= |pieces| {
      assert Lower("") == "";
    } else if i == |pieces| - 1 {
      PieceIsFree(pieces, avoided, i);
      assert ConcatFrom(pieces, i + 1) == "";
      assert ConcatFrom(pieces, i) == pieces[i] + "" == pieces[i];
    } else {
      CertifiedIsFreeFrom(pieces, avoided, i + 1);
      var p' := PieceSplits(pieces, avoided, i);
      FreeAround(p', ' ', ConcatFrom(pieces, i + 1));
      assert ConcatFrom(pieces, i) == p' + [' '] + ConcatFrom(pieces, i + 1);
    }
  }

  lemma PieceIsFree(pieces: seq<string>, avoided: seq<set<char>>, i: nat)
    requires Certified(pieces, avoided) && i < |pieces|
    ensures FreeOfCoreWords(pieces[i])
  {
    assert PieceCertified(pieces, avoided, i);
    AvoidingIsFree(pieces[i], avoided[i]);
  }

  /** A piece before the last is a clean text and a space. */
  lemma PieceSplits(pieces: seq<string>, avoided: seq<set<char>>, i: nat) returns (p': string)
    requires Certified(pieces, avoided) && i < |pieces| - 1
    ensures pieces[i] == p' + [' '] && FreeOfCoreWords(p')
  {
    assert PieceCertified(pieces, avoided, i);
    var p := pieces[i];
    p' := p[..|p| - 1];
    assert p == p' + [' '];
    assert Avoids(p', avoided[i]);
    AvoidingIsFree(p', avoided[i]);
  }

}

=== FILE: hint_finder.dfy ===
/** Retrieval of a hint and its supporting context, and the node that
    stores both in the graph state. The vector store and the retrieval
    chain are parameters. */
module HintFinder {
  import opened Results
  import opened Text
  import opened GraphState

  /** What the retrieval chain returns as context: a list of documents
      (their page contents) or some other value, kept as its string form. */
  datatype Context = Documents(contents: seq<string>) | Rendered(text: string)

  /** The retrieval chain's answer to one question. */
  datatype ChainResult = ChainResult(response: string, context: Context)

  /** What the level-filtered probe search comes to: no vector store to
      probe, a search that raised, or the documents it found. */
  datatype Probe = NoVectorStore | ProbeFailed | ProbeFound(found: seq<string>)

  /** The four ways the retrieval function can go. */
  datatype Route = FilteredHit | FilteredMiss | Unfiltered | FilterFailed

  /** The probe's metadata filter `{"hint_level": {"$lte": n}}`: it admits
      every hint of level at most `n`. */
  predicate AdmittedByLevelFilter(requested: int, docLevel: int)
  {
    docLevel <= requested
  }

  /** Raising the requested level keeps every hint a lower request admits. */
  lemma LevelFilterIsCumulative(requested: int, docLevel: int)
    requires AdmittedByLevelFilter(requested, docLevel)
    ensures forall higher :: requested <= higher ==> AdmittedByLevelFilter(higher, docLevel)
  {
  }

  /** Which branch the function takes for a probe outcome. */
  function RouteOf(p: Probe): (r: Route)
    ensures r == FilteredHit <==> p.ProbeFound? && |p.found| > 0
    ensures r == FilteredMiss <==> p.ProbeFound? && |p.found| == 0
    ensures r == Unfiltered <==> p.NoVectorStore?
    ensures r == FilterFailed <==> p.ProbeFailed?
  {
    match p
    case NoVectorStore => Unfiltered
    case ProbeFailed => FilterFailed
    case ProbeFound(found) => if |found| > 0 then FilteredHit else FilteredMiss
  }

  /** One document's line in the context text, numbered from 1. */
  function DocLine(i: nat, content: string): string
  {
    "Document " + NatToString(i + 1) + ": " + content
  }

  /** The numbered document lines, in retrieval order. */
  function DocLines(contents: seq<string>): (ls: seq<string>)
    ensures |ls| == |contents|
    ensures forall i :: 0 <= i < |ls| ==> ls[i] == DocLine(i, contents[i])
  {
    seq(|contents|, i requires 0 <= i < |contents| => DocLine(i, contents[i]))
  }

  /** The context text handed to the verifier: numbered documents separated
      by a blank line, or the context's string form. */
  function ContextText(c: Context): (t: string)
    ensures c.Rendered? ==> t == c.text
    ensures c.Documents? && |c.contents| == 0 ==> t == ""
    ensures c.Documents? && |c.contents| > 0 ==> IsPrefix(DocLine(0, c.contents[0]), t)
  {
    match c
    case Rendered(text) => text
    case Documents(contents) =>
      Join("\n\n", DocLines(contents))
  }

  /** A further document adds its numbered line after a blank line, so the
      documents appear in the order retrieved, numbered consecutively. */
  lemma ContextTextAppend(contents: seq<string>, next: string)
    requires |contents| > 0
    ensures ContextText(Documents(contents + [next]))
         == ContextText(Documents(contents)) + "\n\n" + DocLine(|contents|, next)
  {
    assert DocLines(contents + [next]) == DocLines(contents) + [DocLine(|contents|, next)];
    JoinAppend("\n\n", DocLines(contents), DocLine(|contents|, next));
  }

  /** The result of the retrieval function: exactly a response and a context text. */
  datatype HintWithContext = HintWithContext(response: string, context: string)

  /** One invocation of the retrieval chain: it answers or it raises. */
  datatype Invocation = Answered(result: ChainResult) | ChainRaised

  /** Retrieval gives up only when the chain raised on its last invocation. */
  datatype RetrievalError = ChainFailed

  /** The shape the caller receives for one invocation's outcome. */
  function Shaped(inv: Invocation): (r: Result<HintWithContext, RetrievalError>)
    ensures r.Ok? <==> inv.Answered?
    ensures r.Ok? ==> (r.value.response == inv.result.response &&
                       r.value.context == ContextText(inv.result.context))
  {
    match inv
    case Answered(res) => Ok(HintWithContext(res.response, ContextText(res.context)))
    case ChainRaised => Err(ChainFailed)
  }

  /** Retrieval for a question at a hint level. `chain(question, n)` is the
      chain's `n`-th invocation (from 0) for this call, since the chain may
      behave differently when invoked again. Every branch of the guarded
      block invokes the same unfiltered chain; when anything in that block
      raises — the probe or the chain — the handler invokes the chain once
      more, unguarded, so a failure there reaches the caller. */
  function GetDirectHintWithContext(question: string, hintLevel: int,
                                    probe: (string, int) -> Probe,
                                    chain: (string, nat) -> Invocation): (r: Result<HintWithContext, RetrievalError>)
    ensures !probe(question, hintLevel).ProbeFailed? && chain(question, 0).Answered? ==>
      r.Ok? && r.value.response == chain(question, 0).result.response
            && r.value.context == ContextText(chain(question, 0).result.context)
    ensures !probe(question, hintLevel).ProbeFailed? && chain(question, 0).ChainRaised? ==>
      r == Shaped(chain(question, 1))
    ensures probe(question, hintLevel).ProbeFailed? ==> r == Shaped(chain(question, 0))
    ensures r.Err? <==> (if probe(question, hintLevel).ProbeFailed? then chain(question, 0).ChainRaised?
                         else chain(question, 0).ChainRaised? && chain(question, 1).ChainRaised?)
  {
    var guarded: Option<Invocation> := match RouteOf(probe(question, hintLevel))
      case FilteredHit => Some(chain(question, 0))
      case FilteredMiss => Some(chain(question, 0))
      case Unfiltered => Some(chain(question, 0))
      case FilterFailed => None;
    match guarded
    case Some(Answered(res)) => Shaped(Answered(res))
    case Some(ChainRaised) => Shaped(chain(question, 1))
    case None => Shaped(chain(question, 0))
  }

  /** A chain that answers the same way when invoked again makes the
      requested level irrelevant: the level filter only decides which
      branch is taken, and the retry repeats the failure it follows. */
  lemma RetrievalIgnoresLevel(question: string, level1: int, level2: int,
                              probe: (string, int) -> Probe, chain: (string, nat) -> Invocation)
    requires chain(question, 0) == chain(question, 1)
    ensures GetDirectHintWithContext(question, level1, probe, chain)
         == GetDirectHintWithContext(question, level2, probe, chain)
         == Shaped(chain(question, 0))
  {
  }

  /** The handler's second invocation rescues a transient failure: when the
      probe worked but the first invocation raised, the second answer is
      the result. */
  lemma RetryRescuesTransientFailure(question: string, hintLevel: int,
                                     probe: (string, int) -> Probe, chain: (string, nat) -> Invocation)
    requires !probe(question, hintLevel).ProbeFailed?
    requires chain(question, 0).ChainRaised? && chain(question, 1).Answered?
    ensures GetDirectHintWithContext(question, hintLevel, probe, chain).Ok?
    ensures GetDirectHintWithContext(question, hintLevel, probe, chain).value.response
         == chain(question, 1).result.response
  {
  }

  /** What the node prints before retrieving: the input in quotes, then the level. */
  const FindHintInputHead: string := "\U{1F50D} FIND_HINT INPUT: '"

  function FindHintInputLine(input: string, level: int): string
  {
    FindHintInputHead + input + "' (level " + IntToString(level) + ")"
  }

  /** The node: retrieves for the player's input at the current level
      (1 when unset) and stores the response and context, unchecked, as
      `current_hint` and `retrieved_context`. It has no handler, so a
      retrieval failure propagates out of the node. */
  function FindHint(s: LangGraphState, probe: (string, int) -> Probe,
                    chain: (string, nat) -> Invocation): (r: Result<LangGraphState, RetrievalError>)
    ensures r.Ok? <==> GetDirectHintWithContext(s.userInput, HintLevelOr1(s), probe, chain).Ok?
    ensures r.Ok? ==> r.value == s.(currentHint := r.value.currentHint, retrievedContext := r.value.retrievedContext)
    ensures r.Ok? ==> r.value.currentHint == Some(GetDirectHintWithContext(s.userInput, HintLevelOr1(s), probe, chain).value.response)
    ensures r.Ok? ==> r.value.retrievedContext == Some(GetDirectHintWithContext(s.userInput, HintLevelOr1(s), probe, chain).value.context)
  {
    match GetDirectHintWithContext(s.userInput, HintLevelOr1(s), probe, chain)
    case Ok(found) => Ok(s.(currentHint := Some(found.response), retrievedContext := Some(found.context)))
    case Err(e) => Err(e)
  }

  /** With a chain that answers the same way when invoked again, two turns
      on the same input store the same hint and context whatever their
      levels, and an empty response is stored as it is. */
  lemma FindHintIgnoresLevel(s: LangGraphState, level: Option<int>,
                             probe: (string, int) -> Probe, chain: (string, nat) -> Invocation)
    requires chain(s.userInput, 0) == chain(s.userInput, 1)
    ensures FindHint(s.(hintLevel := level), probe, chain).Ok? == FindHint(s, probe, chain).Ok?
    ensures FindHint(s, probe, chain).Ok? ==>
      FindHint(s.(hintLevel := level), probe, chain).value.currentHint == FindHint(s, probe, chain).value.currentHint &&
      FindHint(s.(hintLevel := level), probe, chain).value.retrievedContext == FindHint(s, probe, chain).value.retrievedContext
    ensures FindHint(s, probe, chain).Ok? <==> chain(s.userInput, 0).Answered?
    ensures FindHint(s, probe, chain).Ok? ==>
      FindHint(s, probe, chain).value.currentHint == Some(chain(s.userInput, 0).result.response)
  {
    RetrievalIgnoresLevel(s.userInput, HintLevelOr1(s.(hintLevel := level)), HintLevelOr1(s), probe, chain);
  }
}

=== FILE: legacy_router.dfy ===
/** The first router of the project, kept beside the current one: a turn
    is a hint request when it mentions "hint" in any case; a hint request
    repeating the last question climbs one hint level, any other starts
    again at level 1, and everything else is answered directly. The state
    is the dictionary the router was built with; only its two keys matter. */
module LegacyRouter {
  import opened Results
  import opened Text

  /** The keys the router reads and writes, absent until first set. */
  datatype RouterState = RouterState(hintLevel: Option<int>, lastQuestionId: Option<string>)

  datatype RouteName = RespondDirectly | HintEscalation | NewQuery

  function RouteText(r: RouteName): string
  {
    match r
    case RespondDirectly => "respond_directly"
    case HintEscalation => "hint_escalation"
    case NewQuery => "new_query"
  }

  /** Incrementing a level that was never set raises a missing-key error. */
  datatype RouteError = MissingHintLevel

  /** `is_hint_request`: "hint" occurs in the lower-cased input. */
  predicate IsHintRequest(input: string)
  {
    Contains(Lower(input), "hint")
  }

  /** `is_repeat`: the input equals the stored last question, exactly; with
      none stored it never does. */
  predicate IsRepeat(state: RouterState, input: string)
  {
    state.lastQuestionId == Some(input)
  }

  /** `route`: the route taken and the state afterwards. */
  function Route(state: RouterState, input: string): (r: Result<(RouteName, RouterState), RouteError>)
    ensures !IsHintRequest(input) ==> r == Ok((RespondDirectly, state))
    ensures IsHintRequest(input) && IsRepeat(state, input) ==>
      if state.hintLevel.None? then r == Err(MissingHintLevel)
      else r == Ok((HintEscalation, state.(hintLevel := Some(state.hintLevel.value + 1))))
    ensures IsHintRequest(input) && !IsRepeat(state, input) ==>
      r == Ok((NewQuery, RouterState(Some(1), Some(input))))
    ensures r.Ok? ==> (r.value.0 == RespondDirectly <==> !IsHintRequest(input))
  {
    if !IsHintRequest(input) then Ok((RespondDirectly, state))
    else if IsRepeat(state, input) then
      if state.hintLevel.None? then Err(MissingHintLevel)
      else Ok((HintEscalation, state.(hintLevel := Some(state.hintLevel.value + 1))))
    else Ok((NewQuery, RouterState(Some(1), Some(input))))
  }

  /** After any hint request that goes through, the stored question is that
      request and the level is at least the old one plus one or exactly 1. */
  lemma HintRequestRemembersInput(state: RouterState, input: string)
    requires IsHintRequest(input) && Route(state, input).Ok?
    ensures Route(state, input).value.1.lastQuestionId == Some(input)
    ensures Route(state, input).value.1.hintLevel.Some?
  {
  }

  /** The state after the same input is routed `k` times, or the error that
      stopped it. */
  function RouteRepeatedly(state: RouterState, input: string, k: nat): Result<RouterState, RouteError>
    decreases k
  {
    if k == 0 then Ok(state)
    else
      match Route(state, input)
      case Err(e) => Err(e)
      case Ok((_, next)) => RouteRepeatedly(next, input, k - 1)
  }

  /** The same hint request made `k` times, starting where it is not the
      stored question, climbs through levels 1, 2, ..., k: the first turn
      starts a new query and every later one is a repeat. */
  lemma {:induction false} RepeatedHintClimbs(state: RouterState, input: string, k: nat)
    requires IsHintRequest(input) && !IsRepeat(state, input) && k >= 1
    ensures RouteRepeatedly(state, input, k) == Ok(RouterState(Some(k), Some(input)))
  {
    var started := RouterState(Some(1), Some(input));
    assert RouteRepeatedly(state, input, k) == RouteRepeatedly(started, input, k - 1);
    RepeatsClimb(started, input, k - 1, 1);
  }

  lemma {:induction false} RepeatsClimb(state: RouterState, input: string, j: nat, level: int)
    requires IsHintRequest(input) && state == RouterState(Some(level), Some(input))
    ensures RouteRepeatedly(state, input, j) == Ok(RouterState(Some(level + j), Some(input)))
    decreases j
  {
    if j > 0 {
      var next := RouterState(Some(level + 1), Some(input));
      assert Route(state, input) == Ok((HintEscalation, next));
      RepeatsClimb(next, input, j - 1, level + 1);
    }
  }

  /** The hint test ignores case but the repeat test does not: after "Hint
      please", the request "hint please" starts over at level 1. */
  lemma RepeatIsCaseSensitive(state: RouterState, a: string, b: string)
    requires IsHintRequest(b) && state.lastQuestionId == Some(a) && a != b && Lower(a) == Lower(b)
    ensures Route(state, b) == Ok((NewQuery, RouterState(Some(1), Some(b))))
  {
  }

  /** A stored question without a stored level makes its repeat fail. */
  lemma RepeatWithoutLevelFails(input: string)
    requires IsHintRequest(input)
    ensures Route(RouterState(None, Some(input)), input) == Err(MissingHintLevel)
  {
  }
}

=== FILE: llm.dfy ===
/** The language-model calls the nodes make, reduced to what the nodes
    send and what can come back. The model itself is a parameter of every
    node that calls it. */
module Llm {

  /** What a node asks the model, with the values it fills into its template. */
  datatype Prompt =
    | VerificationPrompt(userQuestion: string, context: string, hint: string)
    | PersonaPrompt(hint: string)
    | ClarificationPrompt(userQuestion: string)

  /** What a call produces: the reply text, an authentication or API error
      raised by the provider, or any other exception. */
  datatype LlmOutcome = Replied(content: string) | ApiFailure | OtherFailure
}

=== FILE: persona_rewriter.dfy ===
/** The persona node: rewrites the verified hint in the assistant's
    voice, with the same guardrail as the clarification node and its own
    fallbacks. */
module PersonaRewriter {
  import opened Results
  import opened Text
  import opened GraphState
  import opened Llm
  import opened Guardrail

  const OpeningPieces: seq<string> := [
    "Listen up, ", "space ", "detective! "]
  const OpeningAvoided: seq<set<char>> := [
    {'d', 'r'}, {'d', 'r'}, {'a', 'n', 'r'}]

  /** The greeting both fallbacks start with. */
  const Opening: string := Concat(OpeningPieces)

  lemma OpeningCertifiedFrom0()
    ensures forall i :: 0 <= i < 3 ==> PieceCertified(OpeningPieces, OpeningAvoided, i)
  {
  }

  lemma OpeningIsFree()
    ensures FreeOfCoreWords(Opening)
  {
    OpeningCertifiedFrom0();
    CertifiedIsFree(OpeningPieces, OpeningAvoided);
  }

  const QuitTailPieces: seq<string> := [
    " Now quit ", "bothering ", "me and get ", "back to ", "solving ", "this ",
    "mystery!"]
  const QuitTailAvoided: seq<set<char>> := [
    {'e'}, {'c', 'd', 'l'}, {'i', 'l'}, {'e'}, {'e'}, {'e'},
    {'i', 'l'}]

  /** What follows the first sentence in the guardrail fallback; it starts with a space. */
  const QuitTail: string := Concat(QuitTailPieces)

  lemma QuitTailCertifiedFrom0()
    ensures forall i :: 0 <= i < 5 ==> PieceCertified(QuitTailPieces, QuitTailAvoided, i)
  {
  }

  lemma QuitTailCertifiedFrom5()
    ensures forall i :: 5 <= i < 7 ==> PieceCertified(QuitTailPieces, QuitTailAvoided, i)
  {
  }

  lemma QuitTailIsFree()
    ensures FreeOfCoreWords(QuitTail)
  {
    QuitTailCertifiedFrom0();
    QuitTailCertifiedFrom5();
    CertifiedIsFree(QuitTailPieces, QuitTailAvoided);
  }

  const GetBackTailPieces: seq<string> := [
    "Now get ", "back to ", "solving ", "this ", "mystery!"]
  const GetBackTailAvoided: seq<set<char>> := [
    {'d', 'r'}, {'e'}, {'e'}, {'e'}, {'i', 'l'}]

  /** What follows the hint and a space in the API-error fallback. */
  const GetBackTail: string := Concat(GetBackTailPieces)

  lemma GetBackTailCertifiedFrom0()
    ensures forall i :: 0 <= i < 5 ==> PieceCertified(GetBackTailPieces, GetBackTailAvoided, i)
  {
  }

  lemma GetBackTailIsFree()
    ensures FreeOfCoreWords(GetBackTail)
  {
    GetBackTailCertifiedFrom0();
    CertifiedIsFree(GetBackTailPieces, GetBackTailAvoided);
  }

  // ---------------------------------------------------------------------------
  // The fallbacks
  // ---------------------------------------------------------------------------

  /** `hint.split('.')[0]`: the hint up to its first full stop. */
  function FirstSentence(hint: string): (r: string)
    ensures IsPrefix(r, hint)
    ensures '.' !in r
    ensures r == hint || hint[|r|] == '.'
  {
    FirstPiece(hint, '.');
    Split(hint, '.')[0]
  }

  /** A greeting, a text, one character and a closing line. */
  function Framed(opening: string, x: string, c: char, tail: string): string
  {
    opening + x + [c] + tail
  }

  /** The reply used when the model's rewrite mentions a forbidden term:
      the greeting, the hint's first sentence, a full stop and a dismissal. */
  function GuardrailFallback(hint: string): string
  {
    Framed(Opening, FirstSentence(hint), '.', QuitTail)
  }

  /** The reply used when the provider raises an authentication or API
      error: the greeting, the whole hint, a space and a closing line. */
  function ApiFallback(hint: string): string
  {
    Framed(Opening, hint, ' ', GetBackTail)
  }

  /** The hint the node stores for one outcome of the model call. */
  function RewrittenHint(hint: string, outcome: LlmOutcome): (h: string)
    ensures outcome.Replied? && !IsDirty(outcome.content) ==> h == outcome.content
    ensures outcome.Replied? && IsDirty(outcome.content) ==> h == GuardrailFallback(hint)
    ensures outcome.ApiFailure? ==> h == ApiFallback(hint)
    ensures outcome.OtherFailure? ==> h == hint
  {
    match outcome
    case Replied(content) => if IsDirty(content) then GuardrailFallback(hint) else content
    case ApiFailure => ApiFallback(hint)
    case OtherFailure => hint
  }

  /** The node. Reading `current_hint` is the only step outside the error
      handling, so a missing hint fails the turn; otherwise only
      `current_hint` changes. */
  function MaintainCharacter(s: LangGraphState, llm: Prompt -> LlmOutcome): (r: Result<LangGraphState, NodeError>)
    ensures s.currentHint.None? <==> r.Err?
    ensures r.Err? ==> r.error == MissingKey("current_hint")
    ensures r.Ok? ==>
      && r.value == s.(currentHint := r.value.currentHint)
      && r.value.currentHint == Some(RewrittenHint(s.currentHint.value, llm(PersonaPrompt(s.currentHint.value))))
  {
    match s.currentHint
    case None => Err(MissingKey("current_hint"))
    case Some(hint) => Ok(s.(currentHint := Some(RewrittenHint(hint, llm(PersonaPrompt(hint))))))
  }

  // ---------------------------------------------------------------------------
  // What the guardrail does and does not promise
  // ---------------------------------------------------------------------------

  /** A framed text keeps what it frames, forbidden terms included. */
  lemma FramedKeepsDirt(opening: string, x: string, c: char, tail: string)
    requires IsDirty(x)
    ensures IsDirty(Framed(opening, x, c, tail))
  {
    DirtyInside(opening, x, [c] + tail);
    assert Framed(opening, x, c, tail) == opening + x + ([c] + tail);
  }

  /** The guardrail fallback keeps the hint's first sentence, so a forbidden
      term there reaches the player. */
  lemma GuardrailFallbackKeepsDirt(hint: string)
    requires IsDirty(FirstSentence(hint))
    ensures IsDirty(GuardrailFallback(hint))
  {
    FramedKeepsDirt(Opening, FirstSentence(hint), '.', QuitTail);
  }

  /** The API-error fallback keeps the whole hint. */
  lemma ApiFallbackKeepsDirt(hint: string)
    requires IsDirty(hint)
    ensures IsDirty(ApiFallback(hint))
  {
    FramedKeepsDirt(Opening, hint, ' ', GetBackTail);
  }

  /** So the node can break character although its model's reply was
      rejected for doing so: a forbidden term in the hint's first sentence
      survives the guardrail. */
  lemma DirtyFirstSentenceSurvivesGuardrail(hint: string, content: string)
    requires IsDirty(content) && IsDirty(FirstSentence(hint))
    ensures IsDirty(RewrittenHint(hint, Replied(content)))
  {
    GuardrailFallbackKeepsDirt(hint);
  }

  /** Likewise a forbidden term anywhere in the hint survives an API error. */
  lemma DirtyHintSurvivesApiFailure(hint: string)
    requires IsDirty(hint)
    ensures IsDirty(RewrittenHint(hint, ApiFailure))
  {
    ApiFallbackKeepsDirt(hint);
  }

  /** Opening without its final space, which is free of core words. */
  lemma OpeningSplits() returns (o: string)
    ensures Opening == o + [' '] && FreeOfCoreWords(o)
  {
    OpeningIsFree();
    o := Opening[..|Opening| - 1];
    assert Opening == o + [' '] by {
      assert Opening[|Opening| - 1] == ' ';
    }
    FreeOfPrefix(o, Opening);
  }

  /** A greeting ending in a space, a text and a closing line, all free of
      core words and joined by a separator, are free of them. */
  lemma FramedIsFree(opening: string, o: string, x: string, c: char, tail: string)
    requires opening == o + [' '] && IsSeparator(c)
    requires FreeOfCoreWords(o) && FreeOfCoreWords(x) && FreeOfCoreWords(tail)
    ensures FreeOfCoreWords(Framed(opening, x, c, tail))
  {
    assert IsSeparator(' ');
    FreeBetween(o, ' ', x, c, tail);
  }

  /** The guardrail fallback of a hint free of core words is free of them. */
  lemma GuardrailFallbackIsFree(hint: string)
    requires FreeOfCoreWords(hint)
    ensures FreeOfCoreWords(GuardrailFallback(hint))
  {
    var o := OpeningSplits();
    QuitTailIsFree();
    FirstSentenceFramedIsFree(Opening, o, hint, QuitTail);
  }

  lemma FirstSentenceFramedIsFree(opening: string, o: string, hint: string, tail: string)
    requires opening == o + [' '] && FreeOfCoreWords(o)
    requires FreeOfCoreWords(hint) && FreeOfCoreWords(tail)
    ensures FreeOfCoreWords(Framed(opening, FirstSentence(hint), '.', tail))
  {
    var first := FirstSentence(hint);
    FreeOfPrefix(first, hint);
    assert IsSeparator('.');
    FramedIsFree(opening, o, first, '.', tail);
  }

  /** The API-error fallback of a hint free of core words is free of them. */
  lemma ApiFallbackIsFree(hint: string)
    requires FreeOfCoreWords(hint)
    ensures FreeOfCoreWords(ApiFallback(hint))
  {
    var o := OpeningSplits();
    GetBackTailIsFree();
    SpaceFramedIsFree(Opening, o, hint, GetBackTail);
  }

  lemma SpaceFramedIsFree(opening: string, o: string, x: string, tail: string)
    requires opening == o + [' '] && FreeOfCoreWords(o)
    requires FreeOfCoreWords(x) && FreeOfCoreWords(tail)
    ensures FreeOfCoreWords(Framed(opening, x, ' ', tail))
  {
    assert IsSeparator(' ');
    FramedIsFree(opening, o, x, ' ', tail);
  }

  /** A hint that mentions no core word yields a clean persona hint, whatever
      the model answers and however the call fails. */
  lemma CleanHintStaysClean(hint: string, outcome: LlmOutcome)
    requires FreeOfCoreWords(hint)
    ensures !IsDirty(RewrittenHint(hint, outcome))
  {
    match outcome
    case Replied(content) =>
      if IsDirty(content) {
        GuardrailFallbackIsFree(hint);
        FreeOfCoreWordsIsClean(GuardrailFallback(hint));
      }
    case ApiFailure =>
      ApiFallbackIsFree(hint);
      FreeOfCoreWordsIsClean(ApiFallback(hint));
    case OtherFailure =>
      FreeOfCoreWordsIsClean(hint);
  }
}

=== FILE: regression.dfy ===
/** The regression runner's readers: they recover the hint level, the kind
    of escalation and the search query from the captured log of a turn,
    and label the turn from its final output. */
module Regression {
  import opened Results
  import opened Text
  import Router
  import FormatOutput
  import HintFinder

  // ---------------------------------------------------------------------------
  // First match of a pattern
  // ---------------------------------------------------------------------------

  /** A pattern anchored at the start of a text: a literal head followed by
      a group. */
  datatype Group = DigitsThenClose | NonQuoteThenQuote

  /** The length of the run of characters at the start of `t` that the
      group's repeated class accepts: ASCII digits, or anything but an
      apostrophe. */
  function RunLength(g: Group, t: string): (n: nat)
    ensures n <= |t|
    ensures forall i :: 0 <= i < n ==> InClass(g, t[i])
    ensures n < |t| ==> !InClass(g, t[n])
  {
    if |t| == 0 || !InClass(g, t[0]) then 0 else 1 + RunLength(g, t[1..])
  }

  predicate InClass(g: Group, c: char)
  {
    match g
    case DigitsThenClose => IsDigit(c)
    case NonQuoteThenQuote => c != '\''
  }

  /** The character that must follow the run. */
  function Closer(g: Group): char
  {
    match g
    case DigitsThenClose => ')'
    case NonQuoteThenQuote => '\''
  }

  /** The group matched at the start of `t`: a non-empty run of the class
      followed by the closing character. A greedy run that backs off would
      leave a class character before the closer, which is never the
      closer, so the longest run is the only candidate. */
  function GroupAt(g: Group, t: string): (r: Option<string>)
    ensures r.Some? ==> 0 < |r.value| < |t| && IsPrefix(r.value, t) && t[|r.value|] == Closer(g)
    ensures r.Some? ==> forall i :: 0 <= i < |r.value| ==> InClass(g, r.value[i])
  {
    var n := RunLength(g, t);
    if 0 < n < |t| && t[n] == Closer(g) then Some(t[..n]) else None
  }

  /** The match of `head` then the group at the start of `t`. */
  function MatchAt(head: string, g: Group, t: string): Option<string>
  {
    if IsPrefix(head, t) then GroupAt(g, t[|head|..]) else None
  }

  /** `re.search`: the group of the leftmost match. */
  function Search(head: string, g: Group, t: string): (r: Option<string>)
    ensures r.Some? ==> exists i :: 0 <= i <= |t| && MatchAt(head, g, t[i..]) == r
    decreases |t|
  {
    match MatchAt(head, g, t)
    case Some(m) =>
      assert t[0..] == t;
      Some(m)
    case None =>
      if |t| == 0 then None
      else
        var r := Search(head, g, t[1..]);
        assert r.Some? ==> exists i :: 0 <= i <= |t| && MatchAt(head, g, t[i..]) == r by {
          if r.Some? {
            var i :| 0 <= i <= |t| - 1 && MatchAt(head, g, t[1..][i..]) == r;
            assert t[1..][i..] == t[i + 1..];
          }
        }
        r
  }

  /** Nothing that matches starts inside `x`, so the search of `x + rest`
      is the search of `rest`. */
  lemma {:induction false} SearchSkips(head: string, g: Group, x: string, rest: string)
    requires forall i :: 0 <= i < |x| ==> MatchAt(head, g, (x + rest)[i..]).None?
    ensures Search(head, g, x + rest) == Search(head, g, rest)
    decreases |x|
  {
    if |x| > 0 {
      assert MatchAt(head, g, (x + rest)[0..]).None?;
      assert (x + rest)[0..] == x + rest;
      assert (x + rest)[1..] == x[1..] + rest;
      forall i | 0 <= i < |x| - 1 ensures MatchAt(head, g, (x[1..] + rest)[i..]).None? {
        assert (x[1..] + rest)[i..] == (x + rest)[i + 1..];
      }
      SearchSkips(head, g, x[1..], rest);
    } else {
      assert x + rest == rest;
    }
  }

  /** A match needs the head, so a text in which no position starts the
      head has none. */
  lemma NoHeadNoMatch(head: string, g: Group, x: string, rest: string)
    requires |head| > 0 && head[0] !in x
    ensures forall i :: 0 <= i < |x| ==> MatchAt(head, g, (x + rest)[i..]).None?
  {
    forall i | 0 <= i < |x| ensures MatchAt(head, g, (x + rest)[i..]).None? {
      assert (x + rest)[i..][0] == x[i];
    }
  }

  /** A line that does not contain the head starts no match, nor does the
      newline after it, when the head holds no newline. */
  lemma NoHeadInLine(head: string, g: Group, line: string, rest: string)
    requires |head| > 0 && '\n' !in head && !Contains(line, head)
    ensures forall i :: 0 <= i < |line + "\n"| ==> MatchAt(head, g, (line + "\n" + rest)[i..]).None?
  {
    var s := line + "\n" + rest;
    forall i | 0 <= i < |line| + 1 ensures MatchAt(head, g, s[i..]).None? {
      if i + |head| <= |line| {
        assert !OccursAt(line, head, i);
        assert s[i..][..|head|] == line[i..i + |head|];
      } else if i + |head| <= |s| {
        assert s[i..][..|head|][|line| - i] == '\n';
      }
    }
  }

  /** The reading of a rendered number: its digits followed by `)`. */
  lemma NumberThenClose(n: nat, rest: string)
    ensures GroupAt(DigitsThenClose, NatToString(n) + ")" + rest) == Some(NatToString(n))
  {
    var ds := NatToString(n);
    var t := ds + ")" + rest;
    assert t[..|ds|] == ds;
    assert forall i :: 0 <= i < |ds| ==> t[i] == ds[i];
    RunStopsAt(DigitsThenClose, t, |ds|);
  }

  /** A run of class characters ending at a non-class character has that length. */
  lemma {:induction false} RunStopsAt(g: Group, t: string, n: nat)
    requires n < |t| && !InClass(g, t[n])
    requires forall i :: 0 <= i < n ==> InClass(g, t[i])
    ensures RunLength(g, t) == n
    decreases n
  {
    if n > 0 {
      RunStopsAt(g, t[1..], n - 1);
    }
  }

  // ---------------------------------------------------------------------------
  // The hint level
  // ---------------------------------------------------------------------------

  /** The hint level of a turn: the first "continuing to hint flow (level N)"
      in the log, else the first rendered-hint label in the final output,
      else 1. */
  function ExtractHintLevel(debug: string, final: string): (level: nat)
    ensures Search(Router.HintFlowMarker, DigitsThenClose, debug).Some? ==>
      level == DigitsValue(Search(Router.HintFlowMarker, DigitsThenClose, debug).value)
    ensures (Search(Router.HintFlowMarker, DigitsThenClose, debug).None?
             && Search(FormatOutput.HintLabel, DigitsThenClose, final).None?) ==> level == 1
  {
    match Search(Router.HintFlowMarker, DigitsThenClose, debug)
    case Some(ds) => DigitsValue(ds)
    case None =>
      match Search(FormatOutput.HintLabel, DigitsThenClose, final)
      case Some(ds) => DigitsValue(ds)
      case None => 1
  }

  /** After a text without the head's first character, the search finds
      the head followed by a rendered number and `)`, and reads the number. */
  lemma NumberAfterHead(head: string, x: string, n: nat, rest: string)
    requires |head| > 0 && head[0] !in x
    ensures Search(head, DigitsThenClose, x + (head + NatToString(n) + ")" + rest)) == Some(NatToString(n))
  {
    var t := head + NatToString(n) + ")" + rest;
    NoHeadNoMatch(head, DigitsThenClose, x, t);
    SearchSkips(head, DigitsThenClose, x, t);
    HeadThenNumber(head, n, rest);
  }

  /** The head followed by a rendered number and `)` matches at once. */
  lemma HeadThenNumber(head: string, n: nat, rest: string)
    ensures Search(head, DigitsThenClose, head + NatToString(n) + ")" + rest) == Some(NatToString(n))
  {
    var ds := NatToString(n);
    var t := head + ds + ")" + rest;
    var after := ds + ")" + rest;
    assert t == head + after;
    assert t[..|head|] == head;
    assert t[|head|..] == after;
    NumberThenClose(n, rest);
    assert GroupAt(DigitsThenClose, after) == Some(ds);
    assert MatchAt(head, DigitsThenClose, t) == Some(ds);
  }

  /** With no level in the log, the level of a rendered hint is read back
      from the final output. */
  lemma RenderedLevelRoundTrip(n: nat, hint: string)
    ensures ExtractHintLevel("", FormatOutput.RenderHint(n, hint)) == n
  {
    var hintLabel := FormatOutput.HintLabel;
    assert IntToString(n) == NatToString(n);
    assert FormatOutput.RenderHint(n, hint) == "" + (hintLabel + NatToString(n) + ")" + (": " + hint)) by {
      assert FormatOutput.LabelClose == ")" + ": ";
    }
    NumberAfterHead(hintLabel, "", n, ": " + hint);
    DigitsValueOfNatToString(n);
  }

  /** The router's hint-flow line is read back as the level it announced. */
  lemma HintFlowLineRoundTrip(tag: string, n: nat, rest: string, final: string)
    requires 'c' !in tag
    ensures ExtractHintLevel(Router.HintFlowLine(tag, n) + rest, final) == n
  {
    var marker := Router.HintFlowMarker;
    var x := Router.RouterOutputPrefix + tag + " -> ";
    RouterOutputPrefixLacks('c');
    assert marker[0] == 'c' && 'c' !in x;
    assert IntToString(n) == NatToString(n);
    assert Router.HintFlowLine(tag, n) + rest == x + (marker + NatToString(n) + ")" + rest);
    NumberAfterHead(marker, x, n, rest);
    DigitsValueOfNatToString(n);
  }

  // ---------------------------------------------------------------------------
  // Reading the router's decision back from the log
  // ---------------------------------------------------------------------------

  /** Printed lines as captured: each followed by a newline. */
  function LogText(lines: seq<string>): string
  {
    if |lines| == 0 then "" else lines[0] + "\n" + LogText(lines[1..])
  }

  /** A character that no printed line holds is absent from the log. */
  lemma {:induction false} LogLacks(lines: seq<string>, c: char)
    requires c != '\n' && forall i :: 0 <= i < |lines| ==> c !in lines[i]
    ensures c !in LogText(lines)
    decreases |lines|
  {
    if |lines| > 0 {
      LogLacks(lines[1..], c);
    }
  }

  lemma LogOfTwo(a: string, b: string)
    ensures LogText([a, b]) == a + "\n" + (b + "\n")
  {
    assert [a, b][1..] == [b];
    assert LogText([b][1..]) == "";
    assert LogText([b]) == b + "\n" + "" == b + "\n";
  }

  lemma LogOfThree(a: string, b: string, c: string)
    ensures LogText([a, b, c]) == a + "\n" + (b + "\n" + (c + "\n"))
  {
    assert [a, b, c][1..] == [b, c];
    LogOfTwo(b, c);
  }

  /** The kind of escalation the log shows, tested in a fixed order. */
  function EscalationType(debug: string): (kind: string)
    ensures Contains(debug, "keyword similarity") ==> kind == "keyword escalation"
    ensures !Contains(debug, "keyword similarity") && Contains(debug, "exact match fallback") ==>
      kind == "exact escalation"
    ensures (!Contains(debug, "keyword similarity") && !Contains(debug, "exact match fallback") &&
             Contains(debug, "Vague escalation detected")) ==> kind == "vague escalation"
    ensures kind == "" <==>
      !Contains(debug, "keyword similarity") && !Contains(debug, "exact match fallback")
      && !Contains(debug, "Vague escalation detected")
  {
    if Contains(debug, "keyword similarity") then "keyword escalation"
    else if Contains(debug, "exact match fallback") then "exact escalation"
    else if Contains(debug, "Vague escalation detected") then "vague escalation"
    else ""
  }

  /** The escalation kind the regression runner should report for an exit. */
  function ExpectedEscalation(e: Router.RouterExit): string
  {
    match e
    case KeywordEscalation => "keyword escalation"
    case ExactEscalation => "exact escalation"
    case VagueEscalation => "vague escalation"
    case Smalltalk => ""
    case NewQuestion => ""
  }

  /** A rendered non-negative number holds only digits. */
  lemma NumberLacks(n: nat, c: char)
    requires !IsDigit(c)
    ensures c !in IntToString(n)
  {
    assert forall i :: 0 <= i < |IntToString(n)| ==> IsDigit(IntToString(n)[i]);
  }

  /** Skipping a line before the hint-flow line: the level search goes
      past it when the line cannot hold the marker. */
  lemma SkipLine(line: string, c: char, rest: string)
    requires c in Router.HintFlowMarker && c !in line
    ensures Search(Router.HintFlowMarker, DigitsThenClose, line + "\n" + rest)
         == Search(Router.HintFlowMarker, DigitsThenClose, rest)
  {
    assert '\n' !in Router.HintFlowMarker;
    LacksChar(line, c, Router.HintFlowMarker);
    NoHeadInLine(Router.HintFlowMarker, DigitsThenClose, line, rest);
    assert line + "\n" + rest == (line + "\n") + rest;
    SearchSkips(Router.HintFlowMarker, DigitsThenClose, line + "\n", rest);
  }

  /** A log of one line without the marker and then the hint-flow line
      reads back the announced level. */
  lemma {:induction false} LevelAfterOneLine(line: string, c: char, tag: string, n: nat, final: string)
    requires c in Router.HintFlowMarker && c !in line && 'c' !in tag
    ensures ExtractHintLevel(LogText([line, Router.HintFlowLine(tag, n)]), final) == n
  {
    var flow := Router.HintFlowLine(tag, n);
    LogOfTwo(line, flow);
    SkipLine(line, c, flow + "\n");
    HintFlowLineRoundTrip(tag, n, "\n", final);
  }

  /** The same with two lines before the hint-flow line. */
  lemma {:induction false} LevelAfterTwoLines(line1: string, c1: char, line2: string, c2: char, tag: string, n: nat, final: string)
    requires c1 in Router.HintFlowMarker && c1 !in line1
    requires c2 in Router.HintFlowMarker && c2 !in line2 && 'c' !in tag
    ensures ExtractHintLevel(LogText([line1, line2, Router.HintFlowLine(tag, n)]), final) == n
  {
    var flow := Router.HintFlowLine(tag, n);
    LogOfThree(line1, line2, flow);
    SkipLine(line1, c1, line2 + "\n" + (flow + "\n"));
    SkipLine(line2, c2, flow + "\n");
    HintFlowLineRoundTrip(tag, n, "\n", final);
  }

  lemma KeywordLogLevel(n: nat, final: string)
    ensures ExtractHintLevel(LogText(Router.DecisionLines(Router.KeywordEscalation, n)), final) == n
  {
    EscalatingPrefixLacks('u');
    NotesLack();
    NumberLacks(n, 'u');
    LevelAfterOneLine(Router.EscalatingPrefix + IntToString(n) + Router.KeywordNote, 'u', "GAME_RELATED", n, final);
  }

  lemma ExactLogLevel(n: nat, final: string)
    ensures ExtractHintLevel(LogText(Router.DecisionLines(Router.ExactEscalation, n)), final) == n
  {
    EscalatingPrefixLacks('u');
    NotesLack();
    NumberLacks(n, 'u');
    LevelAfterOneLine(Router.EscalatingPrefix + IntToString(n) + Router.ExactNote, 'u', "GAME_RELATED", n, final);
  }

  lemma NewQuestionLogLevel(n: nat, final: string)
    ensures ExtractHintLevel(LogText(Router.DecisionLines(Router.NewQuestion, n)), final) == n
  {
    NewQueryLineLacks('(');
    LevelAfterOneLine(Router.NewQueryLine, '(', "GAME_RELATED", n, final);
  }

  lemma VagueLogLevel(n: nat, final: string)
    ensures ExtractHintLevel(LogText(Router.DecisionLines(Router.VagueEscalation, n)), final) == n
  {
    VagueDetectedLineLacks('(');
    PreviousQuestionNoteLacks('(');
    EscalatingPrefixLacks('(');
    NumberLacks(n, '(');
    LevelAfterTwoLines(Router.VagueDetectedLine, '(', Router.EscalatingPrefix + IntToString(n) + Router.PreviousQuestionNote, '(',
                       "VAGUE_ESCALATION", n, final);
  }

  // Characters missing from the router's fixed texts, which rule out
  // the phrases the regression runner looks for.

  lemma RouterOutputPrefixLacks(c: char)
    requires c == 'k' || c == 'x' || c == 'V' || c == 'w' || c == 'y' || c == 'c'
    ensures c !in Router.RouterOutputPrefix
  {
  }

  lemma HintFlowMarkerLacks(c: char)
    requires c == 'k' || c == 'x' || c == 'V' || c == 'y'
    ensures c !in Router.HintFlowMarker
  {
  }

  lemma EscalatingPrefixLacks(c: char)
    requires c == 'k' || c == 'x' || c == 'u' || c == 'y' || c == '('
    ensures c !in Router.EscalatingPrefix
  {
  }

  lemma VagueDetectedLineLacks(c: char)
    requires c == 'k' || c == 'x' || c == '('
    ensures c !in Router.VagueDetectedLine
  {
    var a := "\U{1F504} " + "Vague escalation detected";
    var b := " with chat history" + " - treating as GAME_RELATED";
    VagueHeadLacks(c);
    VagueTailLacks(c);
    NotInAppend(c, a, b);
    assert Router.VagueDetectedLine == a + b;
  }

  lemma VagueHeadLacks(c: char)
    requires c == 'k' || c == 'x' || c == '('
    ensures c !in "\U{1F504} " + "Vague escalation detected"
  {
  }

  lemma VagueTailLacks(c: char)
    requires c == 'k' || c == 'x' || c == '('
    ensures c !in " with chat history" + " - treating as GAME_RELATED"
  {
  }

  lemma PreviousQuestionNoteLacks(c: char)
    requires c == 'k' || c == 'x' || c == '('
    ensures c !in Router.PreviousQuestionNote
  {
  }

  lemma NewQueryLineLacks(c: char)
    requires c == 'k' || c == 'x' || c == 'V' || c == '('
    ensures c !in Router.NewQueryLine
  {
  }

  lemma SmalltalkDetectedLineLacks(c: char)
    requires c == 'w' || c == 'x' || c == 'V'
    ensures c !in Router.SmalltalkDetectedLine
  {
  }

  lemma SmalltalkPreviewLacks(c: char)
    requires c == 'w' || c == 'x' || c == 'V'
    ensures c !in Router.SmalltalkPreview
  {
  }

  lemma NotInAppend(c: char, a: string, b: string)
    requires c !in a && c !in b
    ensures c !in a + b
  {
  }

  lemma NotesLack()
    ensures 'u' !in Router.KeywordNote && 'u' !in Router.ExactNote && 'y' !in Router.ExactNote
  {
  }

  /** A phrase on one printed line is in the log. */
  lemma {:induction false} LogContains(lines: seq<string>, i: int, t: string)
    requires 0 <= i < |lines| && Contains(lines[i], t)
    ensures Contains(LogText(lines), t)
    decreases i
  {
    assert LogText(lines) == lines[0] + ("\n" + LogText(lines[1..]));
    if i == 0 {
      ContainsInLeft(lines[0], "\n" + LogText(lines[1..]), t);
    } else {
      LogContains(lines[1..], i - 1, t);
      ContainsInRight("\n", LogText(lines[1..]), t);
      ContainsInRight(lines[0], "\n" + LogText(lines[1..]), t);
    }
  }

  /** A phrase with a character that no printed line holds is not in the log. */
  lemma LogOmits(lines: seq<string>, c: char, t: string)
    requires c != '\n' && c in t && forall i :: 0 <= i < |lines| ==> c !in lines[i]
    ensures !Contains(LogText(lines), t)
  {
    LogLacks(lines, c);
    LacksChar(LogText(lines), c, t);
  }

  lemma KeywordLogKind(n: nat)
    ensures EscalationType(LogText(Router.DecisionLines(Router.KeywordEscalation, n))) == "keyword escalation"
  {
    var lines := Router.DecisionLines(Router.KeywordEscalation, n);
    ContainsInNote(Router.EscalatingPrefix + IntToString(n), " (", Router.KeywordPhrase, ")");
    assert Router.KeywordPhrase == "keyword similarity";
    LogContains(lines, 0, "keyword similarity");
  }

  /** A bracketed phrase after a text is in it. */
  lemma ContainsInNote(x: string, open: string, t: string, close: string)
    ensures Contains(x + (open + t + close), t)
  {
    assert x + (open + t + close) == (x + open) + t + close;
    ContainsQuoted(x + open, t, close);
  }

  /** The hint-flow line of a non-negative level lacks `c`. */
  lemma FlowLineLacks(tag: string, n: nat, c: char)
    requires c !in Router.RouterOutputPrefix && c !in tag && c !in " -> " && c !in Router.HintFlowMarker
    requires !IsDigit(c) && c != ')'
    ensures c !in Router.HintFlowLine(tag, n)
  {
    NumberLacks(n, c);
  }

  lemma ExactLinesLackY(n: nat)
    ensures forall i :: 0 <= i < 2 ==> 'y' !in Router.DecisionLines(Router.ExactEscalation, n)[i]
  {
    EscalatingPrefixLacks('y');
    NotesLack();
    NumberLacks(n, 'y');
    RouterOutputPrefixLacks('y');
    HintFlowMarkerLacks('y');
    FlowLineLacks("GAME_RELATED", n, 'y');
  }

  lemma ExactLineHasNote(n: nat)
    ensures Contains(Router.DecisionLines(Router.ExactEscalation, n)[0], "exact match fallback")
  {
    ContainsInNote(Router.EscalatingPrefix + IntToString(n), " (", Router.ExactPhrase, ")");
    assert Router.ExactPhrase == "exact match fallback";
  }

  lemma ExactLogKind(n: nat)
    ensures EscalationType(LogText(Router.DecisionLines(Router.ExactEscalation, n))) == "exact escalation"
  {
    var lines := Router.DecisionLines(Router.ExactEscalation, n);
    ExactLinesLackY(n);
    assert 'y' in "keyword similarity";
    LogOmits(lines, 'y', "keyword similarity");
    ExactLineHasNote(n);
    LogContains(lines, 0, "exact match fallback");
  }

  lemma VagueLinesLack(n: nat)
    ensures forall i :: 0 <= i < 3 ==> 'k' !in Router.DecisionLines(Router.VagueEscalation, n)[i]
    ensures forall i :: 0 <= i < 3 ==> 'x' !in Router.DecisionLines(Router.VagueEscalation, n)[i]
  {
    VagueDetectedLineLacks('k');
    VagueDetectedLineLacks('x');
    PreviousQuestionNoteLacks('k');
    PreviousQuestionNoteLacks('x');
    EscalatingPrefixLacks('k');
    EscalatingPrefixLacks('x');
    NumberLacks(n, 'k');
    NumberLacks(n, 'x');
    RouterOutputPrefixLacks('k');
    RouterOutputPrefixLacks('x');
    HintFlowMarkerLacks('k');
    HintFlowMarkerLacks('x');
    FlowLineLacks("VAGUE_ESCALATION", n, 'k');
    FlowLineLacks("VAGUE_ESCALATION", n, 'x');
  }

  lemma VagueLogKind(n: nat)
    ensures EscalationType(LogText(Router.DecisionLines(Router.VagueEscalation, n))) == "vague escalation"
  {
    var lines := Router.DecisionLines(Router.VagueEscalation, n);
    VagueLinesLack(n);
    assert 'k' in "keyword similarity" && 'x' in "exact match fallback";
    LogOmits(lines, 'k', "keyword similarity");
    LogOmits(lines, 'x', "exact match fallback");
    VagueLineHasPhrase(n);
    LogContains(lines, 0, "Vague escalation detected");
  }

  lemma VagueLineHasPhrase(n: nat)
    ensures Contains(Router.DecisionLines(Router.VagueEscalation, n)[0], "Vague escalation detected")
  {
    ContainsQuoted("\U{1F504} ", "Vague escalation detected", " with chat history" + " - treating as GAME_RELATED");
    assert Router.DecisionLines(Router.VagueEscalation, n)[0]
        == "\U{1F504} " + "Vague escalation detected" + (" with chat history" + " - treating as GAME_RELATED");
  }

  lemma NewQuestionLinesLack(n: nat)
    ensures forall i :: 0 <= i < 2 ==> 'k' !in Router.DecisionLines(Router.NewQuestion, n)[i]
    ensures forall i :: 0 <= i < 2 ==> 'x' !in Router.DecisionLines(Router.NewQuestion, n)[i]
    ensures forall i :: 0 <= i < 2 ==> 'V' !in Router.DecisionLines(Router.NewQuestion, n)[i]
  {
    NewQueryLineLacks('k');
    NewQueryLineLacks('x');
    NewQueryLineLacks('V');
    RouterOutputPrefixLacks('k');
    RouterOutputPrefixLacks('x');
    RouterOutputPrefixLacks('V');
    HintFlowMarkerLacks('k');
    HintFlowMarkerLacks('x');
    HintFlowMarkerLacks('V');
    FlowLineLacks("GAME_RELATED", n, 'k');
    FlowLineLacks("GAME_RELATED", n, 'x');
    FlowLineLacks("GAME_RELATED", n, 'V');
  }

  lemma NewQuestionLogKind(n: nat)
    ensures EscalationType(LogText(Router.DecisionLines(Router.NewQuestion, n))) == ""
  {
    var lines := Router.DecisionLines(Router.NewQuestion, n);
    NewQuestionLinesLack(n);
    assert 'k' in "keyword similarity" && 'x' in "exact match fallback" && 'V' in "Vague escalation detected";
    LogOmits(lines, 'k', "keyword similarity");
    LogOmits(lines, 'x', "exact match fallback");
    LogOmits(lines, 'V', "Vague escalation detected");
  }

  lemma SmalltalkLinesLack(n: nat)
    ensures forall i :: 0 <= i < 2 ==> 'w' !in Router.DecisionLines(Router.Smalltalk, n)[i]
    ensures forall i :: 0 <= i < 2 ==> 'x' !in Router.DecisionLines(Router.Smalltalk, n)[i]
    ensures forall i :: 0 <= i < 2 ==> 'V' !in Router.DecisionLines(Router.Smalltalk, n)[i]
  {
    Router.SmalltalkPreviewIsPrinted();
    SmalltalkDetectedLineLacks('w');
    SmalltalkDetectedLineLacks('x');
    SmalltalkDetectedLineLacks('V');
    SmalltalkPreviewLacks('w');
    SmalltalkPreviewLacks('x');
    SmalltalkPreviewLacks('V');
    RouterOutputPrefixLacks('w');
    RouterOutputPrefixLacks('x');
    RouterOutputPrefixLacks('V');
  }

  lemma SmalltalkLogKind(n: nat)
    ensures EscalationType(LogText(Router.DecisionLines(Router.Smalltalk, n))) == ""
  {
    var lines := Router.DecisionLines(Router.Smalltalk, n);
    SmalltalkLinesLack(n);
    assert 'w' in "keyword similarity" && 'x' in "exact match fallback" && 'V' in "Vague escalation detected";
    LogOmits(lines, 'w', "keyword similarity");
    LogOmits(lines, 'x', "exact match fallback");
    LogOmits(lines, 'V', "Vague escalation detected");
  }

  /** What the router prints about its decision is read back by the
      regression runner as the level it stored and the kind of exit it
      took. */
  lemma DecisionLogRoundTrip(e: Router.RouterExit, n: nat, final: string)
    ensures EscalationType(LogText(Router.DecisionLines(e, n))) == ExpectedEscalation(e)
    ensures e != Router.Smalltalk ==> ExtractHintLevel(LogText(Router.DecisionLines(e, n)), final) == n
  {
    match e
    case KeywordEscalation => KeywordLogKind(n); KeywordLogLevel(n, final);
    case ExactEscalation => ExactLogKind(n); ExactLogLevel(n, final);
    case VagueEscalation => VagueLogKind(n); VagueLogLevel(n, final);
    case NewQuestion => NewQuestionLogKind(n); NewQuestionLogLevel(n, final);
    case Smalltalk => SmalltalkLogKind(n);
  }

  // ---------------------------------------------------------------------------
  // The search query
  // ---------------------------------------------------------------------------

  /** The query the log shows the hint finder receiving: the quoted text of
      the first "FIND_HINT INPUT" line, up to its first apostrophe and cut
      to fifty characters, or "N/A" when there is none. */
  function ExtractSearchQuery(debug: string): (q: string)
    ensures Search(HintFinder.FindHintInputHead, NonQuoteThenQuote, debug).None? ==> q == "N/A"
    ensures Search(HintFinder.FindHintInputHead, NonQuoteThenQuote, debug).Some? ==>
      '\'' !in Take(q, 50) && IsPrefix(Take(q, 50), Search(HintFinder.FindHintInputHead, NonQuoteThenQuote, debug).value)
  {
    match Search(HintFinder.FindHintInputHead, NonQuoteThenQuote, debug)
    case Some(query) => Ellipsize(query, 50)
    case None => "N/A"
  }

  lemma FindHintInputHeadLacksNewline()
    ensures |HintFinder.FindHintInputHead| > 0 && '\n' !in HintFinder.FindHintInputHead
    ensures HintFinder.FindHintInputHead[0] == '\U{1F50D}'
  {
  }

  lemma FindHintInputTailLacksHead()
    ensures '\U{1F50D}' !in HintFinder.FindHintInputHead[1..] && '\U{1F50D}' !in "' (level " && '\U{1F50D}' !in ")"
  {
  }

  /** Lines that do not hold the head are skipped by the search. */
  lemma {:induction false} SkipLog(head: string, g: Group, lines: seq<string>, t: string)
    requires |head| > 0 && '\n' !in head
    requires forall i :: 0 <= i < |lines| ==> !Contains(lines[i], head)
    ensures Search(head, g, LogText(lines) + t) == Search(head, g, t)
    decreases |lines|
  {
    if |lines| > 0 {
      var rest := LogText(lines[1..]) + t;
      assert LogText(lines) + t == lines[0] + "\n" + rest;
      NoHeadInLine(head, g, lines[0], rest);
      assert lines[0] + "\n" + rest == (lines[0] + "\n") + rest;
      SearchSkips(head, g, lines[0] + "\n", rest);
      SkipLog(head, g, lines[1..], t);
    } else {
      assert LogText(lines) + t == t;
    }
  }

  /** The hint finder's input line matches at its start, and the group is
      the input up to its first apostrophe. */
  lemma QueryLineMatches(query: string, after: string, level: int, rest: string)
    requires |query| > 0 && '\'' !in query && (after == "" || after[0] == '\'')
    ensures Search(HintFinder.FindHintInputHead, NonQuoteThenQuote, HintFinder.FindHintInputLine(query + after, level) + rest)
         == Some(query)
  {
    var head := HintFinder.FindHintInputHead;
    var close := "' (level ";
    var more := close + IntToString(level) + ")" + rest;
    assert more[0] == '\'';
    Regroup(head, query, after, close, IntToString(level), ")", rest);
    assert HintFinder.FindHintInputLine(query + after, level) + rest == head + (query + (after + more));
    assert (after + more)[0] == '\'' by {
      if after == "" {
        assert after + more == more;
      }
    }
    HeadThenQuery(head, query, after + more);
  }

  lemma Regroup(h: string, q: string, a: string, c1: string, n: string, c2: string, r: string)
    ensures h + (q + a) + c1 + n + c2 + r == h + (q + (a + (c1 + n + c2 + r)))
  {
  }

  /** The head followed by a text without apostrophes and then an
      apostrophe matches at once, the group being that text. */
  lemma HeadThenQuery(head: string, query: string, tail: string)
    requires |query| > 0 && '\'' !in query && |tail| > 0 && tail[0] == '\''
    ensures Search(head, NonQuoteThenQuote, head + (query + tail)) == Some(query)
  {
    var u := query + tail;
    var t := head + u;
    assert u[|query|] == '\'';
    assert forall i :: 0 <= i < |query| ==> u[i] == query[i];
    RunStopsAt(NonQuoteThenQuote, u, |query|);
    assert u[..|query|] == query;
    assert t[..|head|] == head && t[|head|..] == u;
    assert GroupAt(NonQuoteThenQuote, u) == Some(query);
    assert MatchAt(head, NonQuoteThenQuote, t) == Some(query);
  }

  /** After lines that do not mention the hint finder, its input line is
      read back as the input up to its first apostrophe, shortened. */
  lemma SearchQueryRoundTrip(lines: seq<string>, query: string, after: string, level: int, rest: string)
    requires forall i :: 0 <= i < |lines| ==> !Contains(lines[i], HintFinder.FindHintInputHead)
    requires |query| > 0 && '\'' !in query && (after == "" || after[0] == '\'')
    ensures ExtractSearchQuery(LogText(lines) + HintFinder.FindHintInputLine(query + after, level) + rest)
         == Ellipsize(query, 50)
  {
    var head := HintFinder.FindHintInputHead;
    var line := HintFinder.FindHintInputLine(query + after, level);
    FindHintInputHeadLacksNewline();
    ConcatAssoc(LogText(lines), line, rest);
    SkipLog(head, NonQuoteThenQuote, lines, line + rest);
    QueryLineMatches(query, after, level, rest);
  }

  lemma ConcatAssoc(a: string, b: string, c: string)
    ensures a + b + c == a + (b + c)
  {
  }

  /** An empty input gives an empty quotation, which the pattern rejects:
      the log of that line alone shows no query. */
  lemma EmptyInputHasNoQuery(level: nat)
    ensures ExtractSearchQuery(HintFinder.FindHintInputLine("", level)) == "N/A"
  {
    var head := HintFinder.FindHintInputHead;
    var q := "' (level " + IntToString(level) + ")";
    var t := HintFinder.FindHintInputLine("", level);
    var x := head[1..] + q;
    FindHintInputHeadLacksNewline();
    FindHintInputTailLacksHead();
    NumberLacks(level, '\U{1F50D}');
    assert t == head + q;
    EmptyQuoteNoMatch(head, q);
    assert t[1..] == x + "";
    NoHeadNoMatch(head, NonQuoteThenQuote, x, "");
    SearchSkips(head, NonQuoteThenQuote, x, "");
    assert Search(head, NonQuoteThenQuote, "").None?;
    assert Search(head, NonQuoteThenQuote, t).None?;
  }

  /** The head followed at once by an apostrophe does not match: the group
      needs at least one character. */
  lemma EmptyQuoteNoMatch(head: string, q: string)
    requires |q| > 0 && q[0] == '\''
    ensures MatchAt(head, NonQuoteThenQuote, head + q).None?
  {
    assert (head + q)[..|head|] == head && (head + q)[|head|..] == q;
    assert RunLength(NonQuoteThenQuote, q) == 0;
  }

  // ---------------------------------------------------------------------------
  // Labelling a turn from its final output
  // ---------------------------------------------------------------------------

  /** The canned replies to off-topic questions. */
  predicate LooksOffTopic(final: string)
  {
    Contains(final, "Listen sweetie") || Contains(final, "Sorry hon") || Contains(final, "I appreciate the chat")
  }

  /** The router label the regression runner reports for a turn. */
  function RouterLabel(final: string, escalation: string, level: nat): (shown: string)
    ensures shown == "OFF_TOPIC" <==> LooksOffTopic(final)
    ensures !LooksOffTopic(final) ==> IsPrefix("GAME_RELATED (", shown) && IsSuffix("L" + NatToString(level) + ")", shown)
    ensures !LooksOffTopic(final) && escalation != "" ==> IsPrefix("GAME_RELATED (" + escalation + ", ", shown)
  {
    if LooksOffTopic(final) then "OFF_TOPIC"
    else
      var tail := "L" + NatToString(level) + ")";
      var head := if escalation != "" then "GAME_RELATED (" + escalation + ", " else "GAME_RELATED (";
      assert (head + tail)[0] == 'G';
      assert (head + tail)[..|head|] == head;
      assert (head + tail)[|head + tail| - |tail|..] == tail;
      head + tail
  }

  /** The label of a game-related turn names the router's exit and the
      level it stored, as printed in its log. */
  lemma RouterLabelOfDecision(e: Router.RouterExit, n: nat, final: string)
    requires e != Router.Smalltalk && !LooksOffTopic(final)
    ensures RouterLabel(final, EscalationType(LogText(Router.DecisionLines(e, n))),
                        ExtractHintLevel(LogText(Router.DecisionLines(e, n)), final))
         == if e == Router.NewQuestion then "GAME_RELATED (" + ("L" + NatToString(n) + ")")
            else "GAME_RELATED (" + ExpectedEscalation(e) + ", " + ("L" + NatToString(n) + ")")
  {
    DecisionLogRoundTrip(e, n, final);
    assert e != Router.NewQuestion ==> ExpectedEscalation(e) != "";
  }

  /** The head of a rendered hint, which the runner looks for. */
  const HintMarker: string := "\U{1F3AF} Hint"

  /** The final output asks the player for more detail. */
  predicate AsksForDetail(final: string)
  {
    Contains(Lower(final), "more detail") || Contains(Lower(final), "more specific")
    || Contains(final, "Get a bit more specific")
  }

  /** How the runner labels the verifier's outcome from the final output. */
  datatype VerifyLabel = InsufficientContext | Verified | TooSpecific | Hallucinated | UnknownVerdict | NotApplicable

  /** The verifier label: not applicable off topic, then the tests in the
      runner's order, a request for detail first. */
  function VerifyLabelOf(final: string): (v: VerifyLabel)
    ensures v == NotApplicable <==> LooksOffTopic(final)
    ensures v == InsufficientContext <==> !LooksOffTopic(final) && AsksForDetail(final)
    ensures v == Verified <==> !LooksOffTopic(final) && !AsksForDetail(final) && Contains(final, HintMarker)
    ensures v == TooSpecific <==>
      !LooksOffTopic(final) && !AsksForDetail(final) && !Contains(final, HintMarker)
      && Contains(Lower(final), "too specific")
    ensures v == Hallucinated <==>
      !LooksOffTopic(final) && !AsksForDetail(final) && !Contains(final, HintMarker)
      && !Contains(Lower(final), "too specific")
      && (Contains(Lower(final), "hallucination") || Contains(Lower(final), "not enough information"))
    ensures v == UnknownVerdict <==>
      !LooksOffTopic(final) && !AsksForDetail(final) && !Contains(final, HintMarker)
      && !Contains(Lower(final), "too specific")
      && !Contains(Lower(final), "hallucination") && !Contains(Lower(final), "not enough information")
  {
    var lowered := Lower(final);
    if LooksOffTopic(final) then NotApplicable
    else if AsksForDetail(final) then InsufficientContext
    else if Contains(final, HintMarker) then Verified
    else if Contains(lowered, "too specific") then TooSpecific
    else if Contains(lowered, "hallucination") || Contains(lowered, "not enough information") then Hallucinated
    else UnknownVerdict
  }

  /** The rendered-hint prefix holds none of the letters the lemmas below
      rely on. */
  lemma RenderedPrefixLacks(n: nat, c: char)
    requires c == 'm' || c == 'M' || c == 'G' || c == '\n'
    ensures c !in FormatOutput.HintLabel + IntToString(n) + FormatOutput.LabelClose
  {
    NumberLacks(n, c);
  }

  lemma HintMarkerStartsLabel()
    ensures FormatOutput.HintLabel == HintMarker + " (Level "
  {
  }

  /** A rendered hint holds the marker at its start. */
  lemma RenderedHintHasMarker(n: int, hint: string)
    ensures OccursAt(FormatOutput.RenderHint(n, hint), HintMarker, 0)
  {
    HintMarkerStartsLabel();
    assert FormatOutput.RenderHint(n, hint)[..|HintMarker|] == HintMarker;
  }

  /** A rendered hint that asks for more detail is labelled as such, even
      though it carries the hint marker. */
  lemma DetailRequestBeatsHint(n: int, hint: string)
    requires Contains(Lower(hint), "more specific") && !LooksOffTopic(FormatOutput.RenderHint(n, hint))
    ensures Contains(FormatOutput.RenderHint(n, hint), HintMarker)
    ensures VerifyLabelOf(FormatOutput.RenderHint(n, hint)) == InsufficientContext
  {
    var p := FormatOutput.HintLabel + IntToString(n) + FormatOutput.LabelClose;
    assert FormatOutput.RenderHint(n, hint) == p + hint;
    RenderedHintHasMarker(n, hint);
    LowerAppend(p, hint);
    ContainsInRight(Lower(p), Lower(hint), "more specific");
  }

  /** Any other rendered hint is labelled verified. */
  lemma RenderedHintIsVerified(n: nat, hint: string)
    requires !Contains(Lower(hint), "more detail") && !Contains(Lower(hint), "more specific")
    requires !Contains(hint, "Get a bit more specific") && !LooksOffTopic(FormatOutput.RenderHint(n, hint))
    ensures VerifyLabelOf(FormatOutput.RenderHint(n, hint)) == Verified
  {
    var p := FormatOutput.HintLabel + IntToString(n) + FormatOutput.LabelClose;
    var out := FormatOutput.RenderHint(n, hint);
    assert out == p + hint;
    RenderedHintHasMarker(n, hint);
    RenderedPrefixLacks(n, 'm');
    RenderedPrefixLacks(n, 'M');
    RenderedPrefixLacks(n, 'G');
    AbsentFromLower(p, 'm');
    LowerAppend(p, hint);
    assert "more detail"[0] == 'm' && "more specific"[0] == 'm' && "Get a bit more specific"[0] == 'G';
    if Contains(Lower(out), "more detail") {
      ContainsPastPrefix(Lower(p), Lower(hint), "more detail");
    }
    if Contains(Lower(out), "more specific") {
      ContainsPastPrefix(Lower(p), Lower(hint), "more specific");
    }
    if Contains(out, "Get a bit more specific") {
      ContainsPastPrefix(p, hint, "Get a bit more specific");
    }
  }

  // ---------------------------------------------------------------------------
  // The hint excerpt
  // ---------------------------------------------------------------------------

  /** `s.find(w, from)`: the first position at or after `from` where `w`
      occurs. */
  function FindFrom(s: string, w: string, from: nat): (r: Option<nat>)
    ensures r.Some? ==> from <= r.value && OccursAt(s, w, r.value)
    ensures r.Some? ==> forall j :: from <= j < r.value ==> !OccursAt(s, w, j)
    ensures r.None? ==> forall j :: from <= j ==> !OccursAt(s, w, j)
    decreases |s| - from
  {
    if from + |w| > |s| then None
    else if OccursAt(s, w, from) then Some(from)
    else FindFrom(s, w, from + 1)
  }

  /** Where the excerpt starting at `start` ends: at the first blank line
      after `start`, or at the end of the output when there is none. A
      blank line right at `start` does not count and sends the end to the
      end of the output. */
  function ExcerptEnd(final: string, start: nat): (end: nat)
    requires start <= |final|
    ensures start <= end <= |final|
    ensures OccursAt(final, "\n\n", start) ==> end == |final|
    ensures !OccursAt(final, "\n\n", start) ==>
      (end == |final| || OccursAt(final, "\n\n", end)) &&
      forall i :: start <= i < end ==> !OccursAt(final, "\n\n", i)
  {
    match FindFrom(final, "\n\n", start)
    case Some(e) => if e > start then e else |final|
    case None => |final|
  }

  /** The excerpt the runner keeps: from the hint marker to the next blank
      line, cut to 150 characters; without a marker, the first hundred
      characters of the output. */
  function HintExcerpt(final: string): (excerpt: string)
    ensures |excerpt| <= 153
    ensures FindFrom(final, HintMarker, 0).Some? ==>
      var start := FindFrom(final, HintMarker, 0).value;
      start <= |final| && excerpt == Ellipsize(final[start..ExcerptEnd(final, start)], 150)
    ensures FindFrom(final, HintMarker, 0).None? ==> excerpt == Ellipsize(final, 100)
    ensures FindFrom(final, HintMarker, 0).Some? ==> IsPrefix(Take(excerpt, 150), final[FindFrom(final, HintMarker, 0).value..])
    ensures FindFrom(final, HintMarker, 0).None? ==> IsPrefix(Take(excerpt, 100), final)
  {
    match FindFrom(final, HintMarker, 0)
    case Some(start) => Ellipsize(final[start..ExcerptEnd(final, start)], 150)
    case None => Ellipsize(final, 100)
  }

  /** The excerpt of a one-line rendered hint, alone or followed by a
      blank line, is the rendered hint itself, shortened. */
  lemma RenderedHintExcerpt(n: nat, hint: string, tail: string)
    requires '\n' !in hint
    requires tail == "" || IsPrefix("\n\n", tail)
    ensures HintExcerpt(FormatOutput.RenderHint(n, hint) + tail) == Ellipsize(FormatOutput.RenderHint(n, hint), 150)
  {
    var r := FormatOutput.RenderHint(n, hint);
    var final := r + tail;
    RenderedHintHasMarker(n, hint);
    assert final[..|HintMarker|] == r[..|HintMarker|];
    assert OccursAt(final, HintMarker, 0);
    assert FindFrom(final, HintMarker, 0) == Some(0);
    RenderedPrefixLacks(n, '\n');
    assert '\n' !in r;
    forall j | 0 <= j < |r| ensures !OccursAt(final, "\n\n", j) {
      assert final[j] == r[j] != '\n';
      assert j + 2 <= |final| ==> final[j..j + 2][0] == final[j];
    }
    if tail != "" {
      assert final[|r|..|r| + 2] == tail[..2];
      assert OccursAt(final, "\n\n", |r|);
    }
    assert final[0..|r|] == r;
  }
}

=== FILE: report_analyzer.dfy ===
/** The test-report analyzer's decision tables: the category and the
    readable type of a test from its name, the verdict on a failed test,
    and the readable form of what a test expected. The report's JSON is
    given as already-parsed values; printing is left out. */
module ReportAnalyzer {
  import opened Results
  import opened Text

  /** A JSON value as the analyzer sees it in a test's details. */
  datatype Value = Flag(b: bool) | Str(s: string) | Number(n: int) | Null

  /** Python truthiness. */
  predicate Truthy(v: Value)
  {
    match v
    case Flag(b) => b
    case Str(s) => s != ""
    case Number(n) => n != 0
    case Null => false
  }

  /** Python's `str()` of a value. */
  function StrOf(v: Value): string
  {
    match v
    case Flag(b) => if b then "True" else "False"
    case Str(s) => s
    case Number(n) => IntToString(n)
    case Null => "None"
  }

  type Details = map<string, Value>

  /** `details.get(key, default)`. */
  function Get(details: Details, key: string, default: Value): Value
  {
    if key in details then details[key] else default
  }

  /** The index of the first pattern occurring in `name`, if any. */
  function FirstMatch(name: string, patterns: seq<string>): (m: Option<nat>)
    ensures m.Some? ==> m.value < |patterns| && Contains(name, patterns[m.value])
    ensures m.Some? ==> forall j :: 0 <= j < m.value ==> !Contains(name, patterns[j])
    ensures m.None? <==> forall j :: 0 <= j < |patterns| ==> !Contains(name, patterns[j])
  {
    if |patterns| == 0 then None
    else if Contains(name, patterns[0]) then Some(0)
    else
      match FirstMatch(name, patterns[1..])
      case None => None
      case Some(i) => Some(i + 1)
  }

  /** The label of the first pattern the name contains, or `fallback`. */
  function Classify(name: string, patterns: seq<string>, labels: seq<string>, fallback: string): (chosen: string)
    requires |labels| == |patterns|
    ensures FirstMatch(name, patterns).None? ==> chosen == fallback
    ensures forall i :: 0 <= i < |patterns| && Contains(name, patterns[i])
                        && (forall j :: 0 <= j < i ==> !Contains(name, patterns[j]))
                        ==> chosen == labels[i]
  {
    match FirstMatch(name, patterns)
    case None => fallback
    case Some(i) => labels[i]
  }

  /** The name patterns of the report's categories, in the order they are
      tried, and the category each gives. */
  const CategoryPatterns: seq<string> := [
    "core_", "off_topic_", "vague_question_", "specific_question_", "verification_edge_",
    "hallucination_detection_", "quality_", "performance_", "empty_input_", "long_input_",
    "special_chars_", "ambiguous_", "zelda_guardrails"]
  const CategoryNames: seq<string> := [
    "core functionality", "off-topic routing", "vague questions", "specific questions",
    "verification edge cases", "hallucination detection", "response quality", "performance",
    "edge case inputs", "long inputs", "special characters", "ambiguous questions",
    "character guardrails"]

  /** `_categorize_test`: the category of the first pattern the name
      contains, or "other". */
  function Categorize(name: string): (category: string)
    ensures FirstMatch(name, CategoryPatterns).None? ==> category == "other"
    ensures forall i :: 0 <= i < |CategoryPatterns| && Contains(name, CategoryPatterns[i])
                        && (forall j :: 0 <= j < i ==> !Contains(name, CategoryPatterns[j]))
                        ==> category == CategoryNames[i]
  {
    Classify(name, CategoryPatterns, CategoryNames, "other")
  }

  /** The name patterns of the readable test types, in their own order, and
      the type each gives. */
  const TypePatterns: seq<string> := [
    "verification_edge", "hallucination_detection", "zelda_guardrails", "core_", "off_topic_",
    "vague_question", "specific_question", "ambiguous", "quality", "performance"]
  const TypeNames: seq<string> := [
    "Verification Edge", "Hallucination Detection", "Character Guardrails", "Core Functionality",
    "Off-Topic Routing", "Vague Questions", "Specific Questions", "Ambiguous Input",
    "Response Quality", "Performance"]

  /** `_get_test_type`: the type of the first pattern the name contains, or
      "Other". */
  function TestType(name: string): (testType: string)
    ensures FirstMatch(name, TypePatterns).None? ==> testType == "Other"
    ensures forall i :: 0 <= i < |TypePatterns| && Contains(name, TypePatterns[i])
                        && (forall j :: 0 <= j < i ==> !Contains(name, TypePatterns[j]))
                        ==> testType == TypeNames[i]
  {
    Classify(name, TypePatterns, TypeNames, "Other")
  }

  /** The first match is the only index with those two properties. */
  lemma FirstMatchIsUnique(name: string, patterns: seq<string>, i: nat)
    requires i < |patterns| && Contains(name, patterns[i])
    requires forall j :: 0 <= j < i ==> !Contains(name, patterns[j])
    ensures FirstMatch(name, patterns) == Some(i)
  {
  }

  /** The two tables disagree on precedence: a name holding both "core_"
      and "verification_edge_" is categorised as core functionality but
      typed as a verification edge case. */
  lemma CategoryAndTypeDisagree(name: string)
    requires Contains(name, "core_") && Contains(name, "verification_edge_")
    ensures Categorize(name) == "core functionality"
    ensures TestType(name) == "Verification Edge"
  {
    assert CategoryPatterns[0] == "core_";
    assert OccursAt("verification_edge_", "verification_edge", 0);
    ContainsTransitive(name, "verification_edge_", "verification_edge");
    assert TypePatterns[0] == "verification_edge";
  }

  /** The verdict on a failed test. */
  datatype Conclusion = FalsePositive | RealIssue | Pass | NeedsReview

  function ConclusionText(c: Conclusion): string
  {
    match c
    case FalsePositive => "FALSE POSITIVE"
    case RealIssue => "REAL ISSUE"
    case Pass => "PASS"
    case NeedsReview => "NEEDS REVIEW"
  }

  /** The expected behaviour that marks a verification edge case the
      analyzer judges specially. */
  const InsufficientContext: string := "insufficient_context_message"

  /** A test as the analyzer reads it: its name and its details, absent
      details reading as empty. */
  datatype TestRecord = TestRecord(testName: string, details: Option<Details>)

  /** `_get_test_conclusion`, tried in order:
      - a guardrail test is a false positive exactly when `not_forbidden`
        is truthy or absent, else a real issue;
      - a verification edge case expecting an insufficient-context message
        is a false positive when neither `insufficient_indicated` nor
        `is_off_topic` is truthy, else a pass;
      - a hallucination test is a false positive exactly when
        `contains_suspicious_details` is present and falsy, else a real
        issue;
      - any other core test is a real issue, and everything else needs
        review. */
  function TestConclusion(test: TestRecord): (c: Conclusion)
    ensures var d := test.details.GetOr(map[]);
      var guardrail := Contains(test.testName, "zelda_guardrails");
      var edge := Contains(test.testName, "verification_edge")
                  && Get(d, "expected_behavior", Null) == Str(InsufficientContext);
      var hallucination := Contains(test.testName, "hallucination_detection");
      && (guardrail ==> (c == FalsePositive <==> Truthy(Get(d, "not_forbidden", Flag(true))))
                        && (c == RealIssue <==> !Truthy(Get(d, "not_forbidden", Flag(true)))))
      && (!guardrail && edge ==>
            (c == FalsePositive <==> (!Truthy(Get(d, "insufficient_indicated", Flag(false)))
                                      && !Truthy(Get(d, "is_off_topic", Flag(false)))))
            && (c == Pass <==> (Truthy(Get(d, "insufficient_indicated", Flag(false)))
                                || Truthy(Get(d, "is_off_topic", Flag(false))))))
      && (!guardrail && !edge && hallucination ==>
            (c == FalsePositive <==> ("contains_suspicious_details" in d && !Truthy(d["contains_suspicious_details"])))
            && (c == RealIssue <==> !("contains_suspicious_details" in d && !Truthy(d["contains_suspicious_details"]))))
      && (!guardrail && !edge && !hallucination ==>
            (c == RealIssue <==> Contains(test.testName, "core_"))
            && (c == NeedsReview <==> !Contains(test.testName, "core_")))
  {
    var d := test.details.GetOr(map[]);
    var name := test.testName;
    if Contains(name, "zelda_guardrails") then
      if Truthy(Get(d, "not_forbidden", Flag(true))) then FalsePositive else RealIssue
    else if Contains(name, "verification_edge") && Get(d, "expected_behavior", Null) == Str(InsufficientContext) then
      if !Truthy(Get(d, "insufficient_indicated", Flag(false))) && !Truthy(Get(d, "is_off_topic", Flag(false)))
      then FalsePositive
      else Pass
    else if Contains(name, "hallucination_detection") then
      if !Truthy(Get(d, "contains_suspicious_details", Flag(true))) then FalsePositive else RealIssue
    else if Contains(name, "core_") then RealIssue
    else NeedsReview
  }

  /** Only a verification edge case can pass, and it passes exactly when
      the system did say it lacked information or routed off topic. */
  lemma OnlyEdgeCasesPass(test: TestRecord)
    requires TestConclusion(test) == Pass
    ensures Contains(test.testName, "verification_edge")
    ensures !Contains(test.testName, "zelda_guardrails")
  {
  }

  /** A test whose name matches none of the four judged kinds always needs
      review, whatever its details say. */
  lemma UnjudgedNeedsReview(name: string, d1: Option<Details>, d2: Option<Details>)
    requires !Contains(name, "zelda_guardrails") && !Contains(name, "verification_edge")
    requires !Contains(name, "hallucination_detection") && !Contains(name, "core_")
    ensures TestConclusion(TestRecord(name, d1)) == TestConclusion(TestRecord(name, d2)) == NeedsReview
  {
  }

  /** The known expected behaviours and their readable forms. */
  const BehaviourDescriptions: map<string, string> := map[
    "clarification_or_off_topic" := "Ask clarification OR off-topic",
    "specific_helpful_response" := "Specific helpful answer",
    "character_information" := "Character info (Space Bar)",
    InsufficientContext := "Say insufficient info"]

  /** `_get_expected_description`: a known expected behaviour is described,
      an unknown one is shown as it is; without one, an expected keyword is
      quoted; otherwise every check must pass. */
  function ExpectedDescription(details: Details): (description: string)
    ensures "expected_behavior" in details && details["expected_behavior"].Str?
            && details["expected_behavior"].s in BehaviourDescriptions
            ==> description == BehaviourDescriptions[details["expected_behavior"].s]
    ensures "expected_behavior" in details
            && !(details["expected_behavior"].Str? && details["expected_behavior"].s in BehaviourDescriptions)
            ==> description == StrOf(details["expected_behavior"])
    ensures "expected_behavior" !in details && "expected_keyword" in details ==>
            description == "Contains '" + StrOf(details["expected_keyword"]) + "'"
    ensures "expected_behavior" !in details && "expected_keyword" !in details ==>
            description == "Pass all checks"
  {
    if "expected_behavior" in details then
      var behaviour := details["expected_behavior"];
      if behaviour.Str? && behaviour.s in BehaviourDescriptions then BehaviourDescriptions[behaviour.s]
      else StrOf(behaviour)
    else if "expected_keyword" in details then
      "Contains '" + StrOf(details["expected_keyword"]) + "'"
    else "Pass all checks"
  }

  /** An expected behaviour takes precedence: the expected keyword is then
      ignored. */
  lemma BehaviourBeatsKeyword(details: Details, keyword: Value)
    requires "expected_behavior" in details
    ensures ExpectedDescription(details["expected_keyword" := keyword]) == ExpectedDescription(details)
  {
  }

  /** The known behaviours are told apart: no two share a description. */
  lemma KnownDescriptionsAreDistinct(a: string, b: string)
    requires a in BehaviourDescriptions && b in BehaviourDescriptions && a != b
    ensures BehaviourDescriptions[a] != BehaviourDescriptions[b]
  {
  }
}

=== FILE: results.dfy ===
/** Optional values and success/failure results, used wherever the Python
    code returns `None`, falls back to a `.get` default or raises. */
module Results {

  /** A value that may be absent: a dictionary key that was never set, or a `None`. */
  datatype Option<+T> = None | Some(value: T) {

    /** The value, or `default` when absent (Python's `d.get(key, default)`). */
    function GetOr(default: T): T
    {
      match this
      case Some(v) => v
      case None => default
    }
  }

  /** The outcome of an operation that returns a value or raises an error. */
  datatype Result<+T, +E> = Ok(value: T) | Err(error: E)
}

=== FILE: router.dfy ===
/** The router node: decides whether a turn escalates the hint level for
    the previous question, answers small talk directly, or starts a new
    question. The vague-phrase test, the small-talk test, the keyword
    extractor and the intent classifier are parameters. */
module Router {
  import opened Results
  import opened Text
  import opened GraphState

  /** The router's collaborators: the two phrase tests, the keyword
      extractor and the intent classifier. */
  datatype RouterHelpers = RouterHelpers(
    isVagueEscalation: string -> bool,
    isSmalltalk: string -> bool,
    keywords: string -> set<string>,
    classifyIntent: string -> string)

  /** The five ways out of the router. */
  datatype RouterExit = VagueEscalation | Smalltalk | KeywordEscalation | ExactEscalation | NewQuestion

  /** The fixed answer to small talk about the assistant. */
  const SmalltalkResponse: string :=
    SmalltalkPreview + " *The Space Bar*! I help players navigate puzzles, "
    + "find objects, and understand game mechanics. Ask me about specific locations, characters, or what "
    + "to do when you're stuck!"

  /** The first fifty characters of the small-talk answer, which the
      router prints. */
  const SmalltalkPreview: string := "I'm Zelda, your " + "personal digital " + "assistant here in"

  /** How many shared keywords make a question a repeat. */
  const OverlapThreshold := 2

  /** `state.get("last_question_id", "")`. */
  function LastQuestionOrEmpty(s: LangGraphState): string
  {
    s.lastQuestionId.GetOr("")
  }

  /** `state.get("last_question_keywords", set())`. */
  function LastKeywordsOrEmpty(s: LangGraphState): set<string>
  {
    s.lastQuestionKeywords.GetOr({})
  }

  /** The number of keywords the input shares with the last question. */
  function KeywordOverlap(s: LangGraphState, h: RouterHelpers): nat
  {
    |h.keywords(s.userInput) * LastKeywordsOrEmpty(s)|
  }

  /** A vague follow-up such as "I'm still stuck" with a conversation behind it. */
  predicate IsVagueFollowUp(s: LangGraphState, h: RouterHelpers)
  {
    h.isVagueEscalation(s.userInput) && |HistoryOrEmpty(s)| > 0
  }

  /** The exit the router takes, tests in the order the node makes them. */
  function ExitOf(s: LangGraphState, h: RouterHelpers): (e: RouterExit)
    ensures e == VagueEscalation <==> IsVagueFollowUp(s, h)
    ensures e == Smalltalk <==> !IsVagueFollowUp(s, h) && h.isSmalltalk(s.userInput)
    ensures e == KeywordEscalation <==>
      !IsVagueFollowUp(s, h) && !h.isSmalltalk(s.userInput) && KeywordOverlap(s, h) >= OverlapThreshold
    ensures e == ExactEscalation <==>
      !IsVagueFollowUp(s, h) && !h.isSmalltalk(s.userInput) && KeywordOverlap(s, h) < OverlapThreshold
      && s.userInput == LastQuestionOrEmpty(s)
    ensures e == NewQuestion <==>
      !IsVagueFollowUp(s, h) && !h.isSmalltalk(s.userInput) && KeywordOverlap(s, h) < OverlapThreshold
      && s.userInput != LastQuestionOrEmpty(s)
  {
    if IsVagueFollowUp(s, h) then VagueEscalation
    else if h.isSmalltalk(s.userInput) then Smalltalk
    else if KeywordOverlap(s, h) >= OverlapThreshold then KeywordEscalation
    else if s.userInput == LastQuestionOrEmpty(s) then ExactEscalation
    else NewQuestion
  }

  /** The router node. */
  function Route(s: LangGraphState, h: RouterHelpers): (r: LangGraphState)
    ensures ExitOf(s, h) == VagueEscalation ==>
      r == s.(userInput := if LastQuestionOrEmpty(s) != "" then LastQuestionOrEmpty(s) else s.userInput,
              hintLevel := Some(HintLevelOr1(s) + 1))
    ensures ExitOf(s, h) == Smalltalk ==> r == s.(formattedOutput := Some(SmalltalkResponse))
    ensures ExitOf(s, h) in {KeywordEscalation, ExactEscalation} ==>
      r == s.(intentClassification := Some(h.classifyIntent(s.userInput)), hintLevel := Some(HintLevelOr1(s) + 1))
    ensures ExitOf(s, h) == NewQuestion ==>
      r == s.(intentClassification := Some(h.classifyIntent(s.userInput)),
              lastQuestionId := Some(s.userInput),
              lastQuestionKeywords := Some(h.keywords(s.userInput)),
              hintLevel := Some(1))
  {
    match ExitOf(s, h)
    case VagueEscalation =>
      var previous := LastQuestionOrEmpty(s);
      var input := if previous != "" then previous else s.userInput;
      s.(userInput := input, hintLevel := Some(HintLevelOr1(s) + 1))
    case Smalltalk =>
      s.(formattedOutput := Some(SmalltalkResponse))
    case KeywordEscalation =>
      s.(intentClassification := Some(h.classifyIntent(s.userInput)), hintLevel := Some(HintLevelOr1(s) + 1))
    case ExactEscalation =>
      s.(intentClassification := Some(h.classifyIntent(s.userInput)), hintLevel := Some(HintLevelOr1(s) + 1))
    case NewQuestion =>
      s.(intentClassification := Some(h.classifyIntent(s.userInput)),
         lastQuestionId := Some(s.userInput),
         lastQuestionKeywords := Some(h.keywords(s.userInput)),
         hintLevel := Some(1))
  }

  // ---------------------------------------------------------------------------
  // Properties of the router
  // ---------------------------------------------------------------------------

  /** The exits that continue to the hint flow all leave a level set, the
      escalations one more than before, a new question level 1. */
  lemma RouteSetsLevel(s: LangGraphState, h: RouterHelpers)
    requires ExitOf(s, h) != Smalltalk
    ensures Route(s, h).hintLevel.Some?
    ensures ExitOf(s, h) == NewQuestion ==>
      Route(s, h).hintLevel == Some(1) && Route(s, h).lastQuestionId == Some(s.userInput)
      && Route(s, h).lastQuestionKeywords == Some(h.keywords(s.userInput))
    ensures ExitOf(s, h) != NewQuestion ==> Route(s, h).hintLevel == Some(HintLevelOr1(s) + 1)
    ensures ExitOf(s, h) != NewQuestion ==>
      Route(s, h).lastQuestionId == s.lastQuestionId && Route(s, h).lastQuestionKeywords == s.lastQuestionKeywords
  {
  }

  /** The vague test comes first: an input that is both vague and small
      talk escalates when there is history, and neither case asks the
      classifier. */
  lemma VagueBeatsSmalltalk(s: LangGraphState, h: RouterHelpers)
    requires h.isVagueEscalation(s.userInput) && h.isSmalltalk(s.userInput) && |HistoryOrEmpty(s)| > 0
    ensures ExitOf(s, h) == VagueEscalation
    ensures Route(s, h).hintLevel == Some(HintLevelOr1(s) + 1)
    ensures Route(s, h).intentClassification == s.intentClassification
  {
  }

  /** The classifier's answer is only recorded: two classifiers lead to
      the same state apart from `intent_classification`. */
  lemma ClassificationIsAdvisory(s: LangGraphState, h: RouterHelpers, classify: string -> string)
    ensures Route(s, h.(classifyIntent := classify)).(intentClassification := None)
         == Route(s, h).(intentClassification := None)
  {
  }

  /** With no previous question the stored id reads as "", so an empty
      input counts as an exact repeat and escalates. */
  lemma EmptyInputEscalates(s: LangGraphState, h: RouterHelpers)
    requires s.userInput == "" && s.lastQuestionId.None?
    requires !IsVagueFollowUp(s, h) && !h.isSmalltalk("") && KeywordOverlap(s, h) < OverlapThreshold
    ensures ExitOf(s, h) == ExactEscalation
    ensures Route(s, h).hintLevel == Some(HintLevelOr1(s) + 1)
  {
  }

  /** The router applied `k` times to the same state's input. */
  function RouteRepeatedly(s: LangGraphState, h: RouterHelpers, k: nat): LangGraphState
  {
    if k == 0 then s else Route(RouteRepeatedly(s, h, k - 1), h)
  }

  /** Asking the same plain question `k` times, starting where it is new,
      climbs through levels 1, 2, ..., k. */
  lemma {:induction false} RepeatedQuestionClimbs(s: LangGraphState, h: RouterHelpers, k: nat)
    requires k >= 1
    requires !h.isVagueEscalation(s.userInput) && !h.isSmalltalk(s.userInput)
    requires KeywordOverlap(s, h) < OverlapThreshold && s.userInput != LastQuestionOrEmpty(s)
    ensures RouteRepeatedly(s, h, k).hintLevel == Some(k)
    ensures RouteRepeatedly(s, h, k).userInput == s.userInput
    ensures RouteRepeatedly(s, h, k).lastQuestionId == Some(s.userInput)
    ensures RouteRepeatedly(s, h, k).chatHistory == s.chatHistory
  {
    if k == 1 {
      assert ExitOf(s, h) == NewQuestion;
    } else {
      RepeatedQuestionClimbs(s, h, k - 1);
      var p := RouteRepeatedly(s, h, k - 1);
      assert !IsVagueFollowUp(p, h) && !h.isSmalltalk(p.userInput);
      assert p.userInput == LastQuestionOrEmpty(p);
      assert ExitOf(p, h) in {KeywordEscalation, ExactEscalation};
    }
  }

  // ---------------------------------------------------------------------------
  // What the router prints about its decision
  // ---------------------------------------------------------------------------

  const SmalltalkDetectedLine: string := "\U{1F4AC} Smalltalk " + "question detected, " + "using direct response"
  const VagueDetectedLine: string :=
    "\U{1F504} " + "Vague escalation detected" + " with chat history" + " - treating as GAME_RELATED"
  const EscalatingPrefix: string := "\U{1F504} Escalating hint level to "
  const PreviousQuestionNote: string := " for previous question"
  /** The phrases naming how a repeat was recognised, printed in brackets
      after the new level. */
  const KeywordPhrase: string := "keyword similarity"
  const ExactPhrase: string := "exact match fallback"
  const KeywordNote: string := " (" + KeywordPhrase + ")"
  const ExactNote: string := " (" + ExactPhrase + ")"
  const NewQueryLine: string := "\U{1F195} New query, " + "starting at hint level 1"
  const RouterOutputPrefix: string := "\U{1F50D} ROUTER OUTPUT: "
  /** What precedes the level on the line announcing the hint flow. */
  const HintFlowMarker: string := "continuing to hint flow (level "

  /** "... -> continuing to hint flow (level n)". */
  function HintFlowLine(tag: string, level: int): (line: string)
    ensures IsSuffix(HintFlowMarker + IntToString(level) + ")", line)
  {
    RouterOutputPrefix + tag + " -> " + HintFlowMarker + IntToString(level) + ")"
  }

  /** The lines the router prints about its decision, given the level it
      stored. Not modelled: the lines echoing the input, the history
      length, the keywords and the classification, the notice that no
      previous question was found, and the "ROUTER NEXT: find_hint" line. */
  function DecisionLines(e: RouterExit, level: int): (lines: seq<string>)
    ensures |lines| >= 2
    ensures e != Smalltalk ==> lines[|lines| - 1] == HintFlowLine(if e == VagueEscalation then "VAGUE_ESCALATION" else "GAME_RELATED", level)
  {
    match e
    case VagueEscalation =>
      [VagueDetectedLine, EscalatingPrefix + IntToString(level) + PreviousQuestionNote, HintFlowLine("VAGUE_ESCALATION", level)]
    case Smalltalk =>
      [SmalltalkDetectedLine,
       RouterOutputPrefix + "SMALLTALK -> '" + Take(SmalltalkResponse, 50) + "...'"]
    case KeywordEscalation =>
      [EscalatingPrefix + IntToString(level) + KeywordNote, HintFlowLine("GAME_RELATED", level)]
    case ExactEscalation =>
      [EscalatingPrefix + IntToString(level) + ExactNote, HintFlowLine("GAME_RELATED", level)]
    case NewQuestion =>
      [NewQueryLine, HintFlowLine("GAME_RELATED", level)]
  }

  /** The small-talk line shows exactly the preview. */
  lemma SmalltalkPreviewIsPrinted()
    ensures Take(SmalltalkResponse, 50) == SmalltalkPreview
  {
    assert |SmalltalkPreview| == 50;
    assert SmalltalkResponse[..50] == SmalltalkPreview;
  }
}

=== FILE: state.dfy ===
/** The graph state every node reads and updates: one record per
    conversation turn, with the keys that may be missing modelled as
    `Option` fields. */
module GraphState {
  import opened Results

  /** A chat-history entry: what the player said or what the bot answered. */
  datatype Message = HumanMessage(content: string) | AIMessage(content: string)

  /** The conversation state. `userInput` is always present because the
      service sets it on every turn; every other key may be missing.
      `intentClassification` is the extra key the router writes. */
  datatype LangGraphState = LangGraphState(
    chatHistory: Option<seq<Message>>,
    hintLevel: Option<int>,
    lastQuestionId: Option<string>,
    lastQuestionKeywords: Option<set<string>>,
    userInput: string,
    currentHint: Option<string>,
    formattedOutput: Option<string>,
    verificationPassed: Option<bool>,
    verificationReason: Option<string>,
    retryCount: Option<int>,
    retrievedContext: Option<string>,
    intentClassification: Option<string>)

  /** A node read a key with `state[key]` and the key was missing. */
  datatype NodeError = MissingKey(key: string)

  /** The state the service builds for a new turn: only the player's input is set. */
  function NewTurn(userInput: string): (s: LangGraphState)
    ensures s.userInput == userInput && s.hintLevel.None? && s.chatHistory.None?
    ensures s.lastQuestionId.None? && s.lastQuestionKeywords.None? && s.currentHint.None?
    ensures s.formattedOutput.None? && s.verificationPassed.None? && s.verificationReason.None?
    ensures s.retryCount.None? && s.retrievedContext.None? && s.intentClassification.None?
  {
    LangGraphState(None, None, None, None, userInput, None, None, None, None, None, None, None)
  }

  /** `state.get("hint_level", 1)`. */
  function HintLevelOr1(s: LangGraphState): int
  {
    s.hintLevel.GetOr(1)
  }

  /** `state.get("chat_history", [])`. */
  function HistoryOrEmpty(s: LangGraphState): seq<Message>
  {
    s.chatHistory.GetOr([])
  }
}

=== FILE: tef_config.dfy ===
/** The evaluation framework's configuration and the checks made when one
    is built. Paths under the project root are parameters. */
module TefConfig {
  import opened Results

  /** The embedding providers the framework knows. */
  const Providers: set<string> := {"openai", "local"}

  /** The k values reported when none are given. */
  const DefaultKValues: seq<int> := [1, 3, 5, 10]

  datatype Config = Config(
    qdrantUrl: string,
    collectionName: string,
    benchmarkPath: string,
    embeddingProvider: string,
    embeddingModel: Option<string>,
    kValues: seq<int>,
    outputDir: string)

  /** Why a configuration is refused. */
  datatype ConfigError = InvalidProvider(provider: string) | EmptyKValues | NonPositiveK

  /** A configuration with every field at its default, given where the
      benchmark file and the results directory are. */
  function DefaultConfig(benchmarkPath: string, outputDir: string): Config
  {
    Config("http://localhost:6333", "Thudbot_Hints", benchmarkPath, "openai", None, DefaultKValues, outputDir)
  }

  /** The checks run after construction, in order: the provider, then that
      there are k values, then that all of them are positive. An accepted
      configuration is kept as it is. */
  function Validate(c: Config): (r: Result<Config, ConfigError>)
    ensures r.Ok? <==> (c.embeddingProvider in Providers && |c.kValues| > 0
                        && forall i :: 0 <= i < |c.kValues| ==> c.kValues[i] > 0)
    ensures r.Ok? ==> r.value == c
    ensures r == Err(InvalidProvider(c.embeddingProvider)) <==> c.embeddingProvider !in Providers
    ensures r == Err(EmptyKValues) <==> c.embeddingProvider in Providers && |c.kValues| == 0
    ensures r == Err(NonPositiveK) <==>
      (c.embeddingProvider in Providers && |c.kValues| > 0 && exists i :: 0 <= i < |c.kValues| && c.kValues[i] <= 0)
  {
    if c.embeddingProvider !in Providers then Err(InvalidProvider(c.embeddingProvider))
    else if |c.kValues| == 0 then Err(EmptyKValues)
    else if exists i :: 0 <= i < |c.kValues| && c.kValues[i] <= 0 then Err(NonPositiveK)
    else Ok(c)
  }

  /** The defaults pass validation, wherever the files are. */
  lemma DefaultConfigIsValid(benchmarkPath: string, outputDir: string)
    ensures Validate(DefaultConfig(benchmarkPath, outputDir)).Ok?
  {
    assert "openai" in Providers;
  }

  /** The largest k value. */
  function MaxK(kValues: seq<int>): (m: int)
    requires |kValues| > 0
    ensures m in kValues
    ensures forall i :: 0 <= i < |kValues| ==> kValues[i] <= m
  {
    if |kValues| == 1 then kValues[0]
    else
      var rest := MaxK(kValues[1..]);
      if kValues[0] >= rest then kValues[0] else rest
  }

  /** An accepted configuration has a largest k value, and it is at least
      one, so the retriever asks for at least one document. */
  lemma AcceptedMaxKIsPositive(c: Config)
    requires Validate(c).Ok?
    ensures MaxK(c.kValues) >= 1
  {
    var i :| 0 <= i < |c.kValues| && c.kValues[i] == MaxK(c.kValues);
  }
}

=== FILE: tef_evaluator.dfy ===
/** The evaluator's pure steps: the default embedding model, the benchmark
    checks, the chunk-id format, the ids kept from a retrieval, and the
    result recorded for each question. The vector store, the embeddings
    and the file reading are parameters. */
module TefEvaluator {
  import opened Results
  import opened Text
  import TefConfig
  import TefMetrics

  datatype EvaluatorError = UnknownProvider(provider: string) | EmptyBenchmark | MissingColumns(missing: set<string>)

  /** The model a provider uses when the configuration names none. */
  function DefaultModel(provider: string): (r: Result<string, EvaluatorError>)
    ensures r.Ok? <==> provider in TefConfig.Providers
    ensures provider == "openai" ==> r == Ok("text-embedding-3-small")
    ensures provider == "local" ==> r == Ok("BAAI/bge-small-en-v1.5")
    ensures r.Err? ==> r.error == UnknownProvider(provider)
  {
    if provider == "openai" then Ok("text-embedding-3-small")
    else if provider == "local" then Ok("BAAI/bge-small-en-v1.5")
    else Err(UnknownProvider(provider))
  }

  /** The model recorded with the results: the configured one when it is
      set and non-empty, else the provider's default. */
  function CollectionModel(c: TefConfig.Config): (r: Result<string, EvaluatorError>)
    ensures c.embeddingModel.Some? && c.embeddingModel.value != "" ==> r == Ok(c.embeddingModel.value)
    ensures (c.embeddingModel.None? || c.embeddingModel.value == "") ==> r == DefaultModel(c.embeddingProvider)
  {
    match c.embeddingModel
    case Some(m) => if m != "" then Ok(m) else DefaultModel(c.embeddingProvider)
    case None => DefaultModel(c.embeddingProvider)
  }

  /** Every configuration that passed validation has a model to record. */
  lemma ValidConfigHasModel(c: TefConfig.Config)
    requires TefConfig.Validate(c).Ok?
    ensures CollectionModel(c).Ok?
  {
  }

  // ---------------------------------------------------------------------------
  // Benchmark rows
  // ---------------------------------------------------------------------------

  /** A benchmark row as the CSV reader gives it: column name to value. */
  type Row = map<string, string>

  const RequiredColumns: set<string> := {"qid", "question", "expected_primary"}

  /** The CSV reader gives every row the header's columns. */
  predicate SameColumns(rows: seq<Row>)
  {
    forall i :: 0 <= i < |rows| ==> rows[i].Keys == rows[0].Keys
  }

  /** `row.get(column, "")`. */
  function Field(row: Row, column: string): string
  {
    if column in row then row[column] else ""
  }

  /** The benchmark check: no rows is an error, then any required column
      missing from the header is; otherwise the rows are returned as read. */
  function LoadBenchmark(rows: seq<Row>): (r: Result<seq<Row>, EvaluatorError>)
    ensures r.Ok? <==> |rows| > 0 && RequiredColumns <= rows[0].Keys
    ensures r.Ok? ==> r.value == rows
    ensures r == Err(EmptyBenchmark) <==> |rows| == 0
    ensures r.Err? && |rows| > 0 ==> r.error == MissingColumns(RequiredColumns - rows[0].Keys) && r.error.missing != {}
  {
    if |rows| == 0 then Err(EmptyBenchmark)
    else
      var missing := RequiredColumns - rows[0].Keys;
      NothingMissingIsSubset(RequiredColumns, rows[0].Keys);
      if missing != {} then Err(MissingColumns(missing)) else Ok(rows)
  }

  lemma NothingMissingIsSubset(required: set<string>, present: set<string>)
    ensures required - present == {} <==> required <= present
  {
    if required - present != {} {
      var c :| c in required - present;
      assert c in required && c !in present;
    } else {
      forall c | c in required ensures c in present {
        assert c !in required - present;
      }
    }
  }

  /** Rows that pass the benchmark check and share the header hold every
      required column. */
  lemma LoadedRowsHaveColumns(rows: seq<Row>, i: int)
    requires LoadBenchmark(rows).Ok? && SameColumns(rows) && 0 <= i < |rows|
    ensures RequiredColumns <= rows[i].Keys
  {
  }

  // ---------------------------------------------------------------------------
  // The chunk-id format `^[A-Z0-9_]+:(chunk|row):\S+$`
  // ---------------------------------------------------------------------------

  /** A character of the source part of a chunk id. */
  predicate IsSourceChar(c: char)
  {
    'A' <= c <= 'Z' || '0' <= c <= '9' || c == '_'
  }

  predicate IsSourceName(s: string)
  {
    |s| > 0 && forall i :: 0 <= i < |s| ==> IsSourceChar(s[i])
  }

  /** Non-empty and without whitespace. */
  predicate IsLocator(s: string)
  {
    |s| > 0 && forall i :: 0 <= i < |s| ==> !IsSpace(s[i])
  }

  /** The length of the run of source characters at the start of `s`. */
  function SourceLength(s: string): (n: nat)
    ensures n <= |s|
    ensures forall i :: 0 <= i < n ==> IsSourceChar(s[i])
    ensures n < |s| ==> !IsSourceChar(s[n])
  {
    if |s| == 0 || !IsSourceChar(s[0]) then 0 else 1 + SourceLength(s[1..])
  }

  /** The three parts of a well-formed chunk id: its source, its kind
      (`chunk` or `row`) and its locator. */
  datatype ChunkId = ChunkId(source: string, kind: string, locator: string)

  predicate WellFormed(id: ChunkId)
  {
    IsSourceName(id.source) && id.kind in {"chunk", "row"} && IsLocator(id.locator)
  }

  function ChunkIdText(id: ChunkId): string
  {
    id.source + ":" + id.kind + ":" + id.locator
  }

  /** Reading a chunk id: the source runs to the first colon, since a
      colon is not a source character. */
  function ParseChunkId(s: string): (r: Option<ChunkId>)
    ensures r.Some? ==> WellFormed(r.value) && ChunkIdText(r.value) == s
  {
    var n := SourceLength(s);
    if n == 0 || n == |s| || s[n] != ':' then None
    else
      var rest := s[n + 1..];
      var kind := if IsPrefix("chunk:", rest) then "chunk" else if IsPrefix("row:", rest) then "row" else "";
      if kind == "" then None
      else
        var locator := rest[|kind| + 1..];
        if !IsLocator(locator) then None
        else
          assert kind + ":" == (if kind == "chunk" then "chunk:" else "row:");
          ThreeParts(s, n, kind, locator);
          Some(ChunkId(s[..n], kind, locator))
  }

  /** A text cut at a colon, whose remainder starts with `kind` and a
      colon, is its three parts joined by colons. */
  lemma ThreeParts(s: string, n: nat, kind: string, locator: string)
    requires n < |s| && s[n] == ':' && IsPrefix(kind + ":", s[n + 1..])
    requires locator == s[n + 1..][|kind| + 1..]
    ensures s[..n] + ":" + kind + ":" + locator == s
  {
    var rest := s[n + 1..];
    assert rest == kind + ":" + locator by {
      assert rest == rest[..|kind| + 1] + locator;
    }
    assert s == s[..n] + [':'] + rest;
  }

  /** Every well-formed id is read back as its parts. */
  lemma ParseChunkIdText(id: ChunkId)
    requires WellFormed(id)
    ensures ParseChunkId(ChunkIdText(id)) == Some(id)
  {
    var s := ChunkIdText(id);
    assert forall i :: 0 <= i < |id.source| ==> s[i] == id.source[i];
    assert s[|id.source|] == ':';
    SourceLengthStops(s, |id.source|);
    assert s[..|id.source|] == id.source;
    var rest := s[|id.source| + 1..];
    assert rest == id.kind + ":" + id.locator;
    if id.kind == "row" {
      assert rest[..4] == "row:";
      assert !IsPrefix("chunk:", rest) by { assert rest[0] == 'r'; }
    } else {
      assert rest[..6] == "chunk:";
    }
    assert rest[|id.kind| + 1..] == id.locator;
  }

  lemma {:induction false} SourceLengthStops(s: string, n: nat)
    requires n < |s| && !IsSourceChar(s[n])
    requires forall i :: 0 <= i < n ==> IsSourceChar(s[i])
    ensures SourceLength(s) == n
    decreases n
  {
    if n > 0 {
      SourceLengthStops(s[1..], n - 1);
    }
  }

  /** `re.match` with the pattern: `$` also matches before a final
      newline. */
  predicate MatchesChunkIdPattern(s: string)
  {
    ParseChunkId(s).Some? || (|s| > 0 && s[|s| - 1] == '\n' && ParseChunkId(s[..|s| - 1]).Some?)
  }

  /** The values checked are stripped, and for those the pattern means
      exactly a well-formed id. */
  lemma StrippedIdMatchesIffWellFormed(s: string)
    requires IsStripped(s)
    ensures MatchesChunkIdPattern(s) <==> ParseChunkId(s).Some?
  {
  }

  /** One warning about a malformed expected id. */
  datatype IdWarning = IdWarning(qid: string, field: string, chunkId: string)

  /** A warning about one stripped expected id, when it is non-empty and
      malformed. */
  function CheckId(qid: string, field: string, id: string): (ws: seq<IdWarning>)
    ensures |ws| <= 1
    ensures |ws| == 1 <==> id != "" && !MatchesChunkIdPattern(id)
    ensures forall i :: 0 <= i < |ws| ==> ws[i] == IdWarning(qid, field, id)
  {
    if id != "" && !MatchesChunkIdPattern(id) then [IdWarning(qid, field, id)] else []
  }

  /** The warnings for a row: its stripped expected ids, primary first,
      that are non-empty and malformed. */
  function RowWarnings(row: Row): (ws: seq<IdWarning>)
    requires "qid" in row
    ensures |ws| <= 2
    ensures forall i :: 0 <= i < |ws| ==>
      ws[i].qid == row["qid"] && ws[i].chunkId != "" && !MatchesChunkIdPattern(ws[i].chunkId)
  {
    var p := CheckId(row["qid"], "primary", Strip(Field(row, "expected_primary")));
    var q := CheckId(row["qid"], "secondary", Strip(Field(row, "expected_secondary")));
    ConcatWarnings(p, q, row["qid"]);
    p + q
  }

  lemma ConcatWarnings(p: seq<IdWarning>, q: seq<IdWarning>, qid: string)
    requires forall i :: 0 <= i < |p| ==> p[i].qid == qid && p[i].chunkId != "" && !MatchesChunkIdPattern(p[i].chunkId)
    requires forall i :: 0 <= i < |q| ==> q[i].qid == qid && q[i].chunkId != "" && !MatchesChunkIdPattern(q[i].chunkId)
    ensures forall i :: 0 <= i < |p + q| ==>
      (p + q)[i].qid == qid && (p + q)[i].chunkId != "" && !MatchesChunkIdPattern((p + q)[i].chunkId)
  {
    forall i | 0 <= i < |p + q|
      ensures (p + q)[i].qid == qid && (p + q)[i].chunkId != "" && !MatchesChunkIdPattern((p + q)[i].chunkId)
    {
      if i < |p| { assert (p + q)[i] == p[i]; } else { assert (p + q)[i] == q[i - |p|]; }
    }
  }

  /** The warnings for all rows, in row order. They are only shown: the
      rows are loaded unchanged whatever they say. */
  function Warnings(rows: seq<Row>): (ws: seq<IdWarning>)
    requires forall i :: 0 <= i < |rows| ==> "qid" in rows[i]
    ensures |ws| <= 2 * |rows|
  {
    if |rows| == 0 then [] else RowWarnings(rows[0]) + Warnings(rows[1..])
  }

  /** A row whose expected ids are well formed draws no warning. */
  lemma WellFormedRowHasNoWarnings(row: Row, primary: ChunkId)
    requires "qid" in row && WellFormed(primary)
    requires Strip(Field(row, "expected_primary")) == ChunkIdText(primary)
    requires Strip(Field(row, "expected_secondary")) == ""
    ensures RowWarnings(row) == []
  {
    ParseChunkIdText(primary);
  }

  // ---------------------------------------------------------------------------
  // One question
  // ---------------------------------------------------------------------------

  /** A retrieved document's metadata. */
  type Metadata = map<string, string>

  /** The ids kept from a retrieval: the non-empty `chunk_id` of each of
      the first `maxK` documents, in order. */
  function RetrievedIds(docs: seq<Metadata>, maxK: int): (ids: seq<string>)
    ensures 0 <= maxK ==> |ids| <= maxK
    ensures |ids| <= |docs|
    ensures forall i :: 0 <= i < |ids| ==> ids[i] != ""
  {
    IdsOf(TefMetrics.Top(docs, maxK))
  }

  /** A document's `chunk_id`, or "" when it has none. */
  function ChunkIdOf(d: Metadata): string
  {
    if "chunk_id" in d then d["chunk_id"] else ""
  }

  /** The non-empty ids of the documents, in order. */
  function IdsOf(docs: seq<Metadata>): (ids: seq<string>)
    ensures |ids| <= |docs|
    ensures forall i :: 0 <= i < |ids| ==> ids[i] != ""
  {
    if |docs| == 0 then []
    else
      var id := ChunkIdOf(docs[0]);
      (if id != "" then [id] else []) + IdsOf(docs[1..])
  }

  /** The ids of two runs of documents are the ids of the first run
      followed by those of the second. */
  lemma {:induction false} IdsOfAppend(a: seq<Metadata>, b: seq<Metadata>)
    ensures IdsOf(a + b) == IdsOf(a) + IdsOf(b)
    decreases |a|
  {
    if |a| == 0 {
      assert a + b == b;
    } else {
      assert (a + b)[0] == a[0];
      assert (a + b)[1..] == a[1..] + b;
      IdsOfAppend(a[1..], b);
      var head := if ChunkIdOf(a[0]) != "" then [ChunkIdOf(a[0])] else [];
      assert IdsOf(a + b) == head + (IdsOf(a[1..]) + IdsOf(b));
    }
  }

  /** An id is kept if and only if it is non-empty and some document
      carries it. */
  lemma {:induction false} IdsOfMembers(docs: seq<Metadata>, x: string)
    ensures x in IdsOf(docs) <==> x != "" && exists i :: 0 <= i < |docs| && ChunkIdOf(docs[i]) == x
    decreases |docs|
  {
    if |docs| > 0 {
      IdsOfMembers(docs[1..], x);
      if x in IdsOf(docs[1..]) {
        var i :| 0 <= i < |docs[1..]| && ChunkIdOf(docs[1..][i]) == x;
        assert ChunkIdOf(docs[i + 1]) == x;
      }
      if x != "" && (exists i :: 0 <= i < |docs| && ChunkIdOf(docs[i]) == x) && ChunkIdOf(docs[0]) != x {
        var i :| 0 <= i < |docs| && ChunkIdOf(docs[i]) == x;
        assert ChunkIdOf(docs[1..][i - 1]) == x;
      }
    }
  }

  /** When every document carries an id, the ids kept are exactly those of
      the first `maxK` documents. */
  lemma {:induction false} IdsOfLabelledDocs(docs: seq<Metadata>)
    requires forall i :: 0 <= i < |docs| ==> "chunk_id" in docs[i] && docs[i]["chunk_id"] != ""
    ensures |IdsOf(docs)| == |docs|
    ensures forall i :: 0 <= i < |docs| ==> IdsOf(docs)[i] == docs[i]["chunk_id"]
    decreases |docs|
  {
    if |docs| > 0 {
      IdsOfLabelledDocs(docs[1..]);
    }
  }

  /** An id is kept from a retrieval if and only if it is non-empty and
      one of the first `maxK` documents carries it. */
  lemma RetrievedIdsMembers(docs: seq<Metadata>, maxK: int, x: string)
    requires 0 <= maxK
    ensures x in RetrievedIds(docs, maxK)
       <==> x != "" && exists i :: 0 <= i < maxK && i < |docs| && ChunkIdOf(docs[i]) == x
  {
    var top := TefMetrics.Top(docs, maxK);
    IdsOfMembers(top, x);
    assert forall i :: 0 <= i < |top| ==> top[i] == docs[i];
  }

  /** How a retrieval went: the documents it returned, or the exception's
      type name and message. */
  datatype Retrieval = Retrieved(docs: seq<Metadata>) | Raised(typeName: string, message: string)

  /** The result recorded for one benchmark row. The expected ids are
      stripped and an empty secondary id is recorded as absent; a failed
      retrieval is recorded with no ids and its error. */
  function EvaluateQuestion(row: Row, maxK: int, retrieval: Retrieval): (r: TefMetrics.QuestionResult)
    requires RequiredColumns <= row.Keys
    ensures r.qid == row["qid"] && r.question == row["question"]
    ensures r.expectedPrimary == Strip(row["expected_primary"])
    ensures r.expectedSecondary.Some? <==> Strip(Field(row, "expected_secondary")) != ""
    ensures r.expectedSecondary.Some? ==> r.expectedSecondary.value == Strip(Field(row, "expected_secondary"))
    ensures retrieval.Retrieved? ==> r.retrievedChunks == RetrievedIds(retrieval.docs, maxK) && r.error.None?
    ensures retrieval.Raised? ==> r.retrievedChunks == [] && TefMetrics.HasError(r)
  {
    var secondary := Strip(Field(row, "expected_secondary"));
    var expectedSecondary := if secondary == "" then None else Some(secondary);
    match retrieval
    case Retrieved(docs) =>
      TefMetrics.QuestionResult(row["qid"], row["question"], Strip(row["expected_primary"]), expectedSecondary,
                                RetrievedIds(docs, maxK), None)
    case Raised(typeName, message) =>
      TefMetrics.QuestionResult(row["qid"], row["question"], Strip(row["expected_primary"]), expectedSecondary,
                                [], Some(typeName + ": " + message))
  }

  /** A question whose retrieval raised is a miss at every k. */
  lemma FailedRetrievalMisses(row: Row, maxK: int, typeName: string, message: string, k: int)
    requires RequiredColumns <= row.Keys
    ensures !TefMetrics.IsHitAtK(EvaluateQuestion(row, maxK, Raised(typeName, message)), k)
  {
  }

  /** A question whose expected id comes back on one of the first `k`
      documents, with `k` at most the number retrieved, is a hit at `k`,
      whatever ids the other documents carry. */
  lemma RetrievedExpectedIsHit(row: Row, maxK: int, docs: seq<Metadata>, k: int, j: int)
    requires RequiredColumns <= row.Keys
    requires 0 <= j < k <= maxK && j < |docs|
    requires "chunk_id" in docs[j] && docs[j]["chunk_id"] == Strip(row["expected_primary"]) != ""
    ensures TefMetrics.IsHitAtK(EvaluateQuestion(row, maxK, Retrieved(docs)), k)
  {
    var top := TefMetrics.Top(docs, maxK);
    assert j < |top| && top[j] == docs[j];
    assert top == top[..j] + [top[j]] + top[j + 1..];
    IdsOfAppend(top[..j] + [top[j]], top[j + 1..]);
    IdsOfAppend(top[..j], [top[j]]);
    var before := IdsOf(top[..j]);
    var ids := RetrievedIds(docs, maxK);
    assert IdsOf([top[j]]) == [docs[j]["chunk_id"]];
    assert ids == before + [docs[j]["chunk_id"]] + IdsOf(top[j + 1..]);
    assert ids[|before|] == docs[j]["chunk_id"];
    assert TefMetrics.Top(ids, k)[|before|] == ids[|before|];
  }

  /** The whole run: one result per benchmark row, in order, each from its
      own retrieval. */
  function Evaluate(rows: seq<Row>, maxK: int, retrieve: string -> Retrieval): (results: seq<TefMetrics.QuestionResult>)
    requires forall i :: 0 <= i < |rows| ==> RequiredColumns <= rows[i].Keys
    ensures |results| == |rows|
    ensures forall i :: 0 <= i < |rows| ==>
      results[i] == EvaluateQuestion(rows[i], maxK, retrieve(rows[i]["question"]))
  {
    seq(|rows|, i requires 0 <= i < |rows| => EvaluateQuestion(rows[i], maxK, retrieve(rows[i]["question"])))
  }
}

=== FILE: tef_metrics.dfy ===
/** Retrieval-evaluation metrics: whether one question's expected chunk is
    among the top k retrieved, the exported row of one result, and
    recall@k over a run. Latencies are left out. */
module TefMetrics {
  import opened Results

  /** One evaluated question: what was expected, which chunk ids came back
      (best first) and the error, if retrieval failed. */
  datatype QuestionResult = QuestionResult(
    qid: string,
    question: string,
    expectedPrimary: string,
    expectedSecondary: Option<string>,
    retrievedChunks: seq<string>,
    error: Option<string>)

  /** Python truthiness of the optional error: `None` and "" are false. */
  predicate HasError(r: QuestionResult)
  {
    r.error.Some? && r.error.value != ""
  }

  /** Python's `chunks[:k]`: a negative `k` counts from the end. */
  function Top<T>(chunks: seq<T>, k: int): (top: seq<T>)
    ensures |top| <= |chunks| && top == chunks[..|top|]
    ensures 0 <= k ==> |top| == if k < |chunks| then k else |chunks|
  {
    if k >= |chunks| then chunks
    else if k >= 0 then chunks[..k]
    else if -k < |chunks| then chunks[..|chunks| + k]
    else []
  }

  /** An expected id counts when it is non-empty and among the top `k`. */
  predicate Expects(id: string, chunks: seq<string>, k: int)
  {
    id != "" && id in Top(chunks, k)
  }

  /** hit@k: never after an error; otherwise the primary or the secondary
      expected chunk is among the first `k` retrieved. */
  function IsHitAtK(r: QuestionResult, k: int): (hit: bool)
    ensures HasError(r) ==> !hit
    ensures hit <==> (!HasError(r) &&
      (Expects(r.expectedPrimary, r.retrievedChunks, k)
       || (r.expectedSecondary.Some? && Expects(r.expectedSecondary.value, r.retrievedChunks, k))))
  {
    if HasError(r) then false
    else if r.expectedPrimary != "" && r.expectedPrimary in Top(r.retrievedChunks, k) then true
    else if r.expectedSecondary.Some? && r.expectedSecondary.value != ""
            && r.expectedSecondary.value in Top(r.retrievedChunks, k) then true
    else false
  }

  /** A hit stays a hit when more chunks are looked at. */
  lemma HitIsMonotone(r: QuestionResult, k: int, k2: int)
    requires 0 <= k <= k2 && IsHitAtK(r, k)
    ensures IsHitAtK(r, k2)
  {
    var top, top2 := Top(r.retrievedChunks, k), Top(r.retrievedChunks, k2);
    assert top == top2[..|top|];
    forall id | id in top ensures id in top2 {
      var i :| 0 <= i < |top| && top[i] == id;
      assert top2[i] == id;
    }
  }

  /** Looking at no chunks finds nothing. */
  lemma NoHitAtZero(r: QuestionResult)
    ensures !IsHitAtK(r, 0)
  {
    assert Top(r.retrievedChunks, 0) == [];
  }

  /** The exported row of a result. */
  datatype ResultRow = ResultRow(
    qid: string,
    question: string,
    expectedPrimary: string,
    expectedSecondary: string,
    hitAt: map<int, int>,
    retrieved: seq<string>,
    error: string)

  /** How many retrieved ids a row shows. */
  const RetrievedColumns := 10

  /** `to_dict`: a hit@k column per requested `k` (1 or 0), the first ten
      retrieved ids padded with "", and a missing secondary id or error
      written as "". */
  function ToRow(r: QuestionResult, kValues: seq<int>): (row: ResultRow)
    ensures row.hitAt.Keys == set k | k in kValues
    ensures forall k :: k in row.hitAt ==> (row.hitAt[k] == 1 <==> IsHitAtK(r, k)) && row.hitAt[k] in {0, 1}
    ensures |row.retrieved| == RetrievedColumns
    ensures forall i :: 0 <= i < RetrievedColumns ==>
      row.retrieved[i] == if i < |r.retrievedChunks| then r.retrievedChunks[i] else ""
    ensures row.expectedSecondary == r.expectedSecondary.GetOr("")
    ensures row.error == r.error.GetOr("")
    ensures row.qid == r.qid && row.question == r.question && row.expectedPrimary == r.expectedPrimary
  {
    ResultRow(
      r.qid, r.question, r.expectedPrimary, r.expectedSecondary.GetOr(""),
      map k | k in kValues :: if IsHitAtK(r, k) then 1 else 0,
      seq(RetrievedColumns, i requires 0 <= i < RetrievedColumns =>
        if i < |r.retrievedChunks| then r.retrievedChunks[i] else ""),
      r.error.GetOr(""))
  }

  /** The row's retrieved columns are enough to recompute hit@k for every
      `k` up to ten: the padding never matches, because an empty expected
      id never counts. */
  lemma RowDeterminesHits(r: QuestionResult, kValues: seq<int>, k: int)
    requires 0 <= k <= RetrievedColumns
    ensures var row := ToRow(r, kValues);
      IsHitAtK(r, k) <==> (row.error == "" &&
        ((row.expectedPrimary != "" && row.expectedPrimary in row.retrieved[..k])
         || (row.expectedSecondary != "" && row.expectedSecondary in row.retrieved[..k])))
  {
    var row := ToRow(r, kValues);
    var top := Top(r.retrievedChunks, k);
    forall id | id != "" ensures id in top <==> id in row.retrieved[..k] {
      if id in top {
        var i :| 0 <= i < |top| && top[i] == id;
        assert row.retrieved[..k][i] == id;
      }
      if id in row.retrieved[..k] {
        var i :| 0 <= i < k && row.retrieved[..k][i] == id;
        assert row.retrieved[i] == id;
        assert i < |r.retrievedChunks|;
        assert top[i] == id;
      }
    }
  }

  /** The number of results that hit at `k`. */
  function Hits(results: seq<QuestionResult>, k: int): (n: nat)
    ensures n <= |results|
  {
    if |results| == 0 then 0
    else (if IsHitAtK(results[0], k) then 1 else 0) + Hits(results[1..], k)
  }

  /** recall@k: the fraction of questions that hit, 0 for no questions. */
  function RecallAtK(results: seq<QuestionResult>, k: int): (recall: real)
    ensures 0.0 <= recall <= 1.0
    ensures |results| == 0 ==> recall == 0.0
  {
    if |results| == 0 then 0.0
    else
      FractionBounds(Hits(results, k) as real, |results| as real);
      Hits(results, k) as real / |results| as real
  }

  lemma FractionBounds(a: real, n: real)
    requires 0.0 <= a <= n && n > 0.0
    ensures 0.0 <= a / n <= 1.0
  {
    assert (a / n) * n == a;
  }

  lemma FractionMonotone(a: real, b: real, n: real)
    requires a <= b && n > 0.0
    ensures a / n <= b / n
  {
    assert (a / n) * n == a && (b / n) * n == b;
  }

  /** Looking deeper never loses a hit. */
  lemma {:induction false} HitsAreMonotone(results: seq<QuestionResult>, k: int, k2: int)
    requires 0 <= k <= k2
    ensures Hits(results, k) <= Hits(results, k2)
    decreases |results|
  {
    if |results| > 0 {
      if IsHitAtK(results[0], k) {
        HitIsMonotone(results[0], k, k2);
      }
      HitsAreMonotone(results[1..], k, k2);
    }
  }

  /** recall@k is non-decreasing in `k`. */
  lemma RecallIsMonotone(results: seq<QuestionResult>, k: int, k2: int)
    requires 0 <= k <= k2
    ensures RecallAtK(results, k) <= RecallAtK(results, k2)
  {
    HitsAreMonotone(results, k, k2);
    if |results| > 0 {
      FractionMonotone(Hits(results, k) as real, Hits(results, k2) as real, |results| as real);
    }
  }

  /** Questions whose retrieval failed count as misses: recall is at most
      the fraction of questions that ran without error. */
  lemma {:induction false} ErrorsAreMisses(results: seq<QuestionResult>, k: int)
    ensures Hits(results, k) <= |results| - Failed(results)
    decreases |results|
  {
    if |results| > 0 {
      ErrorsAreMisses(results[1..], k);
    }
  }

  /** The number of results with an error. */
  function Failed(results: seq<QuestionResult>): (n: nat)
    ensures n <= |results|
  {
    if |results| == 0 then 0
    else (if HasError(results[0]) then 1 else 0) + Failed(results[1..])
  }
}

=== FILE: text.dfy ===
/** The Python string operations the bot relies on, written out over
    `seq<char>`: ASCII case mapping, `str.strip`, substring search,
    `str.split(sep)` / `sep.join`, whitespace `str.split()`, decimal
    rendering and parsing, and slicing with Python's negative-index rule. */
module Text {

  // ---------------------------------------------------------------------------
  // Character classes
  // ---------------------------------------------------------------------------

  /** The ASCII characters Python's `str.isspace` accepts: tab, newline,
      vertical tab, form feed, carriage return, the four separators
      0x1C-0x1F, and space. */
  predicate IsSpace(c: char)
  {
    c == ' ' || ('\t' <= c <= '\r') || ('\U{1C}' <= c <= '\U{1F}')
  }

  predicate IsDigit(c: char)
  {
    '0' <= c <= '9'
  }

  predicate AllDigits(s: string)
  {
    forall i :: 0 <= i < |s| ==> IsDigit(s[i])
  }

  function LowerChar(c: char): char
  {
    if 'A' <= c <= 'Z' then (c as int + 32) as char else c
  }

  function UpperChar(c: char): char
  {
    if 'a' <= c <= 'z' then (c as int - 32) as char else c
  }

  /** `str.lower()` on the ASCII letters. */
  function Lower(s: string): (r: string)
    ensures |r| == |s|
    ensures forall i :: 0 <= i < |s| ==> r[i] == LowerChar(s[i])
  {
    if |s| == 0 then "" else [LowerChar(s[0])] + Lower(s[1..])
  }

  /** `str.upper()` on the ASCII letters. */
  function Upper(s: string): (r: string)
    ensures |r| == |s|
    ensures forall i :: 0 <= i < |s| ==> r[i] == UpperChar(s[i])
  {
    if |s| == 0 then "" else [UpperChar(s[0])] + Upper(s[1..])
  }

  lemma LowerAppend(a: string, b: string)
    ensures Lower(a + b) == Lower(a) + Lower(b)
  {
    assert forall i :: 0 <= i < |a + b| ==> Lower(a + b)[i] == (Lower(a) + Lower(b))[i];
  }

  /** A character is missing from the lower-cased text exactly when neither
      its lower-case nor its upper-case form occurs in the original. */
  lemma AbsentFromLower(w: string, c: char)
    requires 'a' <= c <= 'z' || !('A' <= c <= 'Z')
    requires c !in w && UpperChar(c) !in w
    ensures c !in Lower(w)
  {
    forall i | 0 <= i < |w| ensures Lower(w)[i] != c {
      assert w[i] != c && w[i] != UpperChar(c);
    }
  }

  // ---------------------------------------------------------------------------
  // Stripping
  // ---------------------------------------------------------------------------

  /** `str.lstrip()`: drops the leading whitespace. */
  function TrimStart(s: string): (r: string)
    ensures |r| <= |s| && r == s[|s| - |r|..]
    ensures forall i :: 0 <= i < |s| - |r| ==> IsSpace(s[i])
    ensures |r| > 0 ==> !IsSpace(r[0])
  {
    if |s| > 0 && IsSpace(s[0]) then TrimStart(s[1..]) else s
  }

  /** `str.rstrip()`: drops the trailing whitespace. */
  function TrimEnd(s: string): (r: string)
    ensures |r| <= |s| && r == s[..|r|]
    ensures forall i :: |r| <= i < |s| ==> IsSpace(s[i])
    ensures |r| > 0 ==> !IsSpace(r[|r| - 1])
  {
    if |s| > 0 && IsSpace(s[|s| - 1]) then TrimEnd(s[..|s| - 1]) else s
  }

  /** `str.strip()`: the text between the first and the last non-space
      character; empty exactly when the text is all whitespace. */
  function Strip(s: string): (r: string)
    ensures Contains(s, r)
    ensures r == "" <==> forall i :: 0 <= i < |s| ==> IsSpace(s[i])
    ensures |r| > 0 ==> !IsSpace(r[0]) && !IsSpace(r[|r| - 1])
  {
    var t := TrimStart(s);
    var r := TrimEnd(t);
    assert OccursAt(s, r, |s| - |t|);
    TrimmedAway(s, t, r);
    r
  }

  lemma TrimmedAway(s: string, t: string, r: string)
    requires t == TrimStart(s) && r == TrimEnd(t)
    ensures r == "" ==> forall i :: 0 <= i < |s| ==> IsSpace(s[i])
  {
  }

  /** Text that neither starts nor ends with whitespace. */
  predicate IsStripped(s: string)
  {
    |s| > 0 ==> !IsSpace(s[0]) && !IsSpace(s[|s| - 1])
  }

  lemma StripOfStripped(s: string)
    requires IsStripped(s)
    ensures Strip(s) == s
  {
  }

  lemma StripIdempotent(s: string)
    ensures Strip(Strip(s)) == Strip(s)
  {
    StripOfStripped(Strip(s));
  }

  lemma {:induction false} TrimStartPadded(before: string, x: string)
    requires forall i :: 0 <= i < |before| ==> IsSpace(before[i])
    requires |x| > 0 && !IsSpace(x[0])
    ensures TrimStart(before + x) == x
    decreases |before|
  {
    if |before| > 0 {
      assert (before + x)[1..] == before[1..] + x;
      TrimStartPadded(before[1..], x);
    } else {
      assert before + x == x;
    }
  }

  lemma {:induction false} TrimEndPadded(x: string, after: string)
    requires forall i :: 0 <= i < |after| ==> IsSpace(after[i])
    requires |x| > 0 && !IsSpace(x[|x| - 1])
    ensures TrimEnd(x + after) == x
    decreases |after|
  {
    if |after| > 0 {
      assert (x + after)[..|x + after| - 1] == x + after[..|after| - 1];
      TrimEndPadded(x, after[..|after| - 1]);
    } else {
      assert x + after == x;
    }
  }

  /** Stripping removes blank padding and nothing else. */
  lemma StripPadded(before: string, x: string, after: string)
    requires forall i :: 0 <= i < |before| ==> IsSpace(before[i])
    requires forall i :: 0 <= i < |after| ==> IsSpace(after[i])
    requires |x| > 0 && IsStripped(x)
    ensures Strip(before + x + after) == x
  {
    assert before + x + after == before + (x + after);
    TrimStartPadded(before, x + after);
    TrimEndPadded(x, after);
  }

  /** Upper-casing maps whitespace to whitespace and nothing else to it. */
  lemma UpperKeepsSpace(c: char)
    ensures IsSpace(UpperChar(c)) <==> IsSpace(c)
  {
  }

  lemma UpperIdempotent(s: string)
    ensures Upper(Upper(s)) == Upper(s)
  {
  }

  lemma UpperOfStrippedIsStripped(s: string)
    requires IsStripped(s)
    ensures IsStripped(Upper(s))
  {
    if |s| > 0 {
      UpperKeepsSpace(s[0]);
      UpperKeepsSpace(s[|s| - 1]);
    }
  }

  // ---------------------------------------------------------------------------
  // Substring search (`t in s`)
  // ---------------------------------------------------------------------------

  predicate IsPrefix(p: string, s: string)
  {
    |p| <= |s| && s[..|p|] == p
  }

  predicate IsSuffix(p: string, s: string)
  {
    |p| <= |s| && s[|s| - |p|..] == p
  }

  /** `t` occurs in `s` starting at position `i`. */
  predicate OccursAt(s: string, t: string, i: int)
  {
    0 <= i <= |s| - |t| && s[i..i + |t|] == t
  }

  /** Python's `t in s` for strings. */
  predicate Contains(s: string, t: string)
  {
    exists i :: 0 <= i <= |s| - |t| && OccursAt(s, t, i)
  }

  /** A text that quotes `t` contains it, whatever surrounds it. */
  lemma ContainsQuoted(a: string, t: string, b: string)
    ensures Contains(a + t + b, t)
  {
    assert OccursAt(a + t + b, t, |a|);
  }

  lemma ContainsTransitive(s: string, t: string, u: string)
    requires Contains(s, t) && Contains(t, u)
    ensures Contains(s, u)
  {
    var i :| OccursAt(s, t, i);
    var j :| OccursAt(t, u, j);
    assert OccursAt(s, t, i) && OccursAt(t, u, j);
    forall k | 0 <= k < |u| ensures s[i + j + k] == u[k] {
      assert s[i..i + |t|][j + k] == t[j + k];
      assert t[j..j + |u|][k] == u[k];
    }
    assert s[i + j..i + j + |u|] == u;
    assert OccursAt(s, u, i + j);
  }

  /** What the start of a text contains, the whole text contains. */
  lemma ContainsInLeft(a: string, b: string, t: string)
    requires Contains(a, t)
    ensures Contains(a + b, t)
  {
    var i :| OccursAt(a, t, i);
    assert OccursAt(a, t, i);
    assert (a + b)[i..i + |t|] == a[i..i + |t|];
    assert OccursAt(a + b, t, i);
  }

  /** What the end of a text contains, the whole text contains. */
  lemma ContainsInRight(a: string, b: string, t: string)
    requires Contains(b, t)
    ensures Contains(a + b, t)
  {
    var i :| OccursAt(b, t, i);
    assert OccursAt(b, t, i);
    assert (a + b)[|a| + i..|a| + i + |t|] == b[i..i + |t|];
    assert OccursAt(a + b, t, |a| + i);
  }

  /** An occurrence of `w` in `p + s` starts with `w[0]`, so it lies in `s`
      when `p` lacks that character. */
  lemma ContainsPastPrefix(p: string, s: string, w: string)
    requires |w| > 0 && w[0] !in p && Contains(p + s, w)
    ensures Contains(s, w)
  {
    var i :| OccursAt(p + s, w, i);
    assert OccursAt(p + s, w, i);
    assert (p + s)[i..i + |w|][0] == (p + s)[i] == w[0];
    assert i >= |p|;
    assert s[i - |p|..i - |p| + |w|] == (p + s)[i..i + |w|];
    assert OccursAt(s, w, i - |p|);
  }

  /** A text missing one of the characters of `t` cannot contain `t`. */
  lemma LacksChar(w: string, c: char, t: string)
    requires c in t && c !in w
    ensures !Contains(w, t)
  {
    var k :| 0 <= k < |t| && t[k] == c;
    forall i | 0 <= i <= |w| - |t| ensures !OccursAt(w, t, i) {
      assert w[i..i + |t|][k] == w[i + k] != c;
    }
  }

  /** An occurrence of `t` in `a + [c] + b` cannot straddle the separator
      `c` when `c` is not a character of `t`, so it lies inside `a` or `b`. */
  lemma NotContainsAround(a: string, c: char, b: string, t: string)
    requires c !in t
    requires !Contains(a, t) && !Contains(b, t)
    ensures !Contains(a + [c] + b, t)
  {
    var s := a + [c] + b;
    forall i | 0 <= i <= |s| - |t| ensures !OccursAt(s, t, i) {
      if i + |t| <= |a| {
        assert s[i..i + |t|] == a[i..i + |t|];
        assert !OccursAt(a, t, i);
      } else if i > |a| {
        assert s[i..i + |t|] == b[i - |a| - 1..i - |a| - 1 + |t|];
        assert !OccursAt(b, t, i - |a| - 1);
      } else {
        assert s[i..i + |t|][|a| - i] == c;
      }
    }
  }

  // ---------------------------------------------------------------------------
  // `str.split(sep)` and `sep.join(parts)`
  // ---------------------------------------------------------------------------

  /** `s.split(sep)` for a one-character separator: the pieces between
      separators, one more piece than there are separators. */
  function Split(s: string, sep: char): (r: seq<string>)
    ensures |r| >= 1
    ensures forall i :: 0 <= i < |r| ==> sep !in r[i]
    ensures sep !in s ==> r == [s]
  {
    if |s| == 0 then [""]
    else
      var rest := Split(s[1..], sep);
      if s[0] == sep then [""] + rest
      else
        assert sep !in s ==> [s[0]] + rest[0] == s;
        [[s[0]] + rest[0]] + rest[1..]
  }

  /** `sep.join(parts)`. */
  function Join(sep: string, parts: seq<string>): string
  {
    if |parts| == 0 then ""
    else if |parts| == 1 then parts[0]
    else parts[0] + sep + Join(sep, parts[1..])
  }

  lemma {:induction false} JoinSplit(s: string, sep: char)
    ensures Join([sep], Split(s, sep)) == s
    decreases |s|
  {
    if |s| > 0 {
      var rest := Split(s[1..], sep);
      JoinSplit(s[1..], sep);
      if s[0] != sep {
        assert Split(s, sep) == [[s[0]] + rest[0]] + rest[1..];
        JoinOfLongerFirst([sep], rest, s[0]);
      } else {
        assert Split(s, sep) == [""] + rest;
        assert ([""] + rest)[1..] == rest;
      }
      assert s == [s[0]] + s[1..];
    }
  }

  /** Putting a character in front of the first part puts it in front of
      the joined text. */
  lemma JoinOfLongerFirst(sep: string, parts: seq<string>, c: char)
    requires |parts| >= 1
    ensures Join(sep, [[c] + parts[0]] + parts[1..]) == [c] + Join(sep, parts)
  {
    var longer := [[c] + parts[0]] + parts[1..];
    assert longer[0] == [c] + parts[0];
    if |parts| > 1 {
      assert longer[1..] == parts[1..];
      assert Join(sep, longer) == [c] + parts[0] + sep + Join(sep, parts[1..]);
    }
  }

  lemma {:induction false} SplitJoin(parts: seq<string>, sep: char)
    requires |parts| >= 1
    requires forall i :: 0 <= i < |parts| ==> sep !in parts[i]
    ensures Split(Join([sep], parts), sep) == parts
    decreases |parts|, |parts[0]|
  {
    var s := Join([sep], parts);
    if |parts[0]| > 0 {
      var c := parts[0][0];
      var p := [parts[0][1..]] + parts[1..];
      assert p[0] == parts[0][1..] && p[1..] == parts[1..];
      assert [[c] + p[0]] + p[1..] == parts by {
        assert [c] + parts[0][1..] == parts[0];
      }
      JoinOfLongerFirst([sep], p, c);
      assert s == [c] + Join([sep], p);
      assert s[0] == c && s[1..] == Join([sep], p);
      assert c != sep by {
        assert parts[0][0] in parts[0];
      }
      SplitJoin(p, sep);
      assert Split(s, sep) == [[c] + p[0]] + p[1..];
    } else if |parts| > 1 {
      SplitJoin(parts[1..], sep);
      assert s == [sep] + Join([sep], parts[1..]);
      assert s[1..] == Join([sep], parts[1..]);
      assert [""] + parts[1..] == parts;
    }
  }

  lemma JoinAppend(sep: string, parts: seq<string>, last: string)
    ensures Join(sep, parts + [last]) == if |parts| == 0 then last else Join(sep, parts) + sep + last
    decreases |parts|
  {
    if |parts| > 1 {
      assert (parts + [last])[1..] == parts[1..] + [last];
      JoinAppend(sep, parts[1..], last);
    }
  }

  /** The first piece of `s.split(sep)`: the text up to the first separator. */
  lemma FirstPiece(s: string, sep: char)
    ensures IsPrefix(Split(s, sep)[0], s)
    ensures sep !in Split(s, sep)[0]
    ensures Split(s, sep)[0] == s || s[|Split(s, sep)[0]|] == sep
  {
    var parts := Split(s, sep);
    JoinSplit(s, sep);
    if |parts| > 1 {
      assert s == parts[0] + [sep] + Join([sep], parts[1..]);
    }
  }

  // ---------------------------------------------------------------------------
  // Whitespace `str.split()` and `" ".join(...)`
  // ---------------------------------------------------------------------------

  /** A word of `str.split()`: non-empty, without whitespace. */
  predicate IsWord(w: string)
  {
    |w| > 0 && forall i :: 0 <= i < |w| ==> !IsSpace(w[i])
  }

  /** Length of the run of non-space characters at the start of `s`. */
  function WordLength(s: string): (n: nat)
    ensures n <= |s|
    ensures forall i :: 0 <= i < n ==> !IsSpace(s[i])
    ensures n < |s| ==> IsSpace(s[n])
  {
    if |s| == 0 || IsSpace(s[0]) then 0 else 1 + WordLength(s[1..])
  }

  /** `s.split()`: the maximal runs of non-space characters, in order. */
  function Words(s: string): (r: seq<string>)
    ensures forall i :: 0 <= i < |r| ==> IsWord(r[i])
    decreases |s|
  {
    if |s| == 0 then []
    else if IsSpace(s[0]) then Words(s[1..])
    else
      var n := WordLength(s);
      [s[..n]] + Words(s[n..])
  }

  /** `" ".join(s.split())`: every run of whitespace becomes one space and
      the ends are trimmed. */
  function Collapse(s: string): string
  {
    Join(" ", Words(s))
  }

  lemma {:induction false} WordsOfLeadingSpace(s: string, w: string)
    requires |s| > 0 && IsSpace(s[0])
    ensures Words(s) == Words(s[1..])
  {
  }

  /** Splitting a text of words joined by single spaces gives back the words. */
  lemma {:induction false} WordsOfJoin(ws: seq<string>)
    requires forall i :: 0 <= i < |ws| ==> IsWord(ws[i])
    ensures Words(Join(" ", ws)) == ws
    decreases |ws|
  {
    if |ws| > 0 {
      var s := Join(" ", ws);
      var w := ws[0];
      WordOfWordPrefix(w, if |ws| == 1 then "" else " " + Join(" ", ws[1..]));
      if |ws| == 1 {
        assert s == w + "";
      } else {
        var tail := Join(" ", ws[1..]);
        assert s == w + (" " + tail);
        assert s[|w|..] == " " + tail;
        WordsOfLeadingSpace(s[|w|..], tail);
        assert s[|w|..][1..] == tail;
        WordsOfJoin(ws[1..]);
      }
    }
  }

  lemma WordOfWordPrefix(w: string, rest: string)
    requires IsWord(w)
    requires |rest| == 0 || IsSpace(rest[0])
    ensures WordLength(w + rest) == |w|
    ensures Words(w + rest) == [w] + Words(rest)
  {
    WordLengthOf(w, rest);
    assert (w + rest)[..|w|] == w;
    assert (w + rest)[|w|..] == rest;
  }

  lemma {:induction false} WordLengthOf(w: string, rest: string)
    requires forall i :: 0 <= i < |w| ==> !IsSpace(w[i])
    requires |rest| == 0 || IsSpace(rest[0])
    ensures WordLength(w + rest) == |w|
    decreases |w|
  {
    if |w| > 0 {
      assert (w + rest)[1..] == w[1..] + rest;
      WordLengthOf(w[1..], rest);
    } else {
      assert w + rest == rest;
    }
  }

  /** Collapsing an already collapsed text changes nothing. */
  lemma CollapseIdempotent(s: string)
    ensures Collapse(Collapse(s)) == Collapse(s)
  {
    WordsOfJoin(Words(s));
  }

  /** What `" ".join(s.split())` produces: no whitespace at either end,
      and inside only single spaces. */
  predicate IsCollapsed(s: string)
  {
    forall i :: 0 <= i < |s| && IsSpace(s[i]) ==> s[i] == ' ' && 0 < i < |s| - 1 && !IsSpace(s[i + 1])
  }

  /** Words joined by single spaces are collapsed, and start and end with
      a word's characters. */
  lemma {:induction false} JoinWordsIsCollapsed(ws: seq<string>)
    requires forall i :: 0 <= i < |ws| ==> IsWord(ws[i])
    ensures IsCollapsed(Join(" ", ws))
    ensures |ws| > 0 ==> |Join(" ", ws)| > 0 && !IsSpace(Join(" ", ws)[0])
    decreases |ws|
  {
    if |ws| > 1 {
      var tail := Join(" ", ws[1..]);
      JoinWordsIsCollapsed(ws[1..]);
      var s := ws[0] + " " + tail;
      assert Join(" ", ws) == s;
      assert forall i :: 0 <= i < |ws[0]| ==> s[i] == ws[0][i];
      forall i | 0 <= i < |s| && IsSpace(s[i])
        ensures s[i] == ' ' && 0 < i < |s| - 1 && !IsSpace(s[i + 1])
      {
        if i > |ws[0]| {
          assert s[i] == tail[i - |ws[0]| - 1];
          if i + 1 < |s| {
            assert s[i + 1] == tail[i + 1 - |ws[0]| - 1];
          }
        } else if i == |ws[0]| {
          assert s[i + 1] == tail[0];
        }
      }
      assert s[0] == ws[0][0];
    }
  }

  /** `" ".join(s.split())` is collapsed. */
  lemma CollapseIsCollapsed(s: string)
    ensures IsCollapsed(Collapse(s))
  {
    JoinWordsIsCollapsed(Words(s));
  }

  /** A collapsed text is left as it is by collapsing. */
  lemma {:induction false} CollapsedIsFixed(s: string)
    requires IsCollapsed(s)
    ensures Collapse(s) == s
    decreases |s|
  {
    if |s| > 0 {
      var n := WordLength(s);
      assert !IsSpace(s[0]);
      var w := s[..n];
      assert IsWord(w);
      if n == |s| {
        WordOfWordPrefix(w, "");
        assert s == w + "";
      } else {
        var rest := s[n + 1..];
        assert s[n] == ' ' && n < |s| - 1 && !IsSpace(s[n + 1]);
        CollapsedSuffix(s, n + 1);
        CollapsedIsFixed(rest);
        assert s == w + " " + rest;
        WordsOfWordSpace(w, rest);
        var ws := Words(rest);
        assert |ws| > 0;
        assert ([w] + ws)[1..] == ws;
      }
    }
  }

  /** A collapsed text stays collapsed from any point that is not a space. */
  lemma CollapsedSuffix(s: string, k: nat)
    requires IsCollapsed(s) && k <= |s| && (k < |s| ==> !IsSpace(s[k]))
    ensures IsCollapsed(s[k..])
  {
    var rest := s[k..];
    forall i | 0 <= i < |rest| && IsSpace(rest[i])
      ensures rest[i] == ' ' && 0 < i < |rest| - 1 && !IsSpace(rest[i + 1])
    {
      assert rest[i] == s[k + i];
      if i + 1 < |rest| {
        assert rest[i + 1] == s[k + i + 1];
      }
    }
  }

  /** A word, one space and a text that starts with a word split into that
      word and the text's words. */
  lemma WordsOfWordSpace(w: string, rest: string)
    requires IsWord(w) && |rest| > 0 && !IsSpace(rest[0])
    ensures Words(w + " " + rest) == [w] + Words(rest)
  {
    var spaced := " " + rest;
    assert spaced[0] == ' ' && spaced[1..] == rest;
    assert w + " " + rest == w + spaced;
    WordOfWordPrefix(w, spaced);
    WordsOfLeadingSpace(spaced, "");
  }

  /** Cutting a collapsed text and appending dots keeps it collapsed. */
  lemma CollapsedCutWithDots(s: string, m: nat)
    requires IsCollapsed(s) && m <= |s|
    ensures IsCollapsed(s[..m] + "...")
  {
    var t := s[..m] + "...";
    forall i | 0 <= i < |t| && IsSpace(t[i])
      ensures t[i] == ' ' && 0 < i < |t| - 1 && !IsSpace(t[i + 1])
    {
      assert i < m;
      assert t[i] == s[i];
      if i + 1 < m {
        assert t[i + 1] == s[i + 1];
      } else {
        assert t[i + 1] == '.';
      }
    }
  }

  // ---------------------------------------------------------------------------
  // Slicing and shortening
  // ---------------------------------------------------------------------------

  /** Python's `s[:k]`: a negative `k` counts from the end, and the bound is
      clamped to the text. */
  function Take(s: string, k: int): (r: string)
    ensures IsPrefix(r, s)
    ensures 0 <= k ==> |r| == if k < |s| then k else |s|
    ensures k < 0 ==> |r| == if -k < |s| then |s| + k else 0
  {
    if k >= |s| then s
    else if k >= 0 then s[..k]
    else if -k < |s| then s[..|s| + k]
    else ""
  }

  /** The shortening used by the log readers and the trace scanner:
      `s[:n] + "..." if len(s) > n else s`. */
  function Ellipsize(s: string, n: nat): (r: string)
    ensures |s| <= n ==> r == s
    ensures |s| > n ==> |r| == n + 3 && IsPrefix(s[..n], r) && IsSuffix("...", r)
  {
    if |s| > n then s[..n] + "..." else s
  }

  // ---------------------------------------------------------------------------
  // Decimal numerals (`str(n)` and `int(digits)`)
  // ---------------------------------------------------------------------------

  function DigitChar(d: nat): (c: char)
    requires d < 10
    ensures IsDigit(c)
  {
    ('0' as int + d) as char
  }

  function DigitValue(c: char): nat
    requires IsDigit(c)
  {
    (c as int - '0' as int) as nat
  }

  /** `str(n)` for a natural number: a non-empty run of digits. */
  function NatToString(n: nat): (r: string)
    ensures |r| > 0 && AllDigits(r)
    ensures n > 0 ==> r[0] != '0'
  {
    if n < 10 then [DigitChar(n)] else NatToString(n / 10) + [DigitChar(n % 10)]
  }

  /** `str(i)` for any integer: a minus sign before the digits of a negative. */
  function IntToString(i: int): (r: string)
    ensures |r| > 0
    ensures i >= 0 ==> AllDigits(r)
    ensures i < 0 ==> r[0] == '-' && AllDigits(r[1..])
  {
    if i < 0 then "-" + NatToString(-i) else NatToString(i)
  }

  /** `int(ds)` for a run of ASCII digits. */
  function DigitsValue(ds: string): nat
    requires AllDigits(ds)
  {
    if |ds| == 0 then 0 else DigitsValue(ds[..|ds| - 1]) * 10 + DigitValue(ds[|ds| - 1])
  }

  /** Reading back a rendered number gives the number. */
  lemma {:induction false} DigitsValueOfNatToString(n: nat)
    ensures DigitsValue(NatToString(n)) == n
  {
    var r := NatToString(n);
    if n >= 10 {
      DigitsValueOfNatToString(n / 10);
      assert r[..|r| - 1] == NatToString(n / 10);
    }
  }
}

=== FILE: trace_scanner.dfy ===
/** The trace scanner's recursive search for secrets in logged data: every
    dictionary key and every string inside a trace is tested against each
    pattern, and each match becomes a finding with its path and a shortened
    preview. The regular expressions are a parameter: `matches(p, text)`
    says whether pattern `p` is found in `text`, ignoring case. Fetching
    traces is left out. */
module TraceScanner {
  import opened Text

  /** Trace data as it comes back from the tracing service. */
  datatype Json =
    | JObject(entries: seq<(string, Json)>)
    | JArray(items: seq<Json>)
    | JString(s: string)
    | JScalar(shown: string)

  datatype FindingKind = KeyName | Value | StringValue

  datatype Finding = Finding(kind: FindingKind, path: string, pattern: string, preview: string)

  /** The patterns used when none are given: two key formats, the
      environment variable's name, a configuration key and any `api_key`
      field. */
  const DefaultPatterns: seq<string> := [
    "sk-[a-zA-Z0-9]{48}", "sk-proj-[a-zA-Z0-9]{64}", "OPENAI_API_KEY", "openai_api_key", "api_key"]

  /** How much of a key, and of a string value, a finding shows. */
  const KeyPreview := 50
  const ValuePreview := 20

  /** One finding per pattern that matches `text`, in pattern order. */
  function Matching(patterns: seq<string>, matches: (string, string) -> bool, text: string,
                    kind: FindingKind, path: string, width: nat): (found: seq<Finding>)
    ensures |found| <= |patterns|
    ensures forall f :: f in found ==> f.kind == kind && f.path == path && f.preview == Ellipsize(text, width)
    ensures forall p :: p in patterns && matches(p, text) ==> Finding(kind, path, p, Ellipsize(text, width)) in found
    ensures forall f :: f in found ==> f.pattern in patterns && matches(f.pattern, text)
    ensures (forall p :: p in patterns ==> !matches(p, text)) ==> found == []
  {
    if |patterns| == 0 then []
    else
      var rest := Matching(patterns[1..], matches, text, kind, path, width);
      assert forall p :: p in patterns[1..] ==> p in patterns;
      if matches(patterns[0], text) then [Finding(kind, path, patterns[0], Ellipsize(text, width))] + rest
      else rest
  }

  /** What every finding of a search below `path` satisfies. */
  predicate WellFormed(f: Finding, path: string, patterns: seq<string>)
  {
    f.pattern in patterns && IsPrefix(path, f.path)
    && |f.preview| <= (if f.kind == KeyName then KeyPreview else ValuePreview) + 3
  }

  lemma PreviewBound(text: string, width: nat)
    ensures |Ellipsize(text, width)| <= width + 3
  {
  }

  lemma MatchingWellFormed(patterns: seq<string>, matches: (string, string) -> bool, text: string,
                           kind: FindingKind, path: string, root: string)
    requires IsPrefix(root, path)
    ensures var width := if kind == KeyName then KeyPreview else ValuePreview;
      forall f :: f in Matching(patterns, matches, text, kind, path, width) ==> WellFormed(f, root, patterns)
  {
    var width := if kind == KeyName then KeyPreview else ValuePreview;
    PreviewBound(text, width);
  }

  lemma PrefixOfExtension(root: string, path: string, more: string)
    requires IsPrefix(root, path)
    ensures IsPrefix(root, path + more)
  {
    assert (path + more)[..|root|] == path[..|root|];
  }

  /** `search_in_data`: a dictionary reports, for each entry in order, its
      key's matches, its value's matches when the value is a string, and
      then everything found inside the value at `path.key`; a list searches
      each item at `path[i]`; a string reports its matches; other scalars
      give nothing. */
  function Search(data: Json, path: string, patterns: seq<string>, matches: (string, string) -> bool): (found: seq<Finding>)
    ensures forall f :: f in found ==> WellFormed(f, path, patterns)
    ensures (forall p, t :: !matches(p, t)) ==> found == []
    decreases data, 1
  {
    match data
    case JObject(_) => EntriesFrom(data, 0, path, patterns, matches)
    case JArray(_) => ItemsFrom(data, 0, path, patterns, matches)
    case JString(s) =>
      MatchingWellFormed(patterns, matches, s, StringValue, path, path);
      Matching(patterns, matches, s, StringValue, path, ValuePreview)
    case JScalar(_) => []
  }

  /** The findings of the entries of a dictionary from entry `i` on. */
  function EntriesFrom(obj: Json, i: nat, path: string, patterns: seq<string>, matches: (string, string) -> bool): (found: seq<Finding>)
    requires obj.JObject? && i <= |obj.entries|
    ensures forall f :: f in found ==> WellFormed(f, path, patterns)
    ensures (forall p, t :: !matches(p, t)) ==> found == []
    decreases obj, 0, |obj.entries| - i
  {
    if i == |obj.entries| then []
    else
      assert obj.entries[i] in obj.entries;
      EntryFindings(obj.entries[i], path, patterns, matches) + EntriesFrom(obj, i + 1, path, patterns, matches)
  }

  /** What one dictionary entry reports: its key's matches, its value's
      matches when the value is a string, then everything found inside the
      value, all at `path.key`. */
  function EntryFindings(entry: (string, Json), path: string, patterns: seq<string>,
                         matches: (string, string) -> bool): (found: seq<Finding>)
    ensures forall f :: f in found ==> WellFormed(f, path, patterns)
    ensures (forall p, t :: !matches(p, t)) ==> found == []
    ensures forall f :: f in Search(entry.1, path + "." + entry.0, patterns, matches) ==> f in found
    decreases entry.1, 2
  {
    var (key, value) := entry;
    var at := path + "." + key;
    PrefixOfExtension(path, path, "." + key);
    assert at == path + ("." + key);
    var fromKey := Matching(patterns, matches, key, KeyName, at, KeyPreview);
    MatchingWellFormed(patterns, matches, key, KeyName, at, path);
    var fromValue :=
      if value.JString? then
        MatchingWellFormed(patterns, matches, value.s, Value, at, path);
        Matching(patterns, matches, value.s, Value, at, ValuePreview)
      else [];
    var inside := Search(value, at, patterns, matches);
    assert forall f :: f in inside ==> WellFormed(f, path, patterns) by {
      forall f | f in inside ensures WellFormed(f, path, patterns) {
        PrefixOfPrefix(path, at, f.path);
      }
    }
    fromKey + fromValue + inside
  }

  /** The findings of the items of a list from item `i` on. */
  function ItemsFrom(arr: Json, i: nat, path: string, patterns: seq<string>, matches: (string, string) -> bool): (found: seq<Finding>)
    requires arr.JArray? && i <= |arr.items|
    ensures forall f :: f in found ==> WellFormed(f, path, patterns)
    ensures (forall p, t :: !matches(p, t)) ==> found == []
    decreases arr, 0, |arr.items| - i
  {
    if i == |arr.items| then []
    else
      var at := IndexPath(path, i);
      var inside := Search(arr.items[i], at, patterns, matches);
      assert forall f :: f in inside ==> WellFormed(f, path, patterns) by {
        forall f | f in inside ensures WellFormed(f, path, patterns) {
          PrefixOfExtension(path, path, "[" + IntToString(i) + "]");
          assert at == path + ("[" + IntToString(i) + "]");
          PrefixOfPrefix(path, at, f.path);
        }
      }
      inside + ItemsFrom(arr, i + 1, path, patterns, matches)
  }

  /** The path of item `i` below `path`. */
  function IndexPath(path: string, i: nat): string
  {
    path + "[" + IntToString(i) + "]"
  }

  lemma PrefixOfPrefix(a: string, b: string, c: string)
    requires IsPrefix(a, b) && IsPrefix(b, c)
    ensures IsPrefix(a, c)
  {
    assert c[..|a|] == c[..|b|][..|a|];
  }

  /** One more entry at the end of a dictionary appends exactly that
      entry's findings. */
  lemma EntryAppended(entries: seq<(string, Json)>, entry: (string, Json), path: string,
                      patterns: seq<string>, matches: (string, string) -> bool)
    ensures Search(JObject(entries + [entry]), path, patterns, matches)
         == Search(JObject(entries), path, patterns, matches) + EntryFindings(entry, path, patterns, matches)
  {
    EntriesFromAppended(entries, entry, 0, path, patterns, matches);
  }

  lemma {:induction false} EntriesFromAppended(entries: seq<(string, Json)>, entry: (string, Json), i: nat,
                                               path: string, patterns: seq<string>, matches: (string, string) -> bool)
    requires i <= |entries|
    ensures EntriesFrom(JObject(entries + [entry]), i, path, patterns, matches)
         == EntriesFrom(JObject(entries), i, path, patterns, matches) + EntryFindings(entry, path, patterns, matches)
    decreases |entries| - i
  {
    var longer := JObject(entries + [entry]);
    if i == |entries| {
      assert longer.entries[i] == entry;
      assert EntriesFrom(longer, i + 1, path, patterns, matches) == [];
    } else {
      assert longer.entries[i] == entries[i];
      EntriesFromAppended(entries, entry, i + 1, path, patterns, matches);
    }
  }

  /** A dictionary's findings are exactly those of its entries: a finding
      is reported if and only if some entry reports it. */
  lemma EveryEntryIsSearched(entries: seq<(string, Json)>, path: string, patterns: seq<string>,
                             matches: (string, string) -> bool, f: Finding)
    ensures f in Search(JObject(entries), path, patterns, matches)
       <==> exists j :: 0 <= j < |entries| && f in EntryFindings(entries[j], path, patterns, matches)
  {
    EntriesFromHolds(JObject(entries), 0, path, patterns, matches, f);
  }

  lemma {:induction false} EntriesFromHolds(obj: Json, i: nat, path: string, patterns: seq<string>,
                                            matches: (string, string) -> bool, f: Finding)
    requires obj.JObject? && i <= |obj.entries|
    ensures f in EntriesFrom(obj, i, path, patterns, matches)
       <==> exists j :: i <= j < |obj.entries| && f in EntryFindings(obj.entries[j], path, patterns, matches)
    decreases |obj.entries| - i
  {
    if i < |obj.entries| {
      var here := EntryFindings(obj.entries[i], path, patterns, matches);
      var rest := EntriesFrom(obj, i + 1, path, patterns, matches);
      assert EntriesFrom(obj, i, path, patterns, matches) == here + rest;
      EntriesFromHolds(obj, i + 1, path, patterns, matches, f);
      if f in here + rest && f !in rest {
        assert f in EntryFindings(obj.entries[i], path, patterns, matches);
      }
    }
  }

  /** Whatever the search inside an entry's value finds at `path.key` —
      nested dictionaries and lists included — is reported for the
      dictionary. */
  lemma NestedValueIsSearched(entries: seq<(string, Json)>, j: nat, path: string, patterns: seq<string>,
                              matches: (string, string) -> bool, f: Finding)
    requires j < |entries| && f in Search(entries[j].1, path + "." + entries[j].0, patterns, matches)
    ensures f in Search(JObject(entries), path, patterns, matches)
  {
    assert f in EntryFindings(entries[j], path, patterns, matches);
    EveryEntryIsSearched(entries, path, patterns, matches, f);
  }

  /** A matching key anywhere in a dictionary is reported once per
      matching pattern, at `path.key`, with the key shortened to 50
      characters. */
  lemma MatchingKeyIsReported(entries: seq<(string, Json)>, j: nat, path: string, patterns: seq<string>,
                              matches: (string, string) -> bool, p: string)
    requires j < |entries| && p in patterns && matches(p, entries[j].0)
    ensures Finding(KeyName, path + "." + entries[j].0, p, Ellipsize(entries[j].0, KeyPreview))
            in Search(JObject(entries), path, patterns, matches)
  {
    var f := Finding(KeyName, path + "." + entries[j].0, p, Ellipsize(entries[j].0, KeyPreview));
    assert f in EntryFindings(entries[j], path, patterns, matches);
    EveryEntryIsSearched(entries, path, patterns, matches, f);
  }

  /** A matching string held anywhere in a dictionary is reported twice at
      the same path: once as the entry's value and once more, as a string,
      by the search inside it. */
  lemma StringEntryIsReportedTwice(entries: seq<(string, Json)>, j: nat, path: string, patterns: seq<string>,
                                   matches: (string, string) -> bool, p: string)
    requires j < |entries| && entries[j].1.JString? && p in patterns && matches(p, entries[j].1.s)
    ensures var at := path + "." + entries[j].0;
      var preview := Ellipsize(entries[j].1.s, ValuePreview);
      Finding(Value, at, p, preview) in Search(JObject(entries), path, patterns, matches)
      && Finding(StringValue, at, p, preview) in Search(JObject(entries), path, patterns, matches)
  {
    var at := path + "." + entries[j].0;
    var preview := Ellipsize(entries[j].1.s, ValuePreview);
    assert Search(entries[j].1, at, patterns, matches)
        == Matching(patterns, matches, entries[j].1.s, StringValue, at, ValuePreview);
    assert Finding(Value, at, p, preview) in EntryFindings(entries[j], path, patterns, matches);
    assert Finding(StringValue, at, p, preview) in EntryFindings(entries[j], path, patterns, matches);
    EveryEntryIsSearched(entries, path, patterns, matches, Finding(Value, at, p, preview));
    EveryEntryIsSearched(entries, path, patterns, matches, Finding(StringValue, at, p, preview));
  }

  /** One more item at the end of a list appends exactly that item's
      findings, at the next index. */
  lemma ItemAppended(items: seq<Json>, item: Json, path: string, patterns: seq<string>,
                     matches: (string, string) -> bool)
    ensures Search(JArray(items + [item]), path, patterns, matches)
         == Search(JArray(items), path, patterns, matches) + Search(item, IndexPath(path, |items|), patterns, matches)
  {
    ItemsFromAppended(items, item, 0, path, patterns, matches);
  }

  lemma {:induction false} ItemsFromAppended(items: seq<Json>, item: Json, i: nat, path: string,
                                             patterns: seq<string>, matches: (string, string) -> bool)
    requires i <= |items|
    ensures ItemsFrom(JArray(items + [item]), i, path, patterns, matches)
         == ItemsFrom(JArray(items), i, path, patterns, matches) + Search(item, IndexPath(path, |items|), patterns, matches)
    decreases |items| - i
  {
    var longer := JArray(items + [item]);
    if i == |items| {
      assert longer.items[i] == item;
      assert ItemsFrom(longer, i + 1, path, patterns, matches) == [];
    } else {
      assert longer.items[i] == items[i];
      ItemsFromAppended(items, item, i + 1, path, patterns, matches);
    }
  }

  /** A list's findings are exactly those of its items, each searched at
      its indexed path `path[j]`. */
  lemma ListSearchesItems(items: seq<Json>, path: string, patterns: seq<string>,
                          matches: (string, string) -> bool, f: Finding)
    ensures f in Search(JArray(items), path, patterns, matches)
       <==> exists j :: 0 <= j < |items| && f in Search(items[j], IndexPath(path, j), patterns, matches)
  {
    ItemsFromHolds(JArray(items), 0, path, patterns, matches, f);
  }

  lemma {:induction false} ItemsFromHolds(arr: Json, i: nat, path: string, patterns: seq<string>,
                                          matches: (string, string) -> bool, f: Finding)
    requires arr.JArray? && i <= |arr.items|
    ensures f in ItemsFrom(arr, i, path, patterns, matches)
       <==> exists j :: i <= j < |arr.items| && f in Search(arr.items[j], IndexPath(path, j), patterns, matches)
    decreases |arr.items| - i
  {
    if i < |arr.items| {
      var here := Search(arr.items[i], IndexPath(path, i), patterns, matches);
      var rest := ItemsFrom(arr, i + 1, path, patterns, matches);
      assert ItemsFrom(arr, i, path, patterns, matches) == here + rest;
      ItemsFromHolds(arr, i + 1, path, patterns, matches, f);
      if f in here + rest && f !in rest {
        assert f in Search(arr.items[i], IndexPath(path, i), patterns, matches);
      }
    }
  }

  /** Numbers, booleans and null are never reported, whatever the patterns. */
  lemma ScalarsAreNeverReported(shown: string, path: string, patterns: seq<string>, matches: (string, string) -> bool)
    ensures Search(JScalar(shown), path, patterns, matches) == []
  {
  }
}

=== FILE: verifier.dfy ===
/** The fact-checking node: asks the model whether the current hint is
    supported by the retrieved context and records the verdict. */
module Verifier {
  import opened Results
  import opened Text
  import opened GraphState
  import opened Llm

  const Verified := "VERIFIED"
  const ApiErrorReason := "API_ERROR"
  const VerificationErrorReason := "VERIFICATION_ERROR"

  /** The model's reply with surrounding whitespace removed and letters
      upper-cased: a normalised verdict. */
  function Verdict(content: string): (v: string)
    ensures IsStripped(v)
    ensures Upper(v) == v
    ensures |v| <= |content|
    ensures v == "" <==> forall i :: 0 <= i < |content| ==> IsSpace(content[i])
  {
    var t := Strip(content);
    UpperOfStrippedIsStripped(t);
    UpperIdempotent(t);
    Upper(t)
  }

  /** Normalising a verdict a second time changes nothing. */
  lemma VerdictIdempotent(content: string)
    ensures Verdict(Verdict(content)) == Verdict(content)
  {
    StripOfStripped(Verdict(content));
  }

  /** The verdict of a reply is its text between the surrounding
      whitespace, upper-cased. */
  lemma PaddedReplyVerdict(before: string, x: string, after: string)
    requires forall i :: 0 <= i < |before| ==> IsSpace(before[i])
    requires forall i :: 0 <= i < |after| ==> IsSpace(after[i])
    requires |x| > 0 && IsStripped(x)
    ensures Verdict(before + x + after) == Upper(x)
  {
    StripPadded(before, x, after);
  }

  /** Whitespace around the reply and the letter case of the word do not
      matter: any spelling of "verified" with blank padding passes. */
  lemma PaddedVerifiedPasses(before: string, word: string, after: string)
    requires forall i :: 0 <= i < |before| ==> IsSpace(before[i])
    requires forall i :: 0 <= i < |after| ==> IsSpace(after[i])
    requires Upper(word) == Verified
    ensures Verdict(before + word + after) == Verified
  {
    assert |word| == 8;
    assert UpperChar(word[0]) == 'V' && UpperChar(word[7]) == 'D';
    UpperKeepsSpace(word[0]);
    UpperKeepsSpace(word[7]);
    StripPadded(before, word, after);
  }

  /** The verification node. It reads `current_hint`, `user_input` and
      `retrieved_context` before calling the model, so a missing hint or
      context fails the turn; after that every outcome of the call is
      absorbed into `verification_passed` and `verification_reason`. */
  function VerifyCorrectness(s: LangGraphState, llm: Prompt -> LlmOutcome): (r: Result<LangGraphState, NodeError>)
    ensures s.currentHint.None? ==> r == Err(MissingKey("current_hint"))
    ensures s.currentHint.Some? && s.retrievedContext.None? ==> r == Err(MissingKey("retrieved_context"))
    ensures s.currentHint.Some? && s.retrievedContext.Some? ==> r.Ok?
    ensures r.Ok? ==>
      var outcome := llm(VerificationPrompt(s.userInput, s.retrievedContext.value, s.currentHint.value));
      && r.value == s.(verificationPassed := r.value.verificationPassed, verificationReason := r.value.verificationReason)
      && (r.value.verificationPassed == Some(true) <==> outcome.Replied? && Verdict(outcome.content) == Verified)
      && (r.value.verificationPassed == Some(true) ==> r.value.verificationReason == s.verificationReason)
      && (r.value.verificationPassed != Some(true) ==>
            r.value.verificationPassed == Some(false)
            && r.value.verificationReason.Some?
            && r.value.verificationReason.value != Verified
            && (outcome.Replied? ==> r.value.verificationReason.value == Verdict(outcome.content))
            && (outcome.ApiFailure? ==> r.value.verificationReason.value == ApiErrorReason)
            && (outcome.OtherFailure? ==> r.value.verificationReason.value == VerificationErrorReason))
  {
    match s.currentHint
    case None => Err(MissingKey("current_hint"))
    case Some(hint) =>
      match s.retrievedContext
      case None => Err(MissingKey("retrieved_context"))
      case Some(context) =>
        match llm(VerificationPrompt(s.userInput, context, hint))
        case Replied(content) =>
          var verdict := Verdict(content);
          if verdict == Verified then Ok(s.(verificationPassed := Some(true)))
          else Ok(s.(verificationPassed := Some(false), verificationReason := Some(verdict)))
        case ApiFailure => Ok(s.(verificationPassed := Some(false), verificationReason := Some(ApiErrorReason)))
        case OtherFailure => Ok(s.(verificationPassed := Some(false), verificationReason := Some(VerificationErrorReason)))
  }
}

=== FILE: view_chunks.dfy ===
/** The chunk export tool's pure parts: the one-line preview of a chunk's
    text, the row written for each stored point, and the per-type tally.
    The vector store and the CSV file are left out. */
module ViewChunks {
  import opened Results
  import opened Text

  /** The preview length used when none is given. */
  const DefaultPreviewLength := 100

  /** What a row shows for metadata that is not there. */
  const Missing: string := "MISSING"

  /** `truncate_text`: whitespace collapsed to single spaces, then cut to
      `maxLength` characters with "..." appended when longer. */
  function TruncateText(text: string, maxLength: int): (out: string)
    ensures IsCollapsed(out)
    ensures |Collapse(text)| <= maxLength ==> out == Collapse(text)
    ensures |Collapse(text)| > maxLength >= 0 ==>
      |out| == maxLength + 3 && out == Collapse(text)[..maxLength] + "..."
  {
    var collapsed := Collapse(text);
    CollapseIsCollapsed(text);
    if |collapsed| <= maxLength then collapsed
    else
      CollapsedCutWithDots(collapsed, |Take(collapsed, maxLength)|);
      assert Take(collapsed, maxLength) == collapsed[..|Take(collapsed, maxLength)|];
      Take(collapsed, maxLength) + "..."
  }

  /** A preview of a preview is the same preview. A negative length cuts
      from the end, so each application would shorten the text again. */
  lemma TruncateIsIdempotent(text: string, maxLength: int)
    requires maxLength >= 0
    ensures TruncateText(TruncateText(text, maxLength), maxLength) == TruncateText(text, maxLength)
  {
    var once := TruncateText(text, maxLength);
    CollapsedIsFixed(once);
    if |Collapse(text)| > maxLength {
      assert once[..maxLength] == Collapse(text)[..maxLength];
    }
  }

  /** A stored point: its metadata and text, each absent when the payload
      lacks them. */
  datatype Point = Point(metadata: Option<map<string, string>>, pageContent: Option<string>)

  /** One exported row. */
  datatype ChunkRow = ChunkRow(chunkId: string, source: string, documentType: string, preview: string,
                               fullContent: Option<string>)

  /** `metadata.get(key, "MISSING")`. */
  function MetadataField(metadata: map<string, string>, key: string): string
  {
    if key in metadata then metadata[key] else Missing
  }

  /** The row for a point: the three metadata fields, defaulting to
      "MISSING", the preview of its text, and the full text when asked for. */
  function RowOf(p: Point, includeFullContent: bool, previewLength: int): (row: ChunkRow)
    ensures row.chunkId == MetadataField(p.metadata.GetOr(map[]), "chunk_id")
    ensures row.source == MetadataField(p.metadata.GetOr(map[]), "source")
    ensures row.documentType == MetadataField(p.metadata.GetOr(map[]), "document_type")
    ensures row.preview == TruncateText(p.pageContent.GetOr(""), previewLength)
    ensures row.fullContent.Some? <==> includeFullContent
    ensures includeFullContent ==> row.fullContent.value == p.pageContent.GetOr("")
  {
    var metadata := p.metadata.GetOr(map[]);
    var content := p.pageContent.GetOr("");
    ChunkRow(MetadataField(metadata, "chunk_id"), MetadataField(metadata, "source"),
             MetadataField(metadata, "document_type"), TruncateText(content, previewLength),
             if includeFullContent then Some(content) else None)
  }

  /** A point without a payload is exported as missing everywhere, with an
      empty preview. */
  lemma EmptyPointIsMissing(includeFullContent: bool, previewLength: int)
    requires previewLength >= 0
    ensures RowOf(Point(None, None), includeFullContent, previewLength).chunkId == Missing
    ensures RowOf(Point(None, None), includeFullContent, previewLength).source == Missing
    ensures RowOf(Point(None, None), includeFullContent, previewLength).documentType == Missing
    ensures RowOf(Point(None, None), includeFullContent, previewLength).preview == ""
  {
    assert Words("") == [];
  }

  /** The rows for a sequence of points, in order. */
  function Rows(points: seq<Point>, includeFullContent: bool, previewLength: int): (rows: seq<ChunkRow>)
    ensures |rows| == |points|
    ensures forall i :: 0 <= i < |points| ==> rows[i] == RowOf(points[i], includeFullContent, previewLength)
  {
    seq(|points|, i requires 0 <= i < |points| => RowOf(points[i], includeFullContent, previewLength))
  }

  /** The document types of the rows, with repetition. */
  function TypeBag(rows: seq<ChunkRow>): (bag: multiset<string>)
    ensures |bag| == |rows|
  {
    if |rows| == 0 then multiset{} else TypeBag(rows[..|rows| - 1]) + multiset{rows[|rows| - 1].documentType}
  }

  /** Extending the rows by one adds that row's type to the bag. */
  lemma TypeBagStep(rows: seq<ChunkRow>, i: int)
    requires 0 <= i < |rows|
    ensures TypeBag(rows[..i + 1]) == TypeBag(rows[..i]) + multiset{rows[i].documentType}
  {
    assert rows[..i + 1][..i] == rows[..i];
  }

  /** The summary tally: how many rows carry each document type. Every
      type shown has a positive count, and the counts are the
      multiplicities of the rows' types, so they add up to the number of
      rows. */
  method TallyTypes(rows: seq<ChunkRow>) returns (counts: map<string, nat>)
    ensures forall t :: t in counts <==> t in TypeBag(rows)
    ensures forall t :: t in counts ==> counts[t] == TypeBag(rows)[t] > 0
    ensures Total(counts) == |rows|
  {
    counts := map[];
    ghost var bag: multiset<string> := multiset{};
    var i := 0;
    while i < |rows|
      invariant 0 <= i <= |rows|
      invariant bag == TypeBag(rows[..i])
      invariant Tallies(counts, bag)
    {
      var t := rows[i].documentType;
      TypeBagStep(rows, i);
      TallyStep(counts, bag, t);
      bag := bag + multiset{t};
      counts := counts[t := if t in counts then counts[t] + 1 else 1];
      i := i + 1;
    }
    assert rows[..|rows|] == rows;
    TotalIsBagSize(counts, bag);
  }

  /** `counts` holds the positive multiplicities of `bag`. */
  ghost predicate Tallies(counts: map<string, nat>, bag: multiset<string>)
  {
    (forall t :: t in counts ==> counts[t] > 0)
    && forall t {:trigger bag[t]} :: bag[t] == if t in counts then counts[t] else 0
  }

  /** Counting one more row of type `t` keeps the tally. */
  lemma TallyStep(counts: map<string, nat>, bag: multiset<string>, t: string)
    requires Tallies(counts, bag)
    ensures Tallies(counts[t := if t in counts then counts[t] + 1 else 1], bag + multiset{t})
  {
  }

  /** The sum of a tally's counts. */
  ghost function Total(counts: map<string, nat>): nat
    decreases |counts.Keys|
  {
    if counts == map[] then 0
    else
      var t :| t in counts;
      counts[t] + Total(counts - {t})
  }

  /** The sum does not depend on which key is taken first. */
  lemma {:induction false} TotalWithout(counts: map<string, nat>, t: string)
    requires t in counts
    ensures Total(counts) == counts[t] + Total(counts - {t})
    decreases |counts.Keys|
  {
    var u :| u in counts && Total(counts) == counts[u] + Total(counts - {u});
    if u != t {
      assert |(counts - {u}).Keys| < |counts.Keys| by {
        assert (counts - {u}).Keys < counts.Keys;
      }
      assert |(counts - {t}).Keys| < |counts.Keys| by {
        assert (counts - {t}).Keys < counts.Keys;
      }
      TotalWithout(counts - {u}, t);
      TotalWithout(counts - {t}, u);
      assert counts - {u} - {t} == counts - {t} - {u};
    }
  }

  /** A tally whose counts are a bag's multiplicities sums to the bag's
      size. */
  lemma {:induction false} TotalIsBagSize(counts: map<string, nat>, bag: multiset<string>)
    requires forall t :: bag[t] == if t in counts then counts[t] else 0
    ensures Total(counts) == |bag|
    decreases |counts.Keys|
  {
    if counts == map[] {
      assert bag == multiset{};
    } else {
      var t :| t in counts;
      TotalWithout(counts, t);
      assert (counts - {t}).Keys < counts.Keys;
      var rest := bag[t := 0];
      TotalIsBagSize(counts - {t}, rest);
      assert bag == rest + multiset{}[t := counts[t]];
    }
  }
}
